=== FILE: README.md ===
# PySyft core, modelled in Dafny

This project models five pieces of PySyft and proves properties of them.

- **The action-object proxy.** An `ActionObject` wraps a payload and intercepts
  attribute access. Each call records an `Action`. The `Action` names its operands by
  lineage id and carries an additive history hash. The call runs through the
  class-level pre- and post-hook tables:
  - `make_action_side_effect` builds the action;
  - `send_action_side_effect` sends it to the object's node;
  - `propagate_node_uid` stamps the node uid on the result.

  The result is then re-identified (`_syft_attr_propagate_ids`). Also modelled:
  - proxy creation (`__post_init__`, `from_obj`);
  - the empty-placeholder short cut (`has_action_data_empty`, `debox_args_and_kwargs`);
  - the `__getattribute__` routing.

  Modules: `ActionObjects`, `ActionHooks`, `ActionProxy`.
- **The cascading-module-permission tree** (`LibServiceRegistry`). This covers
  `import_from_path`, the `CMPBase` node, and the package-membership test. It also
  covers node `build`, dotted `get_path`, pre-order `flatten` and `reset_objs`, and
  the `CMPTree` root with its first-in first-out worklist build.
- **Request listing** (`RequestService`). This covers the request information list
  of `get_all_info` and its split into pages, and the two page-selection rules. It
  also covers the user-name filter of `filter_all_info`, and the in-place updates of
  `add_changes` and `set_tags`.
- **Execution-output bookkeeping** (`OutputService`). This covers the
  `add_searchable_link_ids` validator, `from_ids` and the id lists. It also covers
  `check_input_ids`, `get_sync_dependencies` and `has_output_read_permissions`.
- **Blob entries** (`BlobStorage`). This covers the `CreateBlobStorageEntry.from_path`
  rule (its errors, mimetype and suffixes), `file_name`, and the metadata projection.

`PyBase` holds the Python building blocks the models share. These are
`Option`/`Result`, `str.split`/`join`/`startswith`/`in`, an insertion-ordered
dictionary as an association list, and list indexing with negative indices.
`Identity` holds `UID`, `LineageID` and Python's `hash`.

Oracles and their models:
- Python's `hash` is an uninterpreted `Hasher`, because string hashing is salted per
  process.
- Fresh `UID()`s are read from a stream `ids`, at a draw counter that every operation
  returns.
- The execution bridge, the type registry `action_type_for_type` and the payload's
  own methods are fields of `Env`.
- `importlib`/`getattr` and object introspection form `Introspection`.
- The filesystem and `mimetypes.guess_type` form `FileSystem`.
- The user, notification and permission services are function parameters.

Four behaviours of the code are easy to misread, and the model follows the code in all four:
- **A raw value is not an operand.** `syft_make_action` accepts only UIDs, lineage
  ids and proxies as operands. A call such as `a + 5` therefore makes
  `make_action_side_effect` fail with the `ValueError`, and the context keeps no
  action. The hooks are fail-open, so the call itself goes on
  (`ActionHooks.RejectedOperandChangesNothing`).
- **Placeholder calls still send.** A call on an `ActionDataEmpty` placeholder runs
  the pre-hooks, including the send to the node, before the empty check picks the
  stand-in result (`ActionProxy.CallMethod`).
- **Keyword proxies reach the payload.** `debox_args_and_kwargs` hands the keyword
  operands back unchanged, so `ActionProxy.CallMethod` passes a keyword proxy to the
  payload's method as it is. `ActionProxy.CallMethodCorrected` is the same wrapper with
  keyword operands unwrapped too (see "## Findings").
- **A failed send keeps the rebuilt action.** The send hook rebuilds the action
  through the make hook, which stores it in the shared context before the send.
  When the node's reply is not an ActionObject, or the execution raises, the send
  hook returns `Err`, but the context already holds that rebuilt action, and the
  fail-open runner carries it on (`ActionHooks.SendSideEffect`). A failing hook
  therefore does not always leave the context as it was.

A raised exception that reaches the caller is modelled as an `Err` whose text is `"<ExceptionClass>: <message>"` (`PyBase.Raise`). An `Err` the source returns as a value carries the source's text unchanged. This covers `from_obj`'s lineage mismatch and the hooks' `Err(str(e))`, which is the exception's message without its class (`PyBase.ExceptionStr`).

## Model

| member | source | states |
|---|---|---|
| `ActionObjects.ActionObject.constructor` | packages/syft/src/syft/core/node/new/action_object.py:314-333 | a proxy holds its kind, id, payload and history hash, and starts without a node uid |
| `ActionObjects.ActionObject.PointTo` | packages/syft/src/syft/core/node/new/action_object.py:357-359 | `syft_point_to` sets the node uid and nothing else |
| `ActionObjects.ArgsHashAppend` | packages/syft/src/syft/core/node/new/action_object.py:98-99 | each further positional operand adds `hash` of its history hash to the total |
| `ActionObjects.KwargsHashRemove` | packages/syft/src/syft/core/node/new/action_object.py:100-102 | every keyword entry contributes `hash(k) + hash(v.hash)` as a separate summand, wherever it sits |
| `ActionObjects.KwargsHashPermutation` | packages/syft/src/syft/core/node/new/action_object.py:100-102 | reordering the keyword operands leaves the keyword part of the hash unchanged |
| `ActionObjects.HistoryHashDeterminedByOperands` | packages/syft/src/syft/core/node/new/action_object.py:87-103 | the history hash depends only on receiver lineage, op, positional operands and the multiset of keyword entries; `path` never contributes |
| `ActionObjects.ArgIds` | packages/syft/src/syft/core/node/new/action_object.py:442-452 | the positional loop succeeds iff every operand is a UID, lineage id or proxy, giving one lineage id per operand, in order |
| `ActionObjects.ArgIdsFirstError` | packages/syft/src/syft/core/node/new/action_object.py:450-452 | a rejected positional list reports the `ValueError` of its first raw operand |
| `ActionObjects.KwargIds` | packages/syft/src/syft/core/node/new/action_object.py:454-463 | the keyword loop succeeds iff every keyword operand is a UID, lineage id or proxy |
| `ActionObjects.KwargIdsFirstError` | packages/syft/src/syft/core/node/new/action_object.py:461-463 | a rejected keyword dict reports the `ValueError` of its first raw operand |
| `ActionObjects.KwargIdsPointwise` | packages/syft/src/syft/core/node/new/action_object.py:454-460 | an accepted keyword dict keeps its keys and order; ids become lineage ids and a proxy is stored as the proxy itself |
| `ActionObjects.BuildAction` | packages/syft/src/syft/core/node/new/action_object.py:402-472 | `syft_make_action` succeeds iff all operands are identifiable; the action keeps path and op, names every positional operand by lineage id, always has a receiver lineage, and draws two or three UIDs (none on failure); keyword operands map to their ids, the receiver lineage takes the first draw when none is given, then the action id and the result lineage take the next two draws in that order |
| `ActionObjects.CollectArgIds` | packages/syft/src/syft/core/node/new/action_object.py:442-452 | the early-exit positional loop computes `ArgIds` |
| `ActionObjects.CollectKwargIds` | packages/syft/src/syft/core/node/new/action_object.py:454-463 | the early-exit keyword loop computes `KwargIds` |
| `ActionObjects.MakeAction` | packages/syft/src/syft/core/node/new/action_object.py:402-472 | the imperative builder produces the action, or the error, and the draw count that `BuildAction` specifies |
| `ActionObjects.MakeMethodAction` | packages/syft/src/syft/core/node/new/action_object.py:474-499 | a method action has the proxy's path and the proxy's own lineage id as receiver |
| `ActionObjects.HookTables.constructor` | packages/syft/src/syft/core/node/new/action_object.py:332-333 | the class-level hook tables start empty |
| `ActionObjects.HookTables.RegisterStandard` | packages/syft/src/syft/core/node/new/action_object.py:597-613 | registration appends make then send to the `ALWAYS` pre list and `propagate_node_uid` to the post list, each only if absent |
| `ActionObjects.HookTables.RegisterPre` | packages/syft/src/syft/core/node/new/action_object.py:599-607 | the pre-hook half of the registration, leaving the post table alone |
| `ActionObjects.HookTables.RegisterPost` | packages/syft/src/syft/core/node/new/action_object.py:609-613 | the post-hook half of the registration, leaving the pre table alone |
| `ActionObjects.RegistrationIdempotent` | packages/syft/src/syft/core/node/new/action_object.py:597-613 | registering a second time changes neither table |
| `ActionObjects.RegistrationStable` | packages/syft/src/syft/core/node/new/action_object.py:597-613 | after any positive number of proxies, the tables hold exactly `[make, send]` and `[propagate_node_uid]` under `ALWAYS` |
| `ActionObjects.RegistrationKeepsOthers` | packages/syft/src/syft/core/node/new/action_object.py:597-613 | registration leaves hooks under other names alone and only appends to the `ALWAYS` list |
| `ActionObjects.Create` | packages/syft/src/syft/core/node/new/action_object.py:597-618 | construction draws one UID and rejects a payload that is not an instance of the kind's internal type (an instance of a subclass, such as `True` for `int`, is accepted, as the `isinstance` validator at lines 345-354 does), raising `SyftException` with `Must init <class '…'> with <class '…'> not <class '…'>`; otherwise it registers the hooks and raises on a nested proxy; a new proxy has `hash(id)` as history hash |
| `ActionObjects.AdoptIdentity` | packages/syft/src/syft/core/node/new/action_object.py:564-571 | a lineage gives its id and hash; an id alone gives that id and `hash(id)`; otherwise nothing changes |
| `ActionObjects.FromObj` | packages/syft/src/syft/core/node/new/action_object.py:540-573 | disagreeing id and lineage give `Err` without constructing; success iff the registry's kind accepts a non-proxy payload; the result's lineage is the given lineage, else `LineageID(id)`, else the fresh one |
| `ActionObjects.FromObjAsWritten` | packages/syft/src/syft/core/node/new/action_object.py:555-562 | as written, only the lineage mismatch comes back as `Err`; a refused payload or a nested proxy never yields a result, but a forward-reference alias or a `SyntaxError`, while an accepted plain payload yields `Ok` |
| `ActionObjects.SubscriptErr` | packages/syft/src/syft/core/node/new/action_object.py:562 | `Err[text]` is never a result: it is an alias exactly when the text is an expression, and raises otherwise |
| `ActionObjects.OutputActionObject` | packages/syft/src/syft/core/node/new/action_object.py:664-675 | a proxy result is returned as is; any other result is wrapped in a fresh proxy of the registry's kind, with a fresh lineage |
| `ActionHooks.MakeSideEffect` | packages/syft/src/syft/core/node/new/action_object.py:188-211 | the make hook succeeds iff all operands are identifiable; it stores the method action in the context and returns the operands unchanged; on failure the context is untouched and the error is the `ValueError`'s message without its class |
| `ActionHooks.MakeRejectsWithMessage` | packages/syft/src/syft/core/node/new/action_object.py:204-210 | a rejected operand makes the make hook return the message of the first rejected positional operand, or of the first rejected keyword operand when every positional one is accepted, naming its `<class '...'>` |
| `PyBase.ExceptionStrOfRaise` | packages/syft/src/syft/core/node/new/action_object.py:209-210 | reading `str(e)` back from an exception carried as `"<class>: <message>"` gives the message, for every class name |
| `ActionHooks.SendSideEffect` | packages/syft/src/syft/core/node/new/action_object.py:214-256 | side-effect-free ops pass through untouched; without a node uid it fails; a rejected operand fails with the make hook's own message, sending nothing; it sends at most one action; a proxy reply sets the context's node uid and result id; after a send the context holds the sent action, even when the hook then fails |
| `ActionHooks.ApplyPreHook` | packages/syft/src/syft/core/node/new/action_object.py:626-629 | one runner step keeps the receiver, op name and operands, and only adds draws and sent actions |
| `ActionHooks.RunHooks` | packages/syft/src/syft/core/node/new/action_object.py:626-638 | running a hook list keeps the receiver, op name and operands, and only adds draws and sent actions |
| `ActionHooks.RunHookList` | packages/syft/src/syft/core/node/new/action_object.py:626-629 | the runner loop over one list computes `RunHooks` |
| `ActionHooks.RunPreHooks` | packages/syft/src/syft/core/node/new/action_object.py:620-640 | `_syft_run_pre_hooks__` runs the hooks selected for the name, in order |
| `ActionHooks.RunHooksAppend` | packages/syft/src/syft/core/node/new/action_object.py:620-640 | running two lists in a row is running their concatenation |
| `ActionHooks.PreHookOrder` | packages/syft/src/syft/core/node/new/action_object.py:625-638 | the name's own hooks run first, then the `ALWAYS` hooks, the latter only for names outside the dont-wrap list |
| `ActionHooks.SideEffectFreeNeverDispatches` | packages/syft/src/syft/core/node/new/action_object.py:230-233 | for ops in `dont_make_side_effects`, no hook sequence sends anything to a node |
| `ActionHooks.RejectedOperandChangesNothing` | packages/syft/src/syft/core/node/new/action_object.py:204-211 | with a raw operand no hook changes the runner's state: the make hook fails, and the send hook either fails building its action or returns before sending (a side-effect-free op, or a proxy without a node) |
| `ActionHooks.MakeStep` | packages/syft/src/syft/core/node/new/action_object.py:204-211 | with acceptable operands, the make hook records the built action and draws two UIDs |
| `ActionHooks.SendStep` | packages/syft/src/syft/core/node/new/action_object.py:235-256 | a send rebuilds the action, dispatches exactly it, and takes the node uid and result id only from a proxy reply |
| `ActionHooks.StandardPipeline` | packages/syft/src/syft/core/node/new/action_object.py:620-640 | with the standard tables, one intercepted call builds the action twice and sends the second build once; the context ends with that action, and with the reply's node uid and the action's result id when a proxy came back, unset otherwise |
| `ActionHooks.MethodActionFields` | packages/syft/src/syft/core/node/new/action_object.py:474-499 | a built method action carries the op, the receiver's lineage and one id per positional operand |
| `ActionHooks.StandardSelection` | packages/syft/src/syft/core/node/new/action_object.py:632-638 | with the standard table, a wrapped name runs make and then send |
| `ActionHooks.PropagateNodeUidHook` | packages/syft/src/syft/core/node/new/action_object.py:259-293 | the result object is returned unchanged; `Ok` iff the op is side-effect free or the guards pass; when the guards pass, a proxy result gets the receiver's node uid, and nothing else of it changes; the failure message names the guard that failed |
| `ActionHooks.RunPostHooks` | packages/syft/src/syft/core/node/new/action_object.py:642-662 | the post runner hands back the result object itself; a proxy result's node uid is overwritten only when a hook ran and applied |
| `ActionProxy.AnyEmpty` | packages/syft/src/syft/core/node/new/action_object.py:1060-1064 | true iff some positional operand is, or wraps, `ActionDataEmpty` |
| `ActionProxy.AnyEmptyKw` | packages/syft/src/syft/core/node/new/action_object.py:1065-1067 | true iff some keyword operand is, or wraps, `ActionDataEmpty` |
| `ActionProxy.Unwrap` | packages/syft/src/syft/core/node/new/action_object.py:300-302 | unwrapping never leaves a proxy |
| `ActionProxy.UnwrapAll` | packages/syft/src/syft/core/node/new/action_object.py:299-303 | positional operands are unwrapped one for one, count and order kept |
| `ActionProxy.UnwrapKw` | packages/syft/src/syft/core/node/new/action_object.py:305-309 | keyword operands are unwrapped one for one, keys and order kept |
| `ActionProxy.Debox` | packages/syft/src/syft/core/node/new/action_object.py:296-311 | corrected debox: both positional and keyword proxies are replaced by their payloads |
| `ActionProxy.DeboxAsWritten` | packages/syft/src/syft/core/node/new/action_object.py:296-311 | as written: positional operands are unwrapped and the keyword dict comes back unchanged |
| `ActionProxy.DeboxAsWrittenLeaksKeywordProxy` | packages/syft/src/syft/core/node/new/action_object.py:305-309 | a keyword proxy is left in place by the code as written, whose keyword dict comes back unchanged, while the corrected debox replaces it with its payload |
| `ActionProxy.EmptyTestSurvivesDebox` | packages/syft/src/syft/core/node/new/action_object.py:1052-1068 | the placeholder test gives the same answer before and after unwrapping |
| `ActionProxy.UnwrapIdempotent` | packages/syft/src/syft/core/node/new/action_object.py:296-311 | after unwrapping no proxies remain, and unwrapping again changes nothing |
| `ActionProxy.PropagateIds` | packages/syft/src/syft/core/node/new/action_object.py:698-717 | dont-wrap names return the result untouched; otherwise the result is wrapped; its node uid always becomes the context's; its hash comes from the context's action when set; its id from the context's result id when set |
| `ActionProxy.CallPayload` | packages/syft/src/syft/core/node/new/action_object.py:787-793 | as written: the call yields the placeholder when an operand is empty or the stand-in was bound; otherwise it is the payload's method on the unwrapped positional operands and the keyword operands exactly as passed, proxies included |
| `ActionProxy.CallPayloadCorrected` | packages/syft/src/syft/core/node/new/action_object.py:787-793 | the same call with keyword proxies unwrapped as well |
| `ActionProxy.CallsAgreeOnPlainKeywords` | packages/syft/src/syft/core/node/new/action_object.py:296-311 | when no keyword operand is a proxy, the call as written and the corrected call give the same result |
| `ActionProxy.CorrectedSeesOnlyPayloads` | packages/syft/src/syft/core/node/new/action_object.py:296-311 | the corrected call depends on keyword operands only through their payloads: a proxy and its payload give the same result |
| `ActionProxy.UnwrapKwPlain` | packages/syft/src/syft/core/node/new/action_object.py:305-309 | unwrapping keyword operands that hold no proxy changes nothing |
| `ActionProxy.CallMethod` | packages/syft/src/syft/core/node/new/action_object.py:763-798 | a missing attribute raises before any hook runs; otherwise the pre-hooks run, then the call, the post-hooks and re-identification; a wrapped result carries the hooks' node uid and result id, and the history hash of the action the hooks built (or of a freshly drawn UID when none was built); keyword proxies reach the payload unchanged |
| `ActionProxy.CallMethodCorrected` | packages/syft/src/syft/core/node/new/action_object.py:763-798 | the method wrapper with keyword operands deboxed; otherwise the same promises as `CallMethod` |
| `ActionProxy.WrapResult` | packages/syft/src/syft/core/node/new/action_object.py:795-796 | after the post-hooks, a dont-wrap name returns the plain value; any other result is wrapped with the context's node uid, its result id (or a fresh UID) and its action's history hash |
| `ActionProxy.CallProperty` | packages/syft/src/syft/core/node/new/action_object.py:744-761 | a property read runs the pre-hooks without operands and re-identifies the value like a method result, including the history hash of the action the hooks built |
| `ActionProxy.CallBool` | packages/syft/src/syft/core/node/new/action_object.py:719-742 | `bool()` on a non-bool payload runs only the `__bool__` hooks and returns the plain truth value, never a proxy |
| `ActionProxy.StandardRouting` | packages/syft/src/syft/core/node/new/action_object.py:842-860 | with only the standard hooks installed, a lookup runs make and send exactly when its name is not internal, passthrough or dont-wrap, and runs no hook otherwise; `__bool__` never sends |
| `LibServiceRegistry.NonEmpty` | packages/syft/src/syft/serde/lib_service_registry.py:44 | the attribute steps are exactly the non-empty segments |
| `LibServiceRegistry.ImportFromPath` | packages/syft/src/syft/serde/lib_service_registry.py:36-47 | imports the text before the first dot, then follows each attribute step; the first failure is the outcome |
| `LibServiceRegistry.SplitModuleParts` | packages/syft/src/syft/serde/lib_service_registry.py:37-41 | the module part has no dot, and module, dot and rest rebuild the path |
| `LibServiceRegistry.DotFreePathHasNoSteps` | packages/syft/src/syft/serde/lib_service_registry.py:36-47 | a dot-free path has no attribute steps and is just the module import |
| `LibServiceRegistry.AttrStepsAreNames` | packages/syft/src/syft/serde/lib_service_registry.py:44 | every attribute step is a non-empty, dot-free name |
| `LibServiceRegistry.StepsRebuildPath` | packages/syft/src/syft/serde/lib_service_registry.py:36-47 | for a path without empty segments, module and steps joined by dots give the path back |
| `LibServiceRegistry.CheckPackageMembership` | packages/syft/src/syft/serde/lib_service_registry.py:185-210 | equal or missing names give false; a child name that starts with the parent's gives true; otherwise a string `__module__` decides by the parent's first segment, a non-string `__module__` gives false, and a missing one lets `__class__.__module__` decide by the parent's full name |
| `LibServiceRegistry.ModuleUnderParentIsMember` | packages/syft/src/syft/serde/lib_service_registry.py:194-203 | a child whose module lies under the parent's name is a member |
| `LibServiceRegistry.KeyByPathKeys` | packages/syft/src/syft/serde/lib_service_registry.py:70 | a child list becomes a dict with distinct keys, exactly the children's paths |
| `LibServiceRegistry.KeyByPathLast` | packages/syft/src/syft/serde/lib_service_registry.py:70 | a path that occurs once more later is looked up to its last child |
| `LibServiceRegistry.NewCMP` | packages/syft/src/syft/serde/lib_service_registry.py:53-83 | the node keeps its fields and its children's keys; a child without an absolute path gets `"<path>.<child path>"`, others keep theirs |
| `LibServiceRegistry.GetPathIn` | packages/syft/src/syft/serde/lib_service_registry.py:273-282 | a failed lookup raises `property <rest of path> does not exist` |
| `LibServiceRegistry.GetPathFollowsSegments` | packages/syft/src/syft/serde/lib_service_registry.py:273-282 | `get_path` succeeds iff the dot-split segments lead child by child to a node, and returns that node |
| `LibServiceRegistry.SingleSegmentIsDirectChild` | packages/syft/src/syft/serde/lib_service_registry.py:276-278 | a single segment finds exactly the direct child of that key |
| `LibServiceRegistry.Nodes` | packages/syft/src/syft/serde/lib_service_registry.py:212-216 | the pre-order starts with the node itself |
| `LibServiceRegistry.NodesUnfold` | packages/syft/src/syft/serde/lib_service_registry.py:212-216 | `flatten` is the node followed by its children's flattens, in dict order |
| `LibServiceRegistry.FlattenNode` | packages/syft/src/syft/serde/lib_service_registry.py:212-216 | the accumulating loop computes the pre-order |
| `LibServiceRegistry.ReachableIsFlattened` | packages/syft/src/syft/serde/lib_service_registry.py:273-282 | every node `get_path` can reach is listed by `flatten` |
| `LibServiceRegistry.ResetObjs` | packages/syft/src/syft/serde/lib_service_registry.py:289-292 | `reset_objs` clears the subtree's objects and keeps the rest |
| `LibServiceRegistry.ClearedHoldsNoObjects` | packages/syft/src/syft/serde/lib_service_registry.py:289-292 | after `reset_objs` no node of the subtree holds an object |
| `LibServiceRegistry.ClearedKeepsPaths` | packages/syft/src/syft/serde/lib_service_registry.py:289-292 | `reset_objs` keeps the shape: the same paths reach the cleared nodes |
| `LibServiceRegistry.InitChild` | packages/syft/src/syft/serde/lib_service_registry.py:125-182 | a child node exists iff the object is a package member; it is childless, of the object's class, and inherits the parent's permissions |
| `LibServiceRegistry.BuildNode` | packages/syft/src/syft/serde/lib_service_registry.py:88-117 | the imperative `build` computes `BuildSpec`, including its import error |
| `LibServiceRegistry.BuildAttrsGrows` | packages/syft/src/syft/serde/lib_service_registry.py:98-117 | the attribute loop only adds children: old ones stay, pushed names are children, and each new one was pushed and is the child `init_child` makes from `getattr`'s value |
| `LibServiceRegistry.BuildAttrsCovers` | packages/syft/src/syft/serde/lib_service_registry.py:100-117 | the loop pushes only listed names; it pushes every listed existing child and every listed member attribute, and a listed member attribute becomes a child |
| `LibServiceRegistry.StepCovers` | packages/syft/src/syft/serde/lib_service_registry.py:101-117 | one attribute keeps what was pushed and added, pushes only itself, and is pushed (and, for a member, added) unless ignored |
| `LibServiceRegistry.StepGrows` | packages/syft/src/syft/serde/lib_service_registry.py:100-117 | one attribute either reuses the existing child, adds the child `init_child` makes from `getattr`'s value, or is skipped |
| `LibServiceRegistry.BuildGrows` | packages/syft/src/syft/serde/lib_service_registry.py:88-117 | `build` keeps the node's header and existing children; a name becomes a new child iff it is listed in `__dict__`, not ignored, readable by `getattr` and a package member, and the child is `init_child`'s; exactly the listed existing children and those new children are pushed; ignored names never become or push children |
| `LibServiceRegistry.SetAtThenAt` | packages/syft/src/syft/serde/lib_service_registry.py:115-117 | a node written back into the tree is found at its path, and the roots keep their keys |
| `LibServiceRegistry.SetAtKeepsPaths` | packages/syft/src/syft/serde/lib_service_registry.py:115-117 | writing back a node that keeps its children keeps every path of the tree |
| `LibServiceRegistry.AtPathChild` | packages/syft/src/syft/serde/lib_service_registry.py:115-117 | a child stored under a node is reached by that node's path plus its key |
| `LibServiceRegistry.SetAtKeepsHeaders` | packages/syft/src/syft/serde/lib_service_registry.py:88-117 | writing a built node back keeps every root's class, path, permissions and absolute path, so the anchoring of the roots survives the build |
| `LibServiceRegistry.CMPTree.constructor` | packages/syft/src/syft/serde/lib_service_registry.py:352-353 | the roots are keyed by their paths, with an empty worklist |
| `LibServiceRegistry.CMPTree.Step` | packages/syft/src/syft/serde/lib_service_registry.py:360-362 | one turn pops the front of the worklist and builds that node; on success the built node is written back and its pushed children join the end; a raising import leaves the tree as it was |
| `LibServiceRegistry.CMPTree.Build` | packages/syft/src/syft/serde/lib_service_registry.py:355-363 | the build keeps the roots' keys, anchors every root and keeps the worklist pointing into the tree; a raising import ends it with that error, and a finished build leaves the worklist empty |
| `LibServiceRegistry.CMPTree.Anchor` | packages/syft/src/syft/serde/lib_service_registry.py:357-359 | each root's absolute path becomes its path, nothing else changes, and the roots seed the worklist in order |
| `LibServiceRegistry.CMPTree.Flatten` | packages/syft/src/syft/serde/lib_service_registry.py:365-369 | `CMPTree.flatten` concatenates the roots' pre-orders without the tree itself |
| `LibServiceRegistry.CMPTree.GetPath` | packages/syft/src/syft/serde/lib_service_registry.py:380-389 | the tree's `get_path` finds exactly the node the segments lead to, and that node is one `flatten` lists |
| `RequestService.Request.AddChanges` | packages/syft/src/syft/service/request/request_service.py:147 | the changes become the old changes followed by the new ones; tags are untouched |
| `RequestService.Request.SetTags` | packages/syft/src/syft/service/request/request_service.py:269-271 | the tag list is replaced wholesale; changes are untouched |
| `RequestService.Chunks` | packages/syft/src/syft/service/request/request_service.py:132-134 | every chunk but the last has exactly `page_size` items, the last is non-empty and at most that, and there are none only for an empty list |
| `RequestService.ChunkCountIsCeiling` | packages/syft/src/syft/service/request/request_service.py:132-134 | there are ⌈n / page_size⌉ chunks |
| `RequestService.ChunkAt` | packages/syft/src/syft/service/request/request_service.py:132-134 | chunk `k` is `requests[k*page_size : k*page_size + page_size]`, as in the comprehension |
| `RequestService.ChunksConcat` | packages/syft/src/syft/service/request/request_service.py:132-134 | the chunks concatenate back to the list |
| `RequestService.PageAll` | packages/syft/src/syft/service/request/request_service.py:128-138 | a falsy page size gives the flat list; page index 0 or `None` gives all chunks; a positive index within range gives that one chunk |
| `RequestService.PageFiltered` | packages/syft/src/syft/service/request/request_service.py:167-175 | a falsy page size gives the flat list; a `None` index gives all chunks; an index within range, 0 included, gives that one chunk |
| `RequestService.PageZeroDisagrees` | packages/syft/src/syft/service/request/request_service.py:135-138 | page index 0 means every page to `get_all_info` but the first page to `filter_all_info` |
| `RequestService.PageIsSlice` | packages/syft/src/syft/service/request/request_service.py:132-136 | a page picked by a non-zero index is the slice it covers |
| `RequestService.FilterByName` | packages/syft/src/syft/service/request/request_service.py:161-163 | the filter keeps exactly the entries whose user name contains the filter name |
| `RequestService.FilterAppend` | packages/syft/src/syft/service/request/request_service.py:161-163 | filtering keeps the original order |
| `RequestService.FilterIdempotent` | packages/syft/src/syft/service/request/request_service.py:161-163 | filtering twice by the same name changes nothing more |
| `RequestService.GetAllInfo` | packages/syft/src/syft/service/request/request_service.py:108-138 | one information entry per stored request, in stash order, then paged by `PageAll` |
| `RequestService.FilterAllInfo` | packages/syft/src/syft/service/request/request_service.py:150-175 | unpaged, the result holds exactly the matching entries of the full list |
| `RequestService.DefaultListingIsFlat` | packages/syft/src/syft/service/request/request_service.py:112-129 | with its default arguments `get_all_info` returns the flat list |
| `OutputService.AddSearchableLinkIds` | packages/syft/src/syft/service/output/output_service.py:63-68 | `user_code_id` is set from a present `user_code_link`, and `job_id` from a truthy `job_link`; other keys are untouched; a non-link value raises |
| `OutputService.KeepIds` | packages/syft/src/syft/service/output/output_service.py:108 | the filtered input dict is no longer than the given one |
| `OutputService.KeepIdsLookup` | packages/syft/src/syft/service/output/output_service.py:108 | a key survives the filter iff its value is a UID, with that value |
| `OutputService.NormaliseOutputIds` | packages/syft/src/syft/service/output/output_service.py:87-88 | a single UID becomes a one-element list, a list is kept as it is, and a dict is kept with its keys and order |
| `OutputService.FromIds` | packages/syft/src/syft/service/output/output_service.py:71-116 | the stored output ids are the normalised argument; the job link exists iff a job id is given; the user-code link and the job link point at the given user code and job on the given server; the verify key and output policy id are stored as given; `user_code_id` and `job_id` are the given ids |
| `OutputService.FromIdsStoresIdInputs` | packages/syft/src/syft/service/output/output_service.py:107-108 | the stored input ids are exactly the supplied entries whose value is a UID |
| `OutputService.OutputIdList` | packages/syft/src/syft/service/output/output_service.py:131-138 | the list itself, the dict's values in order, or `[]` |
| `OutputService.InputIdList` | packages/syft/src/syft/service/output/output_service.py:140-145 | the input dict's values in order, or `[]` |
| `OutputService.CheckInputIds` | packages/syft/src/syft/service/output/output_service.py:147-162 | true iff nothing is stored, or every supplied key is stored with an equal id |
| `OutputService.StoredInputsPass` | packages/syft/src/syft/service/output/output_service.py:157-162 | stored inputs pass their own check, also with a prefix of them left out |
| `OutputService.GetSyncDependencies` | packages/syft/src/syft/service/output/output_service.py:164-173 | the output ids in order, then the user code id, then the job id when set |
| `OutputService.ReadsFor` | packages/syft/src/syft/service/output/output_service.py:274-278 | one read permission per output id, for the given user |
| `OutputService.HasOutputReadPermissions` | packages/syft/src/syft/service/output/output_service.py:258-282 | true iff some stored output's whole list of reads passes the permission check |
| `BlobStorage.SuffixesAreNameTail` | packages/syft/src/syft/types/blob_storage.py:154 | the recorded extensions, concatenated, are a tail of the file name |
| `BlobStorage.NoSuffixes` | packages/syft/src/syft/types/blob_storage.py:154 | there are no extensions iff the name ends with a dot or has no dot past its leading dots |
| `BlobStorage.FromPath` | packages/syft/src/syft/types/blob_storage.py:130-156 | a missing path and a non-file each raise their own error; `.jsonl` anywhere forces the JSON-lines mimetype; else the caller's mimetype, else the guess, else an error; the entry records the stat size, the path suffixes and `BlobFileType` |
| `BlobStorage.JsonlIgnoresCallerMimetype` | packages/syft/src/syft/types/blob_storage.py:138-139 | for a `.jsonl` path the caller's mimetype makes no difference, and success depends only on the file existing |
| `BlobStorage.JsonlAnywhere` | packages/syft/src/syft/types/blob_storage.py:138 | `.jsonl` at any position of the path text counts |
| `BlobStorage.FileName` | packages/syft/src/syft/types/blob_storage.py:158-160 | the file name is the id's text followed by the concatenated extensions |
| `BlobStorage.FromPathFileName` | packages/syft/src/syft/types/blob_storage.py:151-160 | an entry made from a path is stored under the id's text followed by a tail of the file's own name that is empty or starts at a dot |
| `BlobStorage.MetadataKeepsExactlyFour` | packages/syft/src/syft/types/blob_storage.py:163-165 | two entries have equal metadata iff they agree on id, type, mimetype and file size |

## Left out

- `syft_execute_action`, `send`, `get_from` and the API calls behind them: the reply to a sent action is the `bridge` oracle of `Env`.
- Python introspection: `syft_get_property`/`syft_is_property`, `_syft_get_attr_context`, `inspect`/`types.MethodType` wrapping, signature copying and `debug_original_func`. They are interpreter machinery. Whether an attribute is a property is a parameter of the routing.
- The dunder forwarding bodies (`__add__` and the rest). Each is one more call through the generic method path `ActionProxy.CallMethod`.
- `ActionObjectPointer`, `ActionObject.empty`, `keys`, `__repr__`/`__str__` and the `AnyActionObject` numeric casts. They are outside the modelled call path.
- pydantic validation is reduced to the two validators that matter: the fresh id and the payload type check. Wrong field types are not modelled.
- UID truthiness: every UID is truthy, so `if id` and `if job_id` are modelled as "is given".
- `ActionHooks.SendSideEffect`: the `hasattr(context.obj, "syft_node_uid")` guard is always true for a proxy and is not modelled separately.
- Concrete values of `hash` are not modelled; only how hashes combine is.
- `ActionProxy.CallMethod`: the payload's methods (`Env.invoke`) return plain data, so a method whose result is already an ActionObject is not modelled. The wrapper therefore never takes `_syft_output_action_object`'s path that returns a proxy as it is; that path is modelled in `ActionObjects.OutputActionObject`.
- A class rendered in a message (`str(type(v))`, and the proxy class and internal type in the payload validator's error) is `<class '<name>'>` with the class's name; the module qualification Python adds for classes outside `builtins` is not modelled.
- `ActionObjects.FromObjAsWritten`: the text handed to the forward reference is the model's error text. In the source it is `str(e)`: the text of pydantic's `ValidationError`, or the repr of the argument tuple of `Exception("Nested ActionObjects", obj)`. That exact text, and whether it parses as an expression, are given by the `isExpression` parameter, and the `SyntaxError` text quotes it with single quotes only.
- `CMPBase.rebuild`: it re-imports every node's object recursively and is not modelled. `reset_objs` and `build`'s import are.
- `set_signature`, `get_signature` and the `text_signature` parsing are left out; they call into foreign libraries.
- `CMPBase.__getattr__` and `CMPTree.__getattr__` are left out. They are one-segment lookups, covered by `SingleSegmentIsDirectChild`, and differ only in the error text.
- `CMPBase.__repr__` and `CMPTree.__repr__` are left out; they are formatting.
- `CMPBase.isfunction`'s numpy/jax checks are folded into the `classify` oracle.
- CMP aliasing: the tree is a value, and the worklist holds key paths instead of node references. The source's in-place update of a shared node is modelled as writing the built node back at its path (`SetAt`). A node reachable along two paths is not modelled.
- `LibServiceRegistry.CMPTree.Build`: the model stops after `fuel` node builds, reporting `OutOfFuel`. The source loops until the stack is empty, which need not happen when module attributes form a cycle. Its contract covers the invariants kept and the `Done` case, not the finished tree's contents.
- `CMPTree.build` returns `self`, which the model does not: `Build` works on the object in place.
- Persistence and messaging in the request and output services are left out: the stash, `save`, `apply`/`undo`, notifications, email and `LinkedObject.with_context`. The user and notification lookups of `get_all_info` are function parameters.
- `ExecutionOutput.outputs`, the stash queries and `created_at` are left out; they need the API client or the clock.
- `OutputService.HasOutputReadPermissions`: a permission names the output's UID where the source passes its inner `.id` value. The two determine each other.
- `OutputService.AddSearchableLinkIds`: a validator's dict is updated in place in the source. The model returns the new dict.
- `CreateBlobStorageEntry.from_obj` is left out: it measures `sys.getsizeof` of the serialised object.
- `BlobFile.read` and `iter_lines` are left out; they are API calls.
- The filesystem, `stat` and `mimetypes.guess_type` are the `FileSystem` oracle.
- Paths follow POSIX `pathlib` only; Windows path flavours are not modelled.
- `str(UID)` is the `strOfUid` parameter of `FileName`.
- `BlobStorageEntry.created_at` is a plain field; the clock is not modelled.

## Findings

| source | as written | input that shows it | evidently intended | confidence | as-written member | corrected member |
|---|---|---|---|---|---|---|
| packages/syft/src/syft/core/node/new/action_object.py:562 | `return Err[str(e)]` subscripts the `Err` class, so a failed construction makes a forward reference: a typing alias when `str(e)` is an expression, a `SyntaxError` when it is not, and never a result | `ActionObject.from_obj(p)` where `p` is itself an ActionObject mapped to `AnyActionObject`: `__post_init__` raises "Nested ActionObjects" and `from_obj` does not return `Err` | `return Err(str(e))` | not executed | `ActionObjects.FromObjAsWritten` | `ActionObjects.FromObj` |
| packages/syft/src/syft/core/node/new/action_object.py:309 | `filtered_kwargs[k] = a` stores the original operand, so keyword proxies are never deboxed | `x.method(other=y)` with `y` a proxy: the payload's method receives the proxy `y`, not its payload | `filtered_kwargs[k] = value` | not executed | `ActionProxy.DeboxAsWritten` with `ActionProxy.DeboxAsWrittenLeaksKeywordProxy`, used by `ActionProxy.CallMethod` | `ActionProxy.Debox` with `ActionProxy.CorrectedSeesOnlyPayloads`, used by `ActionProxy.CallMethodCorrected` |

=== FILE: action_hooks.dfy ===
/**
 * The hook pipeline around every intercepted call: the context the hooks share,
 * the three standard hooks (`make_action_side_effect`, `send_action_side_effect`,
 * `propagate_node_uid`) and the two runners (`_syft_run_pre_hooks__`,
 * `_syft_run_post_hooks__`).
 *
 * The context is one object that the hooks change in place, so whatever a hook did
 * to it before failing stays; the runners ignore `Err` and carry on (fail-open).
 * The model passes the context as a value and a hook reports the context as it
 * left it (`ctxAfter`) next to its result. UIDs drawn and actions sent to a node
 * are effects on the outside world and are kept whatever the outcome.
 */
module ActionHooks {
  import opened PyBase
  import opened Identity
  import opened ActionObjects

  /** `PreHookContext` */
  datatype PreHookContext = PreHookContext(
    obj: ActionObject,
    opName: string,
    nodeUid: Option<UID>,
    resultId: Option<LineageID>,
    action: Option<Action>)

  /** `PreHookContext(obj=self, op_name=name)` */
  function NewContext(obj: ActionObject, name: string): PreHookContext {
    PreHookContext(obj, name, None, None, None)
  }

  /**
   * What the pre-hook runner threads from hook to hook: the context, the operands,
   * the number of UIDs drawn so far and the actions sent to a node so far.
   */
  datatype PreState = PreState(
    ctx: PreHookContext,
    args: seq<Operand>,
    kwargs: Dict<string, Operand>,
    draw: nat,
    dispatched: seq<Action>)

  /** One hook's run: its result, the context as it left it, and the effects. */
  datatype HookRun = HookRun(
    result: Result<(PreHookContext, seq<Operand>, Dict<string, Operand>)>,
    ctxAfter: PreHookContext,
    draw: nat,
    dispatched: seq<Action>)

  /** The action `syft_make_method_action` builds for the context's receiver and operation. */
  function ContextAction(s: PreState, env: Env): (Result<Action>, nat)
    reads s.ctx.obj, OperandObjs(s.args)
  {
    BuildMethodAction(s.ctx.obj, s.ctx.opName, s.args, s.kwargs, env.h, env.ids, s.draw)
  }

  /** Every operand is one the action builder accepts. */
  predicate OperandsIdentifiable(s: PreState) {
    (forall i :: 0 <= i < |s.args| ==> Identifiable(s.args[i]))
    && (forall i :: 0 <= i < |s.kwargs| ==> Identifiable(s.kwargs[i].1))
  }

  /**
   * `make_action_side_effect`: builds the method action for the context and stores
   * it there; a rejected operand gives `Err` and leaves the context as it was.
   */
  function MakeSideEffect(s: PreState, env: Env): (r: HookRun)
    reads s.ctx.obj, OperandObjs(s.args)
    ensures r.ctxAfter.obj == s.ctx.obj && r.ctxAfter.opName == s.ctx.opName
    ensures r.ctxAfter.nodeUid == s.ctx.nodeUid && r.ctxAfter.resultId == s.ctx.resultId
    ensures r.dispatched == s.dispatched
    ensures r.result.Ok? <==> OperandsIdentifiable(s)
    ensures r.result.Ok? ==> r.result.value == (r.ctxAfter, s.args, s.kwargs)
    ensures r.result.Ok? ==> r.ctxAfter.action.Some? && r.draw == s.draw + 2
    ensures r.result.Ok? ==> r.ctxAfter.action.value.op == s.ctx.opName
                             && r.ctxAfter.action.value.path == s.ctx.obj.Path()
                             && r.ctxAfter.action.value.remoteSelf == Some(s.ctx.obj.Lineage())
    ensures r.result.Err? ==> r.ctxAfter == s.ctx && r.draw == s.draw
  {
    var (built, next) := ContextAction(s, env);
    match built
    case Err(m) => HookRun(Err(ExceptionStr(m)), s.ctx, s.draw, s.dispatched)
    case Ok(a) =>
      var c := s.ctx.(action := Some(a));
      HookRun(Ok((c, s.args, s.kwargs)), c, next, s.dispatched)
  }

  // The hooks catch what they raise and return `Err(str(e))`: their messages carry no class name.

  const NO_TARGET_ERROR: string := "Can't Send Action without a target node. Use .point_to(node_uid: UID)"

  function UnexpectedResponse(text: string): string {
    "Got back unexpected response : " + text
  }

  /**
   * `send_action_side_effect`: unless the operation is side-effect free, builds the
   * action again (through `make_action_side_effect`), sends it to the receiver's
   * node and, when an ActionObject comes back, records its node uid and the
   * action's result id in the context.
   */
  function SendSideEffect(s: PreState, env: Env): (r: HookRun)
    reads s.ctx.obj, OperandObjs(s.args)
    ensures r.ctxAfter.obj == s.ctx.obj && r.ctxAfter.opName == s.ctx.opName
    ensures s.draw <= r.draw
    ensures s.dispatched <= r.dispatched && |r.dispatched| <= |s.dispatched| + 1
    ensures s.ctx.opName in DONT_MAKE_SIDE_EFFECTS
            ==> r == HookRun(Ok((s.ctx, s.args, s.kwargs)), s.ctx, s.draw, s.dispatched)
    ensures s.ctx.opName !in DONT_MAKE_SIDE_EFFECTS && s.ctx.obj.nodeUid.None?
            ==> r == HookRun(Err(NO_TARGET_ERROR), s.ctx, s.draw, s.dispatched)
    ensures s.ctx.opName !in DONT_MAKE_SIDE_EFFECTS && s.ctx.obj.nodeUid.Some? && !OperandsIdentifiable(s)
            ==> r == HookRun(MakeSideEffect(s, env).result, s.ctx, s.draw, s.dispatched)
    ensures r.result.Ok? ==> r.result.value == (r.ctxAfter, s.args, s.kwargs)
    ensures r.result.Err? ==> r.ctxAfter.nodeUid == s.ctx.nodeUid && r.ctxAfter.resultId == s.ctx.resultId
    ensures |r.dispatched| > |s.dispatched| ==> r.ctxAfter.action == Some(r.dispatched[|s.dispatched|])
    ensures |r.dispatched| > |s.dispatched| && r.result.Ok?
            ==> r.ctxAfter.resultId == Some(r.dispatched[|s.dispatched|].resultId)
                && env.bridge(r.dispatched[|s.dispatched|]) == ReplyProxy(r.ctxAfter.nodeUid)
  {
    if s.ctx.opName in DONT_MAKE_SIDE_EFFECTS then
      HookRun(Ok((s.ctx, s.args, s.kwargs)), s.ctx, s.draw, s.dispatched)
    else if s.ctx.obj.nodeUid.None? then
      HookRun(Err(NO_TARGET_ERROR), s.ctx, s.draw, s.dispatched)
    else
      var made := MakeSideEffect(s, env);
      if made.result.Err? then
        HookRun(Err(made.result.msg), s.ctx, made.draw, s.dispatched)
      else
        var c := made.ctxAfter;
        var a := c.action.value;
        var sent := s.dispatched + [a];
        match env.bridge(a)
        case ReplyProxy(node) =>
          var c' := c.(nodeUid := node, resultId := Some(a.resultId));
          HookRun(Ok((c', s.args, s.kwargs)), c', made.draw, sent)
        case ReplyOther(text) => HookRun(Err(UnexpectedResponse(text)), c, made.draw, sent)
        case ReplyRaised(msg) => HookRun(Err(msg), c, made.draw, sent)
  }

  function RunPreHook(hook: PreHook, s: PreState, env: Env): HookRun
    reads s.ctx.obj, OperandObjs(s.args)
  {
    match hook
    case MakeActionSideEffect => MakeSideEffect(s, env)
    case SendActionSideEffect => SendSideEffect(s, env)
  }

  /**
   * One iteration of the runner: on `Ok` it takes the returned context and operands;
   * on `Err` it keeps its own, but the context is the one the hook changed in place.
   */
  function ApplyPreHook(hook: PreHook, s: PreState, env: Env): (r: PreState)
    reads s.ctx.obj, OperandObjs(s.args)
    ensures r.ctx.obj == s.ctx.obj && r.ctx.opName == s.ctx.opName
    ensures r.args == s.args && r.kwargs == s.kwargs
    ensures s.draw <= r.draw && s.dispatched <= r.dispatched
  {
    var run := RunPreHook(hook, s, env);
    if run.result.Ok? then
      PreState(run.result.value.0, run.result.value.1, run.result.value.2, run.draw, run.dispatched)
    else
      s.(ctx := run.ctxAfter, draw := run.draw, dispatched := run.dispatched)
  }

  /** The hooks run in list order. */
  function RunHooks(hooks: seq<PreHook>, s: PreState, env: Env): (r: PreState)
    reads s.ctx.obj, OperandObjs(s.args)
    ensures r.ctx.obj == s.ctx.obj && r.ctx.opName == s.ctx.opName
    ensures r.args == s.args && r.kwargs == s.kwargs
    ensures s.draw <= r.draw && s.dispatched <= r.dispatched
    decreases |hooks|
  {
    if |hooks| == 0 then s
    else ApplyPreHook(hooks[|hooks| - 1], RunHooks(hooks[..|hooks| - 1], s, env), env)
  }

  /** The hooks registered under the name, then the always-hooks unless the name is dont-wrap. */
  function SelectedPreHooks(pre: map<string, seq<PreHook>>, name: string, dontWrap: seq<string>): seq<PreHook> {
    (if name in pre then pre[name] else [])
    + (if name !in dontWrap && HOOK_ALWAYS in pre then pre[HOOK_ALWAYS] else [])
  }

  /** One loop of the runner: the hooks of one list, in order. */
  method RunHookList(hooks: seq<PreHook>, s0: PreState, env: Env) returns (s: PreState)
    ensures s == old(RunHooks(hooks, s0, env))
  {
    s := s0;
    var i := 0;
    while i < |hooks|
      invariant 0 <= i <= |hooks|
      invariant s == RunHooks(hooks[..i], s0, env)
    {
      assert hooks[..i + 1][..i] == hooks[..i] && hooks[..i + 1][i] == hooks[i];
      s := ApplyPreHook(hooks[i], s, env);
      i := i + 1;
    }
    assert hooks[..i] == hooks;
  }

  /**
   * `_syft_run_pre_hooks__`: its two loops, over the hooks registered under the name
   * and then over the always-hooks, run one after the other on the same state, so
   * they are one loop over the concatenated list (`PreHookOrder` splits it again).
   */
  method RunPreHooks(self: ActionObject, pre: map<string, seq<PreHook>>, ctx: PreHookContext, name: string,
                     args: seq<Operand>, kwargs: Dict<string, Operand>, env: Env, draw: nat, dispatched: seq<Action>)
    returns (s: PreState)
    ensures s == old(RunHooks(SelectedPreHooks(pre, name, DontWrapAttrs(self.kind)),
                              PreState(ctx, args, kwargs, draw, dispatched), env))
  {
    var named: seq<PreHook> := if name in pre then pre[name] else [];
    var always: seq<PreHook> := if name !in DontWrapAttrs(self.kind) && HOOK_ALWAYS in pre then pre[HOOK_ALWAYS] else [];
    s := RunHookList(named + always, PreState(ctx, args, kwargs, draw, dispatched), env);
  }

  /** Running two lists in a row is running their concatenation. */
  lemma {:induction false} RunHooksAppend(a: seq<PreHook>, b: seq<PreHook>, s: PreState, env: Env)
    ensures RunHooks(a + b, s, env) == RunHooks(b, RunHooks(a, s, env), env)
    decreases |b|
  {
    if |b| == 0 {
      assert a + b == a;
    } else {
      assert (a + b)[..|a + b| - 1] == a + b[..|b| - 1];
      RunHooksAppend(a, b[..|b| - 1], s, env);
    }
  }

  /**
   * The op-specific hooks run before the always-hooks, and a dont-wrap name runs the
   * op-specific hooks only.
   */
  lemma PreHookOrder(pre: map<string, seq<PreHook>>, name: string, dontWrap: seq<string>, s: PreState, env: Env)
    ensures var named := if name in pre then pre[name] else [];
            var after := RunHooks(named, s, env);
            RunHooks(SelectedPreHooks(pre, name, dontWrap), s, env)
              == if name !in dontWrap && HOOK_ALWAYS in pre then RunHooks(pre[HOOK_ALWAYS], after, env) else after
  {
    var named := if name in pre then pre[name] else [];
    if name !in dontWrap && HOOK_ALWAYS in pre {
      RunHooksAppend(named, pre[HOOK_ALWAYS], s, env);
    } else {
      assert SelectedPreHooks(pre, name, dontWrap) == named;
    }
  }

  /** A side-effect-free operation never reaches the node, whatever hooks run. */
  lemma {:induction false} SideEffectFreeNeverDispatches(hooks: seq<PreHook>, s: PreState, env: Env)
    requires s.ctx.opName in DONT_MAKE_SIDE_EFFECTS
    ensures RunHooks(hooks, s, env).dispatched == s.dispatched
    decreases |hooks|
  {
    if |hooks| > 0 {
      SideEffectFreeNeverDispatches(hooks[..|hooks| - 1], s, env);
    }
  }

  /**
   * An operand the builder rejects (raw data, such as a literal number) leaves the
   * runner's state as it was: the make hook fails, and the send hook either fails
   * building its action or returns before sending, so no action is recorded, no UID
   * is drawn and nothing is sent.
   */
  lemma {:induction false} RejectedOperandChangesNothing(hooks: seq<PreHook>, s: PreState, env: Env)
    requires !OperandsIdentifiable(s)
    ensures RunHooks(hooks, s, env) == s
    decreases |hooks|
  {
    if |hooks| > 0 {
      RejectedOperandChangesNothing(hooks[..|hooks| - 1], s, env);
    }
  }

  /**
   * A rejected operand makes the make hook return the `ValueError`'s message alone: that
   * of the first rejected positional operand, or, when every positional operand is
   * accepted, that of the first rejected keyword operand.
   */
  lemma MakeRejectsWithMessage(s: PreState, env: Env)
    requires !OperandsIdentifiable(s)
    ensures MakeSideEffect(s, env).result.Err?
    ensures !(forall i :: 0 <= i < |s.args| ==> Identifiable(s.args[i])) ==>
              exists i :: FirstInvalid(s.args, i) && MakeSideEffect(s, env).result.msg == ArgMessage(s.args[i])
    ensures (forall i :: 0 <= i < |s.args| ==> Identifiable(s.args[i])) ==>
              exists i :: FirstInvalid(Values(s.kwargs), i) && MakeSideEffect(s, env).result.msg == KwargMessage(s.kwargs[i].1)
  {
    var cls := "ValueError";
    assert forall i :: 0 <= i < |cls| ==> cls[i] != ':';
    if !(forall i :: 0 <= i < |s.args| ==> Identifiable(s.args[i])) {
      ArgIdsFirstError(s.args, env.h);
      var i :| FirstInvalid(s.args, i) && ArgIds(s.args, env.h).msg == ArgError(s.args[i]);
      assert ContextAction(s, env).0 == Err(ArgError(s.args[i]));
      ExceptionStrOfRaise(cls, ArgMessage(s.args[i]));
      assert MakeSideEffect(s, env).result == Err(ArgMessage(s.args[i]));
    } else {
      assert ArgIds(s.args, env.h).Ok?;
      KwargIdsFirstError(s.kwargs, env.h);
      var i :| FirstInvalid(Values(s.kwargs), i) && KwargIds(s.kwargs, env.h).msg == KwargError(s.kwargs[i].1);
      assert ContextAction(s, env).0 == Err(KwargError(s.kwargs[i].1));
      ExceptionStrOfRaise(cls, KwargMessage(s.kwargs[i].1));
      assert MakeSideEffect(s, env).result == Err(KwargMessage(s.kwargs[i].1));
    }
  }

  /** The tables every proxy installs, with nothing else registered. */
  function StandardPre(): map<string, seq<PreHook>> {
    map[HOOK_ALWAYS := [MakeActionSideEffect, SendActionSideEffect]]
  }

  /** With acceptable operands the make hook records the built action and draws two UIDs. */
  lemma MakeStep(s: PreState, env: Env)
    requires OperandsIdentifiable(s)
    ensures ContextAction(s, env).0.Ok?
    ensures ApplyPreHook(MakeActionSideEffect, s, env)
            == s.(ctx := s.ctx.(action := Some(ContextAction(s, env).0.value)), draw := s.draw + 2)
  {
  }

  /**
   * With acceptable operands and a receiver bound to a node, the send hook builds
   * the action, sends it, and updates the context according to the node's answer.
   */
  lemma SendStep(s: PreState, env: Env)
    requires OperandsIdentifiable(s)
    requires s.ctx.opName !in DONT_MAKE_SIDE_EFFECTS && s.ctx.obj.nodeUid.Some?
    ensures ContextAction(s, env).0.Ok?
    ensures var a := ContextAction(s, env).0.value;
            var r := ApplyPreHook(SendActionSideEffect, s, env);
            r.dispatched == s.dispatched + [a] && r.draw == s.draw + 2 && r.ctx.action == Some(a)
            && (env.bridge(a).ReplyProxy? ==> r.ctx.nodeUid == env.bridge(a).nodeUid && r.ctx.resultId == Some(a.resultId))
            && (!env.bridge(a).ReplyProxy? ==> r.ctx.nodeUid == s.ctx.nodeUid && r.ctx.resultId == s.ctx.resultId)
  {
    var made := MakeSideEffect(s, env);
    assert made.result.Ok?;
  }

  /**
   * The standard pipeline for a wrapped, side-effecting call on a proxy bound to a
   * node, with acceptable operands: `make` builds one action, `send` builds a
   * second one (four UIDs in all) and sends that second action. When the node
   * answers with an ActionObject, the context ends with that action, the node uid
   * of the answer and the action's result id; otherwise the send hook fails, the
   * runner carries on, and the context keeps the action that was sent but gets
   * neither a node uid nor a result id.
   */
  lemma StandardPipeline(self: ActionObject, name: string, args: seq<Operand>, kwargs: Dict<string, Operand>,
                         env: Env, draw: nat, dispatched: seq<Action>)
    requires name != HOOK_ALWAYS && name !in DontWrapAttrs(self.kind) && name !in DONT_MAKE_SIDE_EFFECTS
    requires self.nodeUid.Some?
    requires OperandsIdentifiable(PreState(NewContext(self, name), args, kwargs, draw, dispatched))
    ensures BuildMethodAction(self, name, args, kwargs, env.h, env.ids, draw + 2).0.Ok?
    ensures var a := BuildMethodAction(self, name, args, kwargs, env.h, env.ids, draw + 2).0.value;
            var s := RunHooks(SelectedPreHooks(StandardPre(), name, DontWrapAttrs(self.kind)),
                              PreState(NewContext(self, name), args, kwargs, draw, dispatched), env);
            s.dispatched == dispatched + [a] && s.draw == draw + 4 && s.ctx.action == Some(a)
            && a.op == name && a.remoteSelf == Some(self.Lineage()) && |a.args| == |args|
            && (env.bridge(a).ReplyProxy? ==> s.ctx.nodeUid == env.bridge(a).nodeUid && s.ctx.resultId == Some(a.resultId))
            && (!env.bridge(a).ReplyProxy? ==> s.ctx.nodeUid == None && s.ctx.resultId == None)
  {
    var s0 := PreState(NewContext(self, name), args, kwargs, draw, dispatched);
    StandardSelection(name, DontWrapAttrs(self.kind));
    TwoHooks(MakeActionSideEffect, SendActionSideEffect, s0, env);
    MakeStep(s0, env);
    var s1 := ApplyPreHook(MakeActionSideEffect, s0, env);
    assert s1.ctx.obj == self && s1.ctx.opName == name && s1.args == args && s1.kwargs == kwargs;
    assert s1.draw == draw + 2;
    assert OperandsIdentifiable(s1);
    SendStep(s1, env);
    assert ContextAction(s1, env) == BuildMethodAction(self, name, args, kwargs, env.h, env.ids, draw + 2);
    MethodActionFields(self, name, args, kwargs, env.h, env.ids, draw + 2);
  }

  /** The action built for a receiver names the operation, the receiver's lineage and every positional operand. */
  lemma MethodActionFields(self: ActionObject, name: string, args: seq<Operand>, kwargs: Dict<string, Operand>,
                           h: Hasher, ids: IdStream, draw: nat)
    requires BuildMethodAction(self, name, args, kwargs, h, ids, draw).0.Ok?
    ensures var a := BuildMethodAction(self, name, args, kwargs, h, ids, draw).0.value;
            a.op == name && a.remoteSelf == Some(self.Lineage()) && |a.args| == |args|
  {
  }

  /** Without hooks of its own, a wrapped name runs the two standard hooks. */
  lemma StandardSelection(name: string, dontWrap: seq<string>)
    requires name != HOOK_ALWAYS && name !in dontWrap
    ensures SelectedPreHooks(StandardPre(), name, dontWrap) == [MakeActionSideEffect, SendActionSideEffect]
  {
  }

  /** Two hooks run one after the other. */
  lemma TwoHooks(first: PreHook, second: PreHook, s: PreState, env: Env)
    ensures RunHooks([first, second], s, env) == ApplyPreHook(second, ApplyPreHook(first, s, env), env)
  {
    var one := [first];
    var two := [first, second];
    assert RunHooks(one, s, env) == ApplyPreHook(first, s, env) by {
      assert one[..0] == [];
    }
    assert two[..1] == one;
  }

  // ---------------------------------------------------------------------------
  // Post-hooks
  // ---------------------------------------------------------------------------

  /** `propagate_node_uid` gets past its guards: it would copy the receiver's node uid. */
  predicate PropagateApplies(ctx: PreHookContext, op: string)
    reads ctx.obj
  {
    ctx.opName !in DONT_MAKE_SIDE_EFFECTS && ctx.obj.nodeUid.Some? && op !in DontWrapAttrs(ctx.obj.kind)
  }

  const NO_PARENT_NODE_ERROR: string := "Can't proagate node_uid because parent doesnt have one"
  const NOT_WRAPPED_ERROR: string := "dont propogate node_uid because output isnt wrapped"

  /** Objects a post-hook may change: the result, when it is a proxy. */
  function ResultObjs(v: Value): set<ActionObject> {
    if v.Proxy? then {v.obj} else {}
  }

  /** `propagate_node_uid`: copies the receiver's node uid onto a proxy result. */
  method PropagateNodeUidHook(ctx: PreHookContext, op: string, result: Value) returns (r: Result<Value>)
    modifies ResultObjs(result)
    ensures r.Ok? ==> r.value == result
    ensures r.Ok? <==> old(ctx.opName in DONT_MAKE_SIDE_EFFECTS || PropagateApplies(ctx, op))
    ensures r.Err? ==> r.msg == if old(ctx.obj.nodeUid).None? then NO_PARENT_NODE_ERROR else NOT_WRAPPED_ERROR
    ensures result.Proxy? ==> result.obj.nodeUid == if old(PropagateApplies(ctx, op)) then old(ctx.obj.nodeUid)
                                                     else old(result.obj.nodeUid)
    ensures result.Proxy? ==> result.obj.id == old(result.obj.id) && result.obj.data == old(result.obj.data)
                              && result.obj.historyHash == old(result.obj.historyHash)
  {
    if ctx.opName in DONT_MAKE_SIDE_EFFECTS {
      return Ok(result);
    }
    var node := ctx.obj.nodeUid;
    if node.None? {
      return Err(NO_PARENT_NODE_ERROR);
    }
    if op !in DontWrapAttrs(ctx.obj.kind) {
      if result.Proxy? {
        result.obj.nodeUid := node;
      }
    } else {
      return Err(NOT_WRAPPED_ERROR);
    }
    r := Ok(result);
  }

  function SelectedPostHooks(post: map<string, seq<PostHook>>, name: string, dontWrap: seq<string>): seq<PostHook> {
    (if name in post then post[name] else [])
    + (if name !in dontWrap && HOOK_ALWAYS in post then post[HOOK_ALWAYS] else [])
  }

  /**
   * `_syft_run_post_hooks__`: the result object itself is handed back; when some
   * hook ran and its guards let it through, a proxy result now carries the
   * receiver's node uid.
   */
  method RunPostHooks(self: ActionObject, post: map<string, seq<PostHook>>, ctx: PreHookContext, name: string,
                      result: Value)
    returns (r: Value)
    modifies ResultObjs(result)
    ensures r == result
    ensures result.Proxy? ==>
              result.obj.nodeUid ==
                if |SelectedPostHooks(post, name, DontWrapAttrs(self.kind))| > 0 && old(PropagateApplies(ctx, name))
                then old(ctx.obj.nodeUid) else old(result.obj.nodeUid)
    ensures result.Proxy? ==> result.obj.id == old(result.obj.id) && result.obj.data == old(result.obj.data)
                              && result.obj.historyHash == old(result.obj.historyHash)
  {
    ghost var applies := PropagateApplies(ctx, name);
    var hooks := SelectedPostHooks(post, name, DontWrapAttrs(self.kind));
    var named: seq<PostHook> := if name in post then post[name] else [];
    r := result;
    var i := 0;
    while i < |named|
      invariant 0 <= i <= |named|
      invariant PropagateApplies(ctx, name) == applies && ctx.obj.nodeUid == old(ctx.obj.nodeUid)
      invariant result.Proxy? ==> result.obj.nodeUid == if i > 0 && applies then old(ctx.obj.nodeUid)
                                                        else old(result.obj.nodeUid)
      invariant result.Proxy? ==> result.obj.id == old(result.obj.id) && result.obj.data == old(result.obj.data)
                                  && result.obj.historyHash == old(result.obj.historyHash)
      invariant r == result
    {
      var out := PropagateNodeUidHook(ctx, name, r);
      if out.Ok? {
        r := out.value;
      }
      i := i + 1;
    }
    if name !in DontWrapAttrs(self.kind) && HOOK_ALWAYS in post {
      var always := post[HOOK_ALWAYS];
      var j := 0;
      while j < |always|
        invariant 0 <= j <= |always|
        invariant PropagateApplies(ctx, name) == applies && ctx.obj.nodeUid == old(ctx.obj.nodeUid)
        invariant result.Proxy? ==> result.obj.nodeUid == if (|named| > 0 || j > 0) && applies then old(ctx.obj.nodeUid)
                                                          else old(result.obj.nodeUid)
        invariant result.Proxy? ==> result.obj.id == old(result.obj.id) && result.obj.data == old(result.obj.data)
                                    && result.obj.historyHash == old(result.obj.historyHash)
        invariant r == result
      {
        var out := PropagateNodeUidHook(ctx, name, r);
        if out.Ok? {
          r := out.value;
        }
        j := j + 1;
      }
    }
  }
}

=== FILE: action_object.dfy ===
/**
 * The action-object proxy's data model: payloads, proxy kinds, the proxy object,
 * the class-level hook tables, the `Action` record with its history hash, and
 * the action builder (`syft_make_action` / `syft_make_method_action`).
 */
module ActionObjects {
  import opened PyBase
  import opened Identity

  // ---------------------------------------------------------------------------
  // Module-level constants
  // ---------------------------------------------------------------------------

  /** Hook-table key whose hooks run for every wrapped attribute. */
  const HOOK_ALWAYS: string := "ALWAYS"

  /** Attributes forwarded to `object.__getattribute__` without any interception. */
  const PASSTHROUGH_ATTRS: seq<string> := [
    "__dict__", "__class__", "__repr_name__", "__annotations__", "_init_private_attributes",
    "__private_attributes__", "__config__", "__fields__", "__fields_set__", "__repr_str__",
    "__repr_args__", "__post_init__", "id", "to_mongo", "__attr_searchable__",
    "__canonical_name__", "__version__", "__args__", "to_pointer", "to", "send",
    "_copy_and_set_values", "get_from"]

  /** Attributes whose results are neither wrapped nor re-identified. */
  const DONT_WRAP_OUTPUT_ATTRS: seq<string> := [
    "__repr__", "__str__", "_repr_html_", "_repr_markdown_", "_repr_latex_",
    "__array_struct__", "__array_prepare__", "__array_wrap__", "__bool__", "__len__"]

  /** Operations that never send an action to a node nor propagate its uid. */
  const DONT_MAKE_SIDE_EFFECTS: seq<string> := [
    "_repr_html_", "_repr_markdown_", "_repr_latex_", "__repr__", "__getitem__",
    "__setitem__", "__len__", "shape"]

  /** Operations that still reach the payload when it is the empty placeholder. */
  const ACTION_DATA_EMPTY_MUST_RUN: seq<string> := ["__repr__"]

  // ---------------------------------------------------------------------------
  // Payloads and proxy kinds
  // ---------------------------------------------------------------------------

  /**
   * A payload: an ordinary Python value (its type name, the names of the classes
   * its type inherits from, as in `type(v).__mro__[1:]`, and an opaque token that
   * tells values apart), or the `ActionDataEmpty` placeholder for data that lives
   * elsewhere, which remembers the type it stands for.
   */
  datatype Data = Raw(typeName: string, bases: seq<string>, token: int) | EmptyData(internalType: string)

  /** `type(d).__name__` */
  function TypeName(d: Data): string {
    match d
    case Raw(t, _, _) => t
    case EmptyData(_) => "ActionDataEmpty"
  }

  /**
   * The concrete proxy class: `AnyActionObject`, which accepts any payload, or a
   * typed subclass with its `syft_internal_type` and its extra passthrough and
   * dont-wrap attribute lists.
   */
  datatype Kind =
    | AnyKind
    | Typed(className: string, internalType: string, passthroughExtra: seq<string>, dontWrapExtra: seq<string>)

  function ClassName(k: Kind): string {
    if k.AnyKind? then "AnyActionObject" else k.className
  }

  /** `syft_internal_type`; for `AnyActionObject` it is `typing.Any`. */
  function InternalType(k: Kind): string {
    if k.AnyKind? then "Any" else k.internalType
  }

  /** `_syft_passthrough_attrs()` */
  function PassthroughAttrs(k: Kind): seq<string> {
    PASSTHROUGH_ATTRS + (if k.AnyKind? then [] else k.passthroughExtra)
  }

  /** `_syft_dont_wrap_attrs()` */
  function DontWrapAttrs(k: Kind): seq<string> {
    DONT_WRAP_OUTPUT_ATTRS + (if k.AnyKind? then [] else k.dontWrapExtra)
  }

  // ---------------------------------------------------------------------------
  // The proxy object
  // ---------------------------------------------------------------------------

  class ActionObject {
    const kind: Kind
    var id: UID
    var data: Data
    var historyHash: int
    var nodeUid: Option<UID>

    constructor (kind: Kind, id: UID, data: Data, historyHash: int)
      ensures this.kind == kind && this.id == id && this.data == data
      ensures this.historyHash == historyHash && nodeUid == None
    {
      this.kind := kind;
      this.id := id;
      this.data := data;
      this.historyHash := historyHash;
      nodeUid := None;
    }

    /** `syft_lineage_id` */
    function Lineage(): LineageID
      reads this
    {
      LineageID(id, historyHash)
    }

    /** `syft_get_path()`: `AnyActionObject` reports its payload's type, other kinds their class. */
    function Path(): string
      reads this
    {
      if kind.AnyKind? then TypeName(data) else kind.className
    }

    /** `syft_point_to(node_uid)` */
    method PointTo(node: UID)
      modifies this`nodeUid
      ensures nodeUid == Some(node)
    {
      nodeUid := Some(node);
    }
  }

  /** Whatever can sit where a payload is expected: plain data or another proxy. */
  datatype Value = Plain(data: Data) | Proxy(obj: ActionObject)

  function ValueTypeName(v: Value): string {
    match v
    case Plain(d) => TypeName(d)
    case Proxy(o) => ClassName(o.kind)
  }

  /** `isinstance(d, t)` for an ordinary value: its own type or one it inherits from. */
  predicate IsInstance(d: Data, t: string) {
    d.Raw? && (d.typeName == t || t in d.bases)
  }

  /**
   * The `syft_action_data` validator: `AnyActionObject` takes anything, a typed
   * kind takes an instance of its internal type (a subclass included) or the empty
   * placeholder.
   */
  predicate Accepts(k: Kind, v: Value) {
    k.AnyKind? || (v.Plain? && (v.data.EmptyData? || IsInstance(v.data, k.internalType)))
  }

  /** An operand of an intercepted call. */
  datatype Operand =
    | OUid(uid: UID)
    | OLineage(lineage: LineageID)
    | OProxy(obj: ActionObject)
    | OData(data: Data)

  function OperandObjs(xs: seq<Operand>): set<ActionObject> {
    set x | x in xs && x.OProxy? :: x.obj
  }

  function KwOperandObjs(kw: Dict<string, Operand>): set<ActionObject> {
    set e | e in kw && e.1.OProxy? :: e.1.obj
  }

  // ---------------------------------------------------------------------------
  // The Action record and its history hash
  // ---------------------------------------------------------------------------

  /** A keyword operand as the builder stores it: a lineage id, or the proxy itself. */
  datatype KwargRef = KwLineage(lineage: LineageID) | KwObject(obj: ActionObject)

  datatype Action = Action(
    id: UID,
    path: string,
    op: string,
    remoteSelf: Option<LineageID>,
    args: seq<LineageID>,
    kwargs: Dict<string, KwargRef>,
    resultId: LineageID)

  /** `full_path` */
  function FullPath(a: Action): string {
    a.path + "." + a.op
  }

  function KwObjects(kw: Dict<string, KwargRef>): set<ActionObject> {
    set e | e in kw && e.1.KwObject? :: e.1.obj
  }

  /** `arg.syft_history_hash` of a stored keyword operand; a stored proxy is read when hashed. */
  function KwargHistory(r: KwargRef): int
    reads if r.KwObject? then {r.obj} else {}
  {
    match r
    case KwLineage(l) => l.historyHash
    case KwObject(o) => o.historyHash
  }

  function ArgsHash(args: seq<LineageID>, h: Hasher): int {
    if |args| == 0 then 0 else h.ofInt(args[0].historyHash) + ArgsHash(args[1..], h)
  }

  function KwargTerm(e: (string, KwargRef), h: Hasher): int
    reads if e.1.KwObject? then {e.1.obj} else {}
  {
    h.ofStr(e.0) + h.ofInt(KwargHistory(e.1))
  }

  function KwargsHash(kw: Dict<string, KwargRef>, h: Hasher): int
    reads KwObjects(kw)
  {
    if |kw| == 0 then 0 else KwargTerm(kw[0], h) + KwargsHash(kw[1..], h)
  }

  /** `Action.syft_history_hash` */
  function HistoryHash(a: Action, h: Hasher): int
    reads KwObjects(a.kwargs)
  {
    (if a.remoteSelf.Some? then h.ofInt(a.remoteSelf.value.historyHash) else 0)
    + h.ofStr(a.op) + ArgsHash(a.args, h) + KwargsHash(a.kwargs, h)
  }

  /** Each further positional operand adds the hash of its history hash. */
  lemma {:induction false} ArgsHashAppend(args: seq<LineageID>, x: LineageID, h: Hasher)
    ensures ArgsHash(args + [x], h) == ArgsHash(args, h) + h.ofInt(x.historyHash)
  {
    if |args| == 0 {
      assert args + [x] == [x];
    } else {
      assert (args + [x])[1..] == args[1..] + [x];
      ArgsHashAppend(args[1..], x, h);
    }
  }

  /** Taking one keyword entry out of the sum removes exactly its term. */
  lemma {:induction false} KwargsHashRemove(kw: Dict<string, KwargRef>, j: nat, h: Hasher)
    requires j < |kw|
    ensures KwargsHash(kw, h) == KwargTerm(kw[j], h) + KwargsHash(kw[..j] + kw[j + 1..], h)
  {
    if j > 0 {
      var rest := kw[..j] + kw[j + 1..];
      assert rest[0] == kw[0];
      assert rest[1..] == kw[1..][..j - 1] + kw[1..][j..];
      KwargsHashRemove(kw[1..], j - 1, h);
    } else {
      assert kw[..0] + kw[1..] == kw[1..];
    }
  }

  /** Taking the element at `j` out of a sequence takes one copy of it out of its multiset. */
  lemma MultisetWithout<T>(b: seq<T>, j: nat)
    requires j < |b|
    ensures multiset(b[..j] + b[j + 1..]) == multiset(b) - multiset{b[j]}
  {
    assert b == b[..j] + [b[j]] + b[j + 1..];
    assert multiset(b) == multiset(b[..j]) + multiset{b[j]} + multiset(b[j + 1..]);
  }

  /** Matching the first entry of `a` with an equal entry of `b` reduces the comparison to the rest. */
  lemma KwargsHashMatchFirst(a: Dict<string, KwargRef>, b: Dict<string, KwargRef>, j: nat, h: Hasher)
    requires |a| > 0 && j < |b| && b[j] == a[0]
    requires KwargsHash(a[1..], h) == KwargsHash(b[..j] + b[j + 1..], h)
    ensures KwargsHash(a, h) == KwargsHash(b, h)
  {
    KwargsHashRemove(b, j, h);
  }

  /** A permutation of `a` holds `a[0]` somewhere, and the rest of both are permutations. */
  lemma PermutationMatchFirst<T>(a: seq<T>, b: seq<T>) returns (j: nat)
    requires |a| > 0 && multiset(a) == multiset(b)
    ensures j < |b| && b[j] == a[0] && multiset(a[1..]) == multiset(b[..j] + b[j + 1..])
  {
    assert a[0] in multiset(b);
    j :| 0 <= j < |b| && b[j] == a[0];
    var rest := multiset(b) - multiset{a[0]};
    assert multiset(b[..j] + b[j + 1..]) == rest by {
      MultisetWithout(b, j);
    }
    assert multiset(a[1..]) == rest by {
      assert a == [a[0]] + a[1..];
    }
  }

  /** The keyword sum depends on the entries only, not on their order. */
  lemma {:induction false} KwargsHashPermutation(a: Dict<string, KwargRef>, b: Dict<string, KwargRef>, h: Hasher)
    requires multiset(a) == multiset(b)
    ensures KwargsHash(a, h) == KwargsHash(b, h)
    decreases |a|
  {
    if |a| == 0 {
      assert |b| == |multiset(b)| == 0;
    } else {
      var j := PermutationMatchFirst(a, b);
      KwargsHashPermutation(a[1..], b[..j] + b[j + 1..], h);
      KwargsHashMatchFirst(a, b, j, h);
    }
  }

  /**
   * Two actions with the same receiver lineage, operation and positional operands,
   * and the same keyword entries in any order, have the same history hash; their
   * path, own id and result id play no part.
   */
  lemma HistoryHashDeterminedByOperands(a: Action, b: Action, h: Hasher)
    requires a.remoteSelf == b.remoteSelf && a.op == b.op && a.args == b.args
    requires multiset(a.kwargs) == multiset(b.kwargs)
    ensures HistoryHash(a, h) == HistoryHash(b, h)
  {
    KwargsHashPermutation(a.kwargs, b.kwargs, h);
  }

  // ---------------------------------------------------------------------------
  // The action builder
  // ---------------------------------------------------------------------------

  /** An operand the builder accepts: a UID, a LineageID or a proxy. */
  predicate Identifiable(x: Operand) {
    !x.OData?
  }

  /** `i` is the position of the first operand the builder rejects. */
  predicate FirstInvalid(xs: seq<Operand>, i: int) {
    0 <= i < |xs| && !Identifiable(xs[i]) && forall j :: 0 <= j < i ==> Identifiable(xs[j])
  }

  /** `f"{c}"` for a class `c` with the given name. */
  function ClassRepr(name: string): string {
    "<class '" + name + "'>"
  }

  /** `f"{type(x)}"` */
  function TypeRepr(d: Data): string {
    ClassRepr(TypeName(d))
  }

  /** The message of the `ValueError` a rejected positional operand raises. */
  function ArgMessage(x: Operand): string
    requires !Identifiable(x)
  {
    "Invalid args type " + TypeRepr(x.data) + ". Must be [UID, LineageID or ActionObject, or ActionObjectPointer]"
  }

  /** The message of the `ValueError` a rejected keyword operand raises. */
  function KwargMessage(x: Operand): string
    requires !Identifiable(x)
  {
    "Invalid kwargs type " + TypeRepr(x.data) + ". Must be [UID, LineageID, ActionObject or ActionObjectPointer]"
  }

  function ArgError(x: Operand): string
    requires !Identifiable(x)
  {
    Raise("ValueError", ArgMessage(x))
  }

  function KwargError(x: Operand): string
    requires !Identifiable(x)
  {
    Raise("ValueError", KwargMessage(x))
  }

  /** The lineage id recorded for a positional operand. */
  function LineageOf(x: Operand, h: Hasher): LineageID
    requires Identifiable(x)
    reads if x.OProxy? then {x.obj} else {}
  {
    match x
    case OUid(u) => FromUid(u, h)
    case OLineage(l) => l
    case OProxy(o) => o.Lineage()
  }

  /** What is recorded for a keyword operand: a proxy is stored as itself. */
  function KwargRefOf(x: Operand, h: Hasher): KwargRef
    requires Identifiable(x)
  {
    match x
    case OUid(u) => KwLineage(FromUid(u, h))
    case OLineage(l) => KwLineage(l)
    case OProxy(o) => KwObject(o)
  }

  /** The positional loop of `syft_make_action`: the first rejected operand raises. */
  function ArgIds(args: seq<Operand>, h: Hasher): (r: Result<seq<LineageID>>)
    reads OperandObjs(args)
    ensures r.Ok? <==> forall i :: 0 <= i < |args| ==> Identifiable(args[i])
    ensures r.Ok? ==> |r.value| == |args|
    ensures r.Ok? ==> forall i :: 0 <= i < |args| ==> r.value[i] == LineageOf(args[i], h)
  {
    if |args| == 0 then Ok([])
    else
      var n := |args| - 1;
      var x := args[n];
      match ArgIds(args[..n], h)
      case Err(m) => Err(m)
      case Ok(prefix) =>
        if !Identifiable(x) then Err(ArgError(x))
        else Ok(prefix + [LineageOf(x, h)])
  }

  /** The error the positional loop raises is the one of the first rejected operand. */
  lemma {:induction false} ArgIdsFirstError(args: seq<Operand>, h: Hasher)
    requires ArgIds(args, h).Err?
    ensures exists i :: FirstInvalid(args, i) && ArgIds(args, h).msg == ArgError(args[i])
  {
    var n := |args| - 1;
    var prefix := args[..n];
    if ArgIds(prefix, h).Err? {
      assert ArgIds(args, h) == ArgIds(prefix, h);
      ArgIdsFirstError(prefix, h);
      var i :| FirstInvalid(prefix, i) && ArgIds(prefix, h).msg == ArgError(prefix[i]);
      assert prefix[i] == args[i];
      assert forall j :: 0 <= j < i ==> prefix[j] == args[j];
      assert FirstInvalid(args, i);
    } else {
      assert ArgIds(args, h) == Err(ArgError(args[n]));
      assert forall j :: 0 <= j < n ==> prefix[j] == args[j];
      assert FirstInvalid(args, n);
    }
  }

  /** The keyword loop of `syft_make_action`: `kwarg_ids[k] = ...` for each entry in turn. */
  function KwargIds(kwargs: Dict<string, Operand>, h: Hasher): (r: Result<Dict<string, KwargRef>>)
    ensures r.Ok? <==> forall i :: 0 <= i < |kwargs| ==> Identifiable(kwargs[i].1)
  {
    if |kwargs| == 0 then Ok([])
    else
      var n := |kwargs| - 1;
      var (k, x) := kwargs[n];
      match KwargIds(kwargs[..n], h)
      case Err(m) => Err(m)
      case Ok(prefix) =>
        if !Identifiable(x) then Err(KwargError(x))
        else Ok(Put(prefix, k, KwargRefOf(x, h)))
  }

  /** The first rejected value of a front part is the first rejected value of the whole. */
  lemma FirstInvalidOfFront(kwargs: Dict<string, Operand>, n: nat, i: int)
    requires n <= |kwargs| && FirstInvalid(Values(kwargs[..n]), i)
    ensures FirstInvalid(Values(kwargs), i)
  {
    var front, whole := Values(kwargs[..n]), Values(kwargs);
    forall j | 0 <= j <= i ensures front[j] == whole[j] {
      assert front[j] == kwargs[..n][j].1 == kwargs[j].1;
    }
  }

  /** One step of the keyword loop, as far as raising goes. */
  lemma KwargIdsLastStep(kwargs: Dict<string, Operand>, h: Hasher)
    requires |kwargs| > 0
    ensures var front := KwargIds(kwargs[..|kwargs| - 1], h);
      var x := kwargs[|kwargs| - 1].1;
      (front.Err? ==> KwargIds(kwargs, h) == front)
      && (front.Ok? && !Identifiable(x) ==> KwargIds(kwargs, h) == Err(KwargError(x)))
  {
  }

  /** The error the keyword loop raises is the one of the first rejected value. */
  lemma {:induction false} KwargIdsFirstError(kwargs: Dict<string, Operand>, h: Hasher)
    requires KwargIds(kwargs, h).Err?
    ensures exists i :: FirstInvalid(Values(kwargs), i) && KwargIds(kwargs, h).msg == KwargError(kwargs[i].1)
  {
    var n := |kwargs| - 1;
    var prefix := kwargs[..n];
    KwargIdsLastStep(kwargs, h);
    if KwargIds(prefix, h).Err? {
      KwargIdsFirstError(prefix, h);
      var i :| FirstInvalid(Values(prefix), i) && KwargIds(prefix, h).msg == KwargError(prefix[i].1);
      FirstInvalidOfFront(kwargs, n, i);
      assert prefix[i] == kwargs[i];
    } else {
      var vs := Values(kwargs);
      assert forall j :: 0 <= j < n ==> vs[j] == prefix[j].1;
      assert FirstInvalid(vs, n);
    }
  }

  /** In a dictionary (distinct keys), every keyword keeps its key and position. */
  lemma {:induction false} KwargIdsPointwise(kwargs: Dict<string, Operand>, h: Hasher)
    requires DistinctKeys(kwargs)
    requires KwargIds(kwargs, h).Ok?
    ensures var r := KwargIds(kwargs, h).value;
      |r| == |kwargs| && forall i :: 0 <= i < |kwargs| ==> r[i] == (kwargs[i].0, KwargRefOf(kwargs[i].1, h))
  {
    if |kwargs| > 0 {
      var n := |kwargs| - 1;
      var front := kwargs[..n];
      KwargIdsPointwise(front, h);
      var prefix := KwargIds(front, h).value;
      var k := kwargs[n].0;
      assert k !in Keys(prefix) by {
        forall j | 0 <= j < |prefix| ensures Keys(prefix)[j] != k {
          assert prefix[j].0 == kwargs[j].0;
        }
      }
      var entry := (k, KwargRefOf(kwargs[n].1, h));
      PutNew(prefix, k, entry.1);
      assert KwargIds(kwargs, h).value == prefix + [entry];
    }
  }

  /** A receiver given as a UID or LineageID. */
  datatype IdRef = RefUid(uid: UID) | RefLineage(lineage: LineageID)

  /**
   * `LineageID(remote_self)`: a LineageID is kept, a UID gets its own hash as
   * history, and `None` makes a lineage id around a freshly drawn UID.
   */
  function RemoteLineage(remoteSelf: Option<IdRef>, h: Hasher, ids: IdStream, draw: nat): (LineageID, nat) {
    match remoteSelf
    case None => (FromUid(ids(draw), h), draw + 1)
    case Some(RefUid(u)) => (FromUid(u, h), draw)
    case Some(RefLineage(l)) => (l, draw)
  }

  /**
   * `syft_make_action`: an `Action` whose operands are all lineage ids, or the
   * `ValueError` of the first rejected operand. The receiver lineage is made
   * first, then the `Action` draws its own id and its result id.
   */
  function BuildAction(path: string, op: string, remoteSelf: Option<IdRef>, args: seq<Operand>,
                       kwargs: Dict<string, Operand>, h: Hasher, ids: IdStream, draw: nat): (r: (Result<Action>, nat))
    reads OperandObjs(args)
    ensures r.0.Ok? <==> ((forall i :: 0 <= i < |args| ==> Identifiable(args[i]))
                          && (forall i :: 0 <= i < |kwargs| ==> Identifiable(kwargs[i].1)))
    ensures r.0.Err? ==> r.1 == draw
    ensures r.0.Ok? ==> |r.0.value.args| == |args|
    ensures r.0.Ok? ==> forall i :: 0 <= i < |args| ==> r.0.value.args[i] == LineageOf(args[i], h)
    ensures r.0.Ok? ==> r.0.value.path == path && r.0.value.op == op && r.0.value.remoteSelf.Some?
    ensures r.0.Ok? ==> r.1 == draw + (if remoteSelf.None? then 3 else 2)
    ensures r.0.Ok? ==> KwargIds(kwargs, h).Ok? && r.0.value.kwargs == KwargIds(kwargs, h).value
    ensures r.0.Ok? ==> r.0.value.remoteSelf == Some(match remoteSelf
                                                     case None => FromUid(ids(draw), h)
                                                     case Some(RefUid(u)) => FromUid(u, h)
                                                     case Some(RefLineage(l)) => l)
    ensures r.0.Ok? ==> var d := if remoteSelf.None? then draw + 1 else draw;
                        r.0.value.id == ids(d) && r.0.value.resultId == FromUid(ids(d + 1), h)
  {
    match ArgIds(args, h)
    case Err(m) => (Err(m), draw)
    case Ok(argIds) =>
      match KwargIds(kwargs, h)
      case Err(m) => (Err(m), draw)
      case Ok(kwargIds) =>
        var (remote, d) := RemoteLineage(remoteSelf, h, ids, draw);
        (Ok(Action(ids(d), path, op, Some(remote), argIds, kwargIds, FromUid(ids(d + 1), h))), d + 2)
  }

  /** `syft_make_method_action`: the receiver's path and lineage fill in the action. */
  function BuildMethodAction(obj: ActionObject, op: string, args: seq<Operand>, kwargs: Dict<string, Operand>,
                             h: Hasher, ids: IdStream, draw: nat): (Result<Action>, nat)
    reads obj, OperandObjs(args)
  {
    BuildAction(obj.Path(), op, Some(RefLineage(obj.Lineage())), args, kwargs, h, ids, draw)
  }

  /** Once the positional loop has raised, later operands cannot change the outcome. */
  lemma {:induction false} ArgIdsErrPersists(args: seq<Operand>, k: nat, h: Hasher)
    requires k <= |args| && ArgIds(args[..k], h).Err?
    ensures ArgIds(args, h) == ArgIds(args[..k], h)
    decreases |args| - k
  {
    if k < |args| {
      assert args[..k + 1][..k] == args[..k];
      ArgIdsErrPersists(args, k + 1, h);
    } else {
      assert args[..k] == args;
    }
  }

  lemma {:induction false} KwargIdsErrPersists(kwargs: Dict<string, Operand>, k: nat, h: Hasher)
    requires k <= |kwargs| && KwargIds(kwargs[..k], h).Err?
    ensures KwargIds(kwargs, h) == KwargIds(kwargs[..k], h)
    decreases |kwargs| - k
  {
    if k < |kwargs| {
      assert kwargs[..k + 1][..k] == kwargs[..k];
      KwargIdsErrPersists(kwargs, k + 1, h);
    } else {
      assert kwargs[..k] == kwargs;
    }
  }

  /** The positional loop of `syft_make_action`: stops at the first rejected operand. */
  method CollectArgIds(args: seq<Operand>, h: Hasher) returns (r: Result<seq<LineageID>>)
    ensures r == ArgIds(args, h)
  {
    var argIds: seq<LineageID> := [];
    var i := 0;
    while i < |args|
      invariant 0 <= i <= |args|
      invariant ArgIds(args[..i], h) == Ok(argIds)
    {
      var x := args[i];
      assert args[..i + 1][..i] == args[..i];
      if !Identifiable(x) {
        ArgIdsErrPersists(args, i + 1, h);
        return Err(ArgError(x));
      }
      argIds := argIds + [LineageOf(x, h)];
      i := i + 1;
    }
    assert args[..i] == args;
    r := Ok(argIds);
  }

  /** The keyword loop of `syft_make_action`: stops at the first rejected operand. */
  method CollectKwargIds(kwargs: Dict<string, Operand>, h: Hasher) returns (r: Result<Dict<string, KwargRef>>)
    ensures r == KwargIds(kwargs, h)
  {
    var kwargIds: Dict<string, KwargRef> := [];
    var j := 0;
    while j < |kwargs|
      invariant 0 <= j <= |kwargs|
      invariant KwargIds(kwargs[..j], h) == Ok(kwargIds)
    {
      var (k, x) := kwargs[j];
      assert kwargs[..j + 1][..j] == kwargs[..j];
      if !Identifiable(x) {
        KwargIdsErrPersists(kwargs, j + 1, h);
        return Err(KwargError(x));
      }
      kwargIds := Put(kwargIds, k, KwargRefOf(x, h));
      j := j + 1;
    }
    assert kwargs[..j] == kwargs;
    r := Ok(kwargIds);
  }

  /** `syft_make_action`: the two operand loops, then the receiver lineage and the action's own ids. */
  method MakeAction(path: string, op: string, remoteSelf: Option<IdRef>, args: seq<Operand>,
                    kwargs: Dict<string, Operand>, h: Hasher, ids: IdStream, draw: nat)
    returns (r: Result<Action>, next: nat)
    ensures (r, next) == BuildAction(path, op, remoteSelf, args, kwargs, h, ids, draw)
  {
    var argIds := CollectArgIds(args, h);
    if argIds.Err? {
      return Err(argIds.msg), draw;
    }
    var kwargIds := CollectKwargIds(kwargs, h);
    assert unchanged(OperandObjs(args));
    if kwargIds.Err? {
      return Err(kwargIds.msg), draw;
    }
    var (remote, d) := RemoteLineage(remoteSelf, h, ids, draw);
    r := Ok(Action(ids(d), path, op, Some(remote), argIds.value, kwargIds.value, FromUid(ids(d + 1), h)));
    next := d + 2;
  }

  /** `syft_make_method_action` */
  method MakeMethodAction(obj: ActionObject, op: string, args: seq<Operand>, kwargs: Dict<string, Operand>,
                          h: Hasher, ids: IdStream, draw: nat)
    returns (r: Result<Action>, next: nat)
    ensures r.Ok? ==> r.value.path == obj.Path() && r.value.remoteSelf == Some(obj.Lineage())
    ensures (r, next) == BuildMethodAction(obj, op, args, kwargs, h, ids, draw)
  {
    r, next := MakeAction(obj.Path(), op, Some(RefLineage(obj.Lineage())), args, kwargs, h, ids, draw);
  }

  // ---------------------------------------------------------------------------
  // Hook tables shared by every proxy
  // ---------------------------------------------------------------------------

  datatype PreHook = MakeActionSideEffect | SendActionSideEffect
  datatype PostHook = PropagateNodeUid

  /** Appends `x` unless it is already listed. */
  function AppendIfAbsent<T(==)>(xs: seq<T>, x: T): seq<T> {
    if x in xs then xs else xs + [x]
  }

  /** The pre-hook table after one run of the registration in `__post_init__`. */
  function WithStandardPre(pre: map<string, seq<PreHook>>): map<string, seq<PreHook>> {
    var always := if HOOK_ALWAYS in pre then pre[HOOK_ALWAYS] else [];
    pre[HOOK_ALWAYS := AppendIfAbsent(AppendIfAbsent(always, MakeActionSideEffect), SendActionSideEffect)]
  }

  /** The post-hook table after one run of the registration in `__post_init__`. */
  function WithStandardPost(post: map<string, seq<PostHook>>): map<string, seq<PostHook>> {
    var always := if HOOK_ALWAYS in post then post[HOOK_ALWAYS] else [];
    post[HOOK_ALWAYS := AppendIfAbsent(always, PropagateNodeUid)]
  }

  /**
   * `_syft_pre_hooks__` / `_syft_post_hooks__`: class-level dictionaries, so one
   * table is shared by all proxies and every new proxy registers into it again.
   */
  class HookTables {
    var pre: map<string, seq<PreHook>>
    var post: map<string, seq<PostHook>>

    constructor ()
      ensures pre == map[] && post == map[]
    {
      pre := map[];
      post := map[];
    }

    /** The registration steps of `__post_init__`: the pre-hooks, then the post-hook. */
    method RegisterStandard()
      modifies this
      ensures pre == WithStandardPre(old(pre)) && post == WithStandardPost(old(post))
    {
      RegisterPre();
      RegisterPost();
    }

    /** Adds make and send to the always-list of pre-hooks, each unless already there. */
    method RegisterPre()
      modifies this
      ensures pre == WithStandardPre(old(pre)) && post == old(post)
    {
      var table := pre;
      if HOOK_ALWAYS !in table {
        table := table[HOOK_ALWAYS := []];
      }
      if MakeActionSideEffect !in table[HOOK_ALWAYS] {
        table := table[HOOK_ALWAYS := table[HOOK_ALWAYS] + [MakeActionSideEffect]];
      }
      if SendActionSideEffect !in table[HOOK_ALWAYS] {
        table := table[HOOK_ALWAYS := table[HOOK_ALWAYS] + [SendActionSideEffect]];
      }
      pre := table;
    }

    /** Adds propagate to the always-list of post-hooks unless already there. */
    method RegisterPost()
      modifies this
      ensures post == WithStandardPost(old(post)) && pre == old(pre)
    {
      var table := post;
      if HOOK_ALWAYS !in table {
        table := table[HOOK_ALWAYS := []];
      }
      if PropagateNodeUid !in table[HOOK_ALWAYS] {
        table := table[HOOK_ALWAYS := table[HOOK_ALWAYS] + [PropagateNodeUid]];
      }
      post := table;
    }
  }

  /** The tables after `n` proxies have been initialised. */
  function RegisteredTimes(n: nat, pre: map<string, seq<PreHook>>, post: map<string, seq<PostHook>>)
    : (map<string, seq<PreHook>>, map<string, seq<PostHook>>)
  {
    if n == 0 then (pre, post)
    else
      var (p, q) := RegisteredTimes(n - 1, pre, post);
      (WithStandardPre(p), WithStandardPost(q))
  }

  /** Registering a second time changes nothing. */
  lemma RegistrationIdempotent(pre: map<string, seq<PreHook>>, post: map<string, seq<PostHook>>)
    ensures WithStandardPre(WithStandardPre(pre)) == WithStandardPre(pre)
    ensures WithStandardPost(WithStandardPost(post)) == WithStandardPost(post)
  {
  }

  /**
   * However many proxies have been created, starting from empty tables the
   * always-list of pre-hooks is exactly [make, send] and that of post-hooks is
   * exactly [propagate], and nothing is registered under another key.
   */
  lemma {:induction false} RegistrationStable(n: nat)
    requires n >= 1
    ensures RegisteredTimes(n, map[], map[]).0 == map[HOOK_ALWAYS := [MakeActionSideEffect, SendActionSideEffect]]
    ensures RegisteredTimes(n, map[], map[]).1 == map[HOOK_ALWAYS := [PropagateNodeUid]]
  {
    var pre := map[HOOK_ALWAYS := [MakeActionSideEffect, SendActionSideEffect]];
    var post := map[HOOK_ALWAYS := [PropagateNodeUid]];
    if n > 1 {
      RegistrationStable(n - 1);
      assert WithStandardPre(pre) == pre;
      assert WithStandardPost(post) == post;
    } else {
      assert AppendIfAbsent([], MakeActionSideEffect) == [MakeActionSideEffect];
      assert SendActionSideEffect !in [MakeActionSideEffect];
      assert AppendIfAbsent([MakeActionSideEffect], SendActionSideEffect) == [MakeActionSideEffect, SendActionSideEffect];
      assert AppendIfAbsent([], PropagateNodeUid) == [PropagateNodeUid];
      assert WithStandardPre(map[]) == pre;
      assert WithStandardPost(map[]) == post;
    }
  }

  /** Registration only ever touches the always-key, and keeps what was there. */
  lemma RegistrationKeepsOthers(pre: map<string, seq<PreHook>>, name: string)
    requires name != HOOK_ALWAYS
    ensures name in WithStandardPre(pre) <==> name in pre
    ensures name in pre ==> WithStandardPre(pre)[name] == pre[name]
    ensures HOOK_ALWAYS in pre ==> pre[HOOK_ALWAYS] <= WithStandardPre(pre)[HOOK_ALWAYS]
  {
  }

  // ---------------------------------------------------------------------------
  // Creating proxies
  // ---------------------------------------------------------------------------

  /** The execution bridge's answer to an action sent to a node. */
  datatype BridgeReply =
    | ReplyProxy(nodeUid: Option<UID>)   // an ActionObject came back; its node uid
    | ReplyOther(text: string)           // something that is not an ActionObject came back
    | ReplyRaised(msg: string)           // the call raised; `msg` is its `str(e)`

  /**
   * What the proxy core cannot compute itself: Python's `hash`, the random UID
   * source, the type registry `action_type_for_type` (keyed by type name), the
   * node the actions are sent to, and the payload's own attributes and methods.
   */
  datatype Env = Env(
    h: Hasher,
    ids: IdStream,
    registry: string -> Kind,
    bridge: Action -> BridgeReply,
    payloadHas: (Data, string) -> bool,
    invoke: (Data, string, seq<Operand>, Dict<string, Operand>) -> Result<Data>)

  /**
   * The payload validator's `SyftException`: the proxy class, its internal type and the
   * payload's type, each rendered as a class. Only a typed kind refuses a payload.
   */
  function InitError(k: Kind, v: Value): string {
    Raise("SyftException", "Must init " + ClassRepr(ClassName(k)) + " with " + ClassRepr(InternalType(k))
                           + " not " + ClassRepr(ValueTypeName(v)))
  }

  const NESTED_ERROR: string := "Exception: Nested ActionObjects"

  /**
   * `kind(syft_action_data=payload)`: the `id` validator draws a UID, the payload
   * validator may raise, then `__post_init__` registers the standard hooks, raises
   * on a nested proxy, and sets the history hash to `hash(id)`.
   */
  method Create(kind: Kind, payload: Value, tables: HookTables, env: Env, draw: nat)
    returns (r: Result<ActionObject>, next: nat)
    modifies tables
    ensures next == draw + 1
    ensures !Accepts(kind, payload) ==> r == Err(InitError(kind, payload))
    ensures !Accepts(kind, payload) ==> tables.pre == old(tables.pre) && tables.post == old(tables.post)
    ensures Accepts(kind, payload) ==> tables.pre == WithStandardPre(old(tables.pre))
    ensures Accepts(kind, payload) ==> tables.post == WithStandardPost(old(tables.post))
    ensures Accepts(kind, payload) && payload.Proxy? ==> r == Err(NESTED_ERROR)
    ensures r.Ok? <==> Accepts(kind, payload) && payload.Plain?
    ensures r.Ok? ==> fresh(r.value) && r.value.kind == kind && r.value.data == payload.data
    ensures r.Ok? ==> r.value.id == env.ids(draw) && r.value.historyHash == env.h.ofUid(env.ids(draw))
    ensures r.Ok? ==> r.value.nodeUid == None
  {
    var id := env.ids(draw);
    next := draw + 1;
    if !Accepts(kind, payload) {
      r := Err(InitError(kind, payload));
      return;
    }
    tables.RegisterStandard();
    if payload.Proxy? {
      r := Err(NESTED_ERROR);
      return;
    }
    var o := new ActionObject(kind, id, payload.data, env.h.ofUid(id));
    r := Ok(o);
  }

  /** The proxy class `action_type_for_type` picks for a value. */
  function KindFor(v: Value, env: Env): Kind {
    env.registry(ValueTypeName(v))
  }

  const LINEAGE_MISMATCH: string := "UID and LineageID should match"

  predicate IdsDisagree(id: Option<UID>, lineage: Option<LineageID>) {
    id.Some? && lineage.Some? && id.value != lineage.value.id
  }

  /** The identity assignments at the end of `from_obj`. */
  method AdoptIdentity(o: ActionObject, id: Option<UID>, lineage: Option<LineageID>, h: Hasher)
    modifies o
    ensures o.data == old(o.data) && o.nodeUid == old(o.nodeUid)
    ensures lineage.Some? ==> o.id == lineage.value.id && o.historyHash == lineage.value.historyHash
    ensures lineage.None? && id.Some? ==> o.id == id.value && o.historyHash == h.ofUid(id.value)
    ensures lineage.None? && id.None? ==> o.id == old(o.id) && o.historyHash == old(o.historyHash)
  {
    if id.Some? {
      o.id := id.value;
    }
    if lineage.Some? {
      o.id := lineage.value.id;
      o.historyHash := lineage.value.historyHash;
    } else if id.Some? {
      o.historyHash := h.ofUid(id.value);
    }
  }

  /**
   * `ActionObject.from_obj` with the failed construction reported as `Err(message)`.
   * With a lineage id the new proxy takes its id and hash, with only an id it takes
   * that id and `hash(id)`, and otherwise it keeps what construction gave it.
   */
  method FromObj(payload: Value, id: Option<UID>, lineage: Option<LineageID>, tables: HookTables, env: Env, draw: nat)
    returns (r: Result<ActionObject>, next: nat)
    modifies tables
    ensures IdsDisagree(id, lineage) ==> r == Err(LINEAGE_MISMATCH) && next == draw
    ensures IdsDisagree(id, lineage) ==> tables.pre == old(tables.pre) && tables.post == old(tables.post)
    ensures r.Ok? <==> !IdsDisagree(id, lineage) && Accepts(KindFor(payload, env), payload) && payload.Plain?
    ensures r.Ok? ==> fresh(r.value) && r.value.data == payload.data && r.value.kind == KindFor(payload, env)
    ensures r.Ok? ==> r.value.nodeUid == None && next == draw + 1
    ensures r.Ok? && lineage.Some? ==> r.value.Lineage() == lineage.value
    ensures r.Ok? && lineage.None? && id.Some? ==> r.value.Lineage() == FromUid(id.value, env.h)
    ensures r.Ok? && lineage.None? && id.None? ==> r.value.Lineage() == FromUid(env.ids(draw), env.h)
  {
    if IdsDisagree(id, lineage) {
      return Err(LINEAGE_MISMATCH), draw;
    }
    var made;
    made, next := Create(KindFor(payload, env), payload, tables, env, draw);
    if made.Err? {
      return Err(made.msg), next;
    }
    AdoptIdentity(made.value, id, lineage, env.h);
    r := Ok(made.value);
  }

  /**
   * What `from_obj` hands back as written: `return Err[str(e)]` subscripts the `Err`
   * class instead of calling it. Subscripting a generic class with a string makes a
   * forward reference, so a failed construction yields a typing alias when the text
   * is a Python expression and raises `SyntaxError` when it is not; neither is a result.
   */
  datatype FromObjOutcome = Returned(result: Result<ActionObject>) | SubscriptAlias(text: string) | Raised(msg: string)

  /**
   * `Err[text]`: the forward reference compiles `text` as an expression; whether it
   * is one is given by `isExpression`.
   */
  function SubscriptErr(text: string, isExpression: string -> bool): (r: FromObjOutcome)
    ensures !r.Returned?
    ensures r.SubscriptAlias? <==> isExpression(text)
  {
    if isExpression(text) then SubscriptAlias(text)
    else Raised("SyntaxError: Forward reference must be an expression -- got '" + text + "'")
  }

  /**
   * `ActionObject.from_obj` exactly as written. Every input whose construction raises
   * (a payload the proxy class refuses, or a payload that is itself a proxy, which
   * `AnyActionObject` accepts and `__post_init__` then rejects) ends in `Err[...]`
   * instead of `Err(...)`.
   */
  method FromObjAsWritten(payload: Value, id: Option<UID>, lineage: Option<LineageID>, tables: HookTables, env: Env,
                          draw: nat, isExpression: string -> bool)
    returns (r: FromObjOutcome, next: nat)
    modifies tables
    ensures IdsDisagree(id, lineage) ==> r == Returned(Err(LINEAGE_MISMATCH))
    ensures !IdsDisagree(id, lineage) && !Accepts(KindFor(payload, env), payload)
            ==> r == SubscriptErr(InitError(KindFor(payload, env), payload), isExpression)
    ensures !IdsDisagree(id, lineage) && Accepts(KindFor(payload, env), payload) && payload.Proxy?
            ==> r == SubscriptErr(NESTED_ERROR, isExpression)
    ensures !IdsDisagree(id, lineage) ==> (r.Returned? <==> Accepts(KindFor(payload, env), payload) && payload.Plain?)
    ensures !IdsDisagree(id, lineage) && r.Returned? ==> r.result.Ok?
  {
    if IdsDisagree(id, lineage) {
      return Returned(Err(LINEAGE_MISMATCH)), draw;
    }
    var made;
    made, next := Create(KindFor(payload, env), payload, tables, env, draw);
    if made.Err? {
      return SubscriptErr(made.msg, isExpression), next;
    }
    AdoptIdentity(made.value, id, lineage, env.h);
    r := Returned(Ok(made.value));
  }

  /** `_syft_output_action_object`: a proxy is returned as it is, anything else is wrapped. */
  method OutputActionObject(result: Value, tables: HookTables, env: Env, draw: nat)
    returns (r: Result<ActionObject>, next: nat)
    modifies tables
    ensures result.Proxy? ==> r == Ok(result.obj) && next == draw
    ensures result.Proxy? ==> tables.pre == old(tables.pre) && tables.post == old(tables.post)
    ensures result.Plain? ==> next == draw + 1
    ensures result.Plain? ==> (r.Ok? <==> Accepts(KindFor(result, env), result))
    ensures result.Plain? && r.Ok? ==> fresh(r.value) && r.value.data == result.data
    ensures result.Plain? && r.Ok? ==> r.value.kind == KindFor(result, env) && r.value.nodeUid == None
    ensures result.Plain? && r.Ok? ==> r.value.Lineage() == FromUid(env.ids(draw), env.h)
  {
    if result.Proxy? {
      return Ok(result.obj), draw;
    }
    r, next := Create(KindFor(result, env), result, tables, env, draw);
  }
}

=== FILE: action_proxy.dfy ===
/**
 * What happens when code touches an attribute of a proxy: the `__getattribute__`
 * routing, the empty-placeholder short-circuit (`has_action_data_empty`), the
 * unwrapping of operands before the payload's own method runs
 * (`debox_args_and_kwargs`), the re-identification of the result
 * (`_syft_attr_propagate_ids`), and the wrappers that tie them to the hook runners.
 */
module ActionProxy {
  import opened PyBase
  import opened Identity
  import opened ActionObjects
  import opened ActionHooks

  // ---------------------------------------------------------------------------
  // The empty placeholder among the operands
  // ---------------------------------------------------------------------------

  /** The proxy an operand is, if it is one. */
  function ProxyOf(x: Operand): set<ActionObject> {
    if x.OProxy? then {x.obj} else {}
  }

  /** `is_action_data_empty`: the operand, or the payload of the proxy it is, is `ActionDataEmpty`. */
  predicate IsActionDataEmpty(x: Operand)
    reads ProxyOf(x)
  {
    match x
    case OProxy(o) => o.data.EmptyData?
    case OData(d) => d.EmptyData?
    case _ => false
  }

  /** The loop over the positional operands in `has_action_data_empty`. */
  predicate AnyEmpty(xs: seq<Operand>)
    reads OperandObjs(xs)
    ensures AnyEmpty(xs) <==> exists i :: 0 <= i < |xs| && IsActionDataEmpty(xs[i])
  {
    if |xs| == 0 then false
    else
      assert forall i :: 1 <= i < |xs| ==> xs[i] == xs[1..][i - 1];
      IsActionDataEmpty(xs[0]) || AnyEmpty(xs[1..])
  }

  /** The loop over the keyword operands in `has_action_data_empty`. */
  predicate AnyEmptyKw(kw: Dict<string, Operand>)
    reads KwOperandObjs(kw)
    ensures AnyEmptyKw(kw) <==> exists i :: 0 <= i < |kw| && IsActionDataEmpty(kw[i].1)
  {
    if |kw| == 0 then false
    else
      assert forall i :: 1 <= i < |kw| ==> kw[i] == kw[1..][i - 1];
      IsActionDataEmpty(kw[0].1) || AnyEmptyKw(kw[1..])
  }

  /** `has_action_data_empty(args, kwargs)` */
  predicate HasActionDataEmpty(args: seq<Operand>, kwargs: Dict<string, Operand>)
    reads OperandObjs(args), KwOperandObjs(kwargs)
  {
    AnyEmpty(args) || AnyEmptyKw(kwargs)
  }

  // ---------------------------------------------------------------------------
  // Unwrapping the operands
  // ---------------------------------------------------------------------------

  /** A proxy gives way to its payload (`value.syft_action_data`); anything else stays. */
  function Unwrap(x: Operand): (y: Operand)
    reads ProxyOf(x)
    ensures !y.OProxy?
  {
    if x.OProxy? then OData(x.obj.data) else x
  }

  function UnwrapAll(xs: seq<Operand>): (ys: seq<Operand>)
    reads OperandObjs(xs)
    ensures |ys| == |xs|
    ensures forall i :: 0 <= i < |xs| ==> ys[i] == Unwrap(xs[i])
  {
    if |xs| == 0 then []
    else
      assert forall i :: 1 <= i < |xs| ==> xs[i] == xs[1..][i - 1];
      [Unwrap(xs[0])] + UnwrapAll(xs[1..])
  }

  function UnwrapKw(kw: Dict<string, Operand>): (r: Dict<string, Operand>)
    reads KwOperandObjs(kw)
    ensures |r| == |kw|
    ensures forall i :: 0 <= i < |kw| ==> r[i] == (kw[i].0, Unwrap(kw[i].1))
  {
    if |kw| == 0 then []
    else
      assert forall i :: 1 <= i < |kw| ==> kw[i] == kw[1..][i - 1];
      [(kw[0].0, Unwrap(kw[0].1))] + UnwrapKw(kw[1..])
  }

  /** Nothing handed to the payload's own method is a proxy. */
  predicate NoProxies(xs: seq<Operand>) {
    forall i :: 0 <= i < |xs| ==> !xs[i].OProxy?
  }

  predicate NoProxiesKw(kw: Dict<string, Operand>) {
    forall i :: 0 <= i < |kw| ==> !kw[i].1.OProxy?
  }

  /**
   * `debox_args_and_kwargs` as intended: every operand that is a proxy is replaced by
   * its payload, in place; the keyword names and their order are kept.
   */
  method Debox(args: seq<Operand>, kwargs: Dict<string, Operand>)
    returns (filteredArgs: seq<Operand>, filteredKwargs: Dict<string, Operand>)
    requires DistinctKeys(kwargs)
    ensures filteredArgs == old(UnwrapAll(args))
    ensures filteredKwargs == old(UnwrapKw(kwargs))
  {
    filteredArgs := [];
    for i := 0 to |args|
      invariant filteredArgs == UnwrapAll(args[..i])
    {
      assert forall j :: 0 <= j < i ==> args[..i + 1][j] == args[..i][j];
      filteredArgs := filteredArgs + [Unwrap(args[i])];
    }
    assert args[..|args|] == args;
    filteredKwargs := [];
    for i := 0 to |kwargs|
      invariant |filteredKwargs| == i
      invariant forall j :: 0 <= j < i ==> filteredKwargs[j] == (kwargs[j].0, Unwrap(kwargs[j].1))
    {
      assert Keys(filteredKwargs) == Keys(kwargs[..i]);
      assert kwargs[i].0 !in Keys(kwargs[..i]);
      PutNew(filteredKwargs, kwargs[i].0, Unwrap(kwargs[i].1));
      filteredKwargs := Put(filteredKwargs, kwargs[i].0, Unwrap(kwargs[i].1));
    }
  }

  /**
   * `debox_args_and_kwargs` as written: the keyword loop computes the unwrapped value
   * but stores the original operand, so keyword proxies reach the payload unchanged.
   */
  method DeboxAsWritten(args: seq<Operand>, kwargs: Dict<string, Operand>)
    returns (filteredArgs: seq<Operand>, filteredKwargs: Dict<string, Operand>)
    requires DistinctKeys(kwargs)
    ensures filteredArgs == old(UnwrapAll(args))
    ensures filteredKwargs == kwargs
  {
    filteredArgs := [];
    for i := 0 to |args|
      invariant filteredArgs == UnwrapAll(args[..i])
    {
      assert forall j :: 0 <= j < i ==> args[..i + 1][j] == args[..i][j];
      filteredArgs := filteredArgs + [Unwrap(args[i])];
    }
    assert args[..|args|] == args;
    filteredKwargs := [];
    for i := 0 to |kwargs|
      invariant filteredKwargs == kwargs[..i]
    {
      var value := Unwrap(kwargs[i].1);
      assert Keys(filteredKwargs) == Keys(kwargs[..i]);
      assert kwargs[i].0 !in Keys(kwargs[..i]);
      PutNew(filteredKwargs, kwargs[i].0, kwargs[i].1);
      filteredKwargs := Put(filteredKwargs, kwargs[i].0, kwargs[i].1);
      assert kwargs[..i + 1] == kwargs[..i] + [kwargs[i]];
    }
    assert kwargs[..|kwargs|] == kwargs;
  }

  /** The placeholder test sees the same operands before and after unwrapping. */
  lemma EmptyTestSurvivesDebox(args: seq<Operand>, kwargs: Dict<string, Operand>)
    ensures HasActionDataEmpty(args, kwargs) <==> HasActionDataEmpty(UnwrapAll(args), UnwrapKw(kwargs))
  {
    var ua, uk := UnwrapAll(args), UnwrapKw(kwargs);
    assert forall i :: 0 <= i < |args| ==> (IsActionDataEmpty(args[i]) <==> IsActionDataEmpty(ua[i]));
    assert forall i :: 0 <= i < |kwargs| ==> (IsActionDataEmpty(kwargs[i].1) <==> IsActionDataEmpty(uk[i].1));
  }

  /** Unwrapping twice is unwrapping once: the result holds no proxy. */
  lemma UnwrapIdempotent(args: seq<Operand>, kwargs: Dict<string, Operand>)
    ensures NoProxies(UnwrapAll(args)) && NoProxiesKw(UnwrapKw(kwargs))
    ensures UnwrapAll(UnwrapAll(args)) == UnwrapAll(args)
    ensures UnwrapKw(UnwrapKw(kwargs)) == UnwrapKw(kwargs)
  {
  }

  /**
   * The discrepancy in `debox_args_and_kwargs` as written: a keyword operand that is
   * a proxy reaches the payload's method still wrapped, where the intended unwrapping
   * would have passed its payload.
   */
  lemma DeboxAsWrittenLeaksKeywordProxy(kwargs: Dict<string, Operand>, i: nat)
    requires i < |kwargs| && kwargs[i].1.OProxy?
    ensures !NoProxiesKw(kwargs) && NoProxiesKw(UnwrapKw(kwargs))
    ensures UnwrapKw(kwargs)[i] == (kwargs[i].0, OData(kwargs[i].1.obj.data)) != kwargs[i]
  {
  }

  // ---------------------------------------------------------------------------
  // Re-identifying the result
  // ---------------------------------------------------------------------------

  /**
   * `_syft_attr_propagate_ids`: a dont-wrap name hands the result back untouched;
   * otherwise the result is wrapped in a proxy (a proxy stays itself), which takes
   * the history hash of the context's action, the context's node uid, and the id of
   * the context's result id when there is one.
   */
  method PropagateIds(self: ActionObject, ctx: PreHookContext, name: string, result: Value,
                      tables: HookTables, env: Env, draw: nat)
    returns (r: Result<Value>, next: nat)
    modifies tables, ResultObjs(result)
    ensures name in DontWrapAttrs(self.kind) ==> r == Ok(result) && next == draw
    ensures name !in DontWrapAttrs(self.kind) ==>
              (r.Ok? <==> result.Proxy? || Accepts(KindFor(result, env), result))
    ensures name !in DontWrapAttrs(self.kind) && result.Proxy? ==> r == Ok(result) && next == draw
    ensures name !in DontWrapAttrs(self.kind) && result.Plain? ==> next == draw + 1
    ensures name !in DontWrapAttrs(self.kind) && result.Plain? && r.Ok? ==>
              r.value.Proxy? && fresh(r.value.obj) && r.value.obj.data == result.data
              && r.value.obj.kind == KindFor(result, env)
    ensures name !in DontWrapAttrs(self.kind) && r.Ok? ==> r.value.Proxy? && r.value.obj.nodeUid == ctx.nodeUid
    ensures name !in DontWrapAttrs(self.kind) && r.Ok? ==>
              r.value.obj.historyHash ==
                if ctx.action.Some? then old(HistoryHash(ctx.action.value, env.h))
                else if result.Proxy? then old(result.obj.historyHash)
                else env.h.ofUid(env.ids(draw))
    ensures name !in DontWrapAttrs(self.kind) && r.Ok? ==>
              r.value.obj.id ==
                if ctx.resultId.Some? then ctx.resultId.value.id
                else if result.Proxy? then old(result.obj.id)
                else env.ids(draw)
  {
    if name in DontWrapAttrs(self.kind) {
      return Ok(result), draw;
    }
    ghost var hash := if ctx.action.Some? then HistoryHash(ctx.action.value, env.h) else 0;
    var wrapped;
    wrapped, next := OutputActionObject(result, tables, env, draw);
    if wrapped.Err? {
      return Err(wrapped.msg), next;
    }
    var o := wrapped.value;
    if ctx.action.Some? {
      assert forall x :: x in KwObjects(ctx.action.value.kwargs) ==> x.historyHash == old(x.historyHash);
      assert HistoryHash(ctx.action.value, env.h) == hash;
      o.historyHash := HistoryHash(ctx.action.value, env.h);
    }
    o.nodeUid := ctx.nodeUid;
    if ctx.resultId.Some? {
      // The source assigns the whole `LineageID` to `id`, which keeps only its UID;
      // the history hash was set from the action above.
      o.id := ctx.resultId.value.id;
    }
    r := Ok(Proxy(o));
  }

  // ---------------------------------------------------------------------------
  // Calling a method of the payload through the proxy
  // ---------------------------------------------------------------------------

  /**
   * `_syft_wrap_attribute_for_methods` binds the stand-in `fake_func`, which returns a
   * fresh placeholder, when the payload is the placeholder and the operation is not
   * one that must still run.
   */
  predicate UsesFakeFunc(payload: Data, name: string) {
    payload.EmptyData? && name !in ACTION_DATA_EMPTY_MUST_RUN
  }

  /** `getattr(payload, name)` failing. */
  function NoAttribute(payload: Data, name: string): string {
    "AttributeError: '" + TypeName(payload) + "' object has no attribute '" + name + "'"
  }

  /**
   * What the call inside `_base_wrapper` produces as written: a placeholder of the
   * proxy's internal type when an operand is the placeholder or the stand-in was
   * bound, and otherwise whatever the payload's method gives on the positional
   * operands unwrapped and the keyword operands as they were passed.
   */
  function CallResult(payload: Data, kind: Kind, name: string, args: seq<Operand>, kwargs: Dict<string, Operand>,
                      env: Env): (r: Result<Data>)
    reads OperandObjs(args), KwOperandObjs(kwargs)
  {
    if HasActionDataEmpty(args, kwargs) || UsesFakeFunc(payload, name) then Ok(EmptyData(InternalType(kind)))
    else env.invoke(payload, name, UnwrapAll(args), kwargs)
  }

  /** The same call with the keyword operands unwrapped too, as `debox_args_and_kwargs` intends. */
  function CallResultCorrected(payload: Data, kind: Kind, name: string, args: seq<Operand>,
                               kwargs: Dict<string, Operand>, env: Env): (r: Result<Data>)
    reads OperandObjs(args), KwOperandObjs(kwargs)
  {
    if HasActionDataEmpty(args, kwargs) || UsesFakeFunc(payload, name) then Ok(EmptyData(InternalType(kind)))
    else env.invoke(payload, name, UnwrapAll(args), UnwrapKw(kwargs))
  }

  /** Unwrapping keyword operands that hold no proxy changes nothing. */
  lemma {:induction false} UnwrapKwPlain(kw: Dict<string, Operand>)
    requires NoProxiesKw(kw)
    ensures UnwrapKw(kw) == kw
  {
    assert forall i :: 0 <= i < |kw| ==> UnwrapKw(kw)[i] == kw[i];
  }

  /** The two calls differ only when some keyword operand is a proxy. */
  lemma CallsAgreeOnPlainKeywords(payload: Data, kind: Kind, name: string, args: seq<Operand>,
                                  kwargs: Dict<string, Operand>, env: Env)
    requires NoProxiesKw(kwargs)
    ensures CallResult(payload, kind, name, args, kwargs, env) == CallResultCorrected(payload, kind, name, args, kwargs, env)
  {
    UnwrapKwPlain(kwargs);
  }

  /**
   * The corrected call depends on the keyword operands only through their payloads:
   * two keyword dicts that unwrap alike give the same result.
   */
  lemma CorrectedSeesOnlyPayloads(payload: Data, kind: Kind, name: string, args: seq<Operand>,
                                  kwA: Dict<string, Operand>, kwB: Dict<string, Operand>, env: Env)
    requires UnwrapKw(kwA) == UnwrapKw(kwB)
    ensures CallResultCorrected(payload, kind, name, args, kwA, env) == CallResultCorrected(payload, kind, name, args, kwB, env)
  {
    EmptyTestSurvivesDebox(args, kwA);
    EmptyTestSurvivesDebox(args, kwB);
  }

  /** The pre-hook runner's outcome for a call of `name` on `self`. */
  function PreHooksFor(self: ActionObject, pre: map<string, seq<PreHook>>, name: string, args: seq<Operand>,
                       kwargs: Dict<string, Operand>, env: Env, draw: nat, dispatched: seq<Action>): PreState
    reads self, OperandObjs(args)
  {
    RunHooks(SelectedPreHooks(pre, name, DontWrapAttrs(self.kind)),
             PreState(NewContext(self, name), args, kwargs, draw, dispatched), env)
  }

  /**
   * The body of `_base_wrapper` between the two hook runners: the placeholder
   * short-circuit, or the bound callable on the operands `debox_args_and_kwargs`
   * (as written) hands back.
   */
  method CallPayload(payload: Data, kind: Kind, name: string, args: seq<Operand>, kwargs: Dict<string, Operand>,
                     env: Env)
    returns (r: Result<Data>)
    requires DistinctKeys(kwargs)
    ensures r == old(CallResult(payload, kind, name, args, kwargs, env))
  {
    if HasActionDataEmpty(args, kwargs) {
      return Ok(EmptyData(InternalType(kind)));
    }
    var plainArgs, plainKwargs := DeboxAsWritten(args, kwargs);
    if UsesFakeFunc(payload, name) {
      r := Ok(EmptyData(InternalType(kind)));
    } else {
      r := env.invoke(payload, name, plainArgs, plainKwargs);
    }
  }

  /** `CallPayload` with the corrected `debox_args_and_kwargs`. */
  method CallPayloadCorrected(payload: Data, kind: Kind, name: string, args: seq<Operand>,
                              kwargs: Dict<string, Operand>, env: Env)
    returns (r: Result<Data>)
    requires DistinctKeys(kwargs)
    ensures r == old(CallResultCorrected(payload, kind, name, args, kwargs, env))
  {
    if HasActionDataEmpty(args, kwargs) {
      return Ok(EmptyData(InternalType(kind)));
    }
    var plainArgs, plainKwargs := Debox(args, kwargs);
    if UsesFakeFunc(payload, name) {
      r := Ok(EmptyData(InternalType(kind)));
    } else {
      r := env.invoke(payload, name, plainArgs, plainKwargs);
    }
  }

  /** Positional operands whose proxies did not change unwrap and test as before. */
  twostate lemma OperandsFrame(args: seq<Operand>)
    requires unchanged(OperandObjs(args))
    ensures old(UnwrapAll(args)) == UnwrapAll(args) && old(AnyEmpty(args)) == AnyEmpty(args)
  {
  }

  /** Keyword operands whose proxies did not change unwrap and test as before. */
  twostate lemma KwOperandsFrame(kwargs: Dict<string, Operand>)
    requires unchanged(KwOperandObjs(kwargs))
    ensures old(UnwrapKw(kwargs)) == UnwrapKw(kwargs) && old(AnyEmptyKw(kwargs)) == AnyEmptyKw(kwargs)
  {
  }

  /**
   * The tail of every wrapper: the post-hooks run on the plain result, then
   * `_syft_attr_propagate_ids` re-identifies it. A wrapped result takes the context's
   * node uid, the context's result id (or a fresh UID), and the history hash of the
   * context's action (or `hash` of that fresh UID).
   */
  method WrapResult(self: ActionObject, tables: HookTables, ctx: PreHookContext, name: string, value: Data,
                    env: Env, draw: nat)
    returns (r: Result<Value>, next: nat)
    modifies tables
    ensures name in DontWrapAttrs(self.kind) ==> r == Ok(Plain(value)) && next == draw
    ensures name !in DontWrapAttrs(self.kind) ==>
              next == draw + 1 && (r.Ok? <==> Accepts(KindFor(Plain(value), env), Plain(value)))
    ensures name !in DontWrapAttrs(self.kind) && r.Ok? ==>
              r.value.Proxy? && fresh(r.value.obj) && r.value.obj.data == value
              && r.value.obj.nodeUid == ctx.nodeUid
              && r.value.obj.id == (if ctx.resultId.Some? then ctx.resultId.value.id else env.ids(draw))
              && r.value.obj.historyHash == (if ctx.action.Some? then HistoryHash(ctx.action.value, env.h)
                                             else env.h.ofUid(env.ids(draw)))
  {
    ghost var hash := if ctx.action.Some? then HistoryHash(ctx.action.value, env.h) else 0;
    assert ResultObjs(Plain(value)) == {};
    var post := RunPostHooks(self, tables.post, ctx, name, Plain(value));
    assert ctx.action.Some? ==> unchanged(KwObjects(ctx.action.value.kwargs));
    assert ctx.action.Some? ==> HistoryHash(ctx.action.value, env.h) == hash;
    r, next := PropagateIds(self, ctx, name, post, tables, env, draw);
    assert ctx.action.Some? ==> unchanged(KwObjects(ctx.action.value.kwargs));
  }

  /**
   * The method wrapper: a missing attribute raises before anything runs; otherwise
   * the pre-hooks run, the payload's method (or the placeholder short-circuit) gives
   * the result, the post-hooks run on it and the result is re-identified. The UIDs
   * drawn and the actions sent are those of the pre-hooks (and one more UID when
   * the result gets wrapped). A wrapped result's history hash is that of the action
   * the hooks made, or `hash` of its fresh id when they made none.
   */
  method CallMethod(self: ActionObject, tables: HookTables, name: string, args: seq<Operand>,
                    kwargs: Dict<string, Operand>, env: Env, draw: nat, dispatched: seq<Action>)
    returns (r: Result<Value>, next: nat, sent: seq<Action>)
    requires DistinctKeys(kwargs)
    modifies tables
    ensures !UsesFakeFunc(self.data, name) && !env.payloadHas(self.data, name)
            ==> r == Err(NoAttribute(self.data, name)) && next == draw && sent == dispatched
    ensures UsesFakeFunc(self.data, name) || env.payloadHas(self.data, name) ==>
              var s := old(PreHooksFor(self, tables.pre, name, args, kwargs, env, draw, dispatched));
              var out := old(CallResult(self.data, self.kind, name, args, kwargs, env));
              sent == s.dispatched
              && (out.Err? ==> r == Err(out.msg) && next == s.draw)
              && (out.Ok? && name in DontWrapAttrs(self.kind) ==> r == Ok(Plain(out.value)) && next == s.draw)
              && (out.Ok? && name !in DontWrapAttrs(self.kind) ==>
                    next == s.draw + 1 && (r.Ok? <==> Accepts(KindFor(Plain(out.value), env), Plain(out.value))))
              && (out.Ok? && name !in DontWrapAttrs(self.kind) && r.Ok? ==>
                    r.value.Proxy? && fresh(r.value.obj) && r.value.obj.data == out.value
                    && r.value.obj.nodeUid == s.ctx.nodeUid
                    && r.value.obj.id == (if s.ctx.resultId.Some? then s.ctx.resultId.value.id else env.ids(s.draw))
                    && r.value.obj.historyHash == (if s.ctx.action.Some? then HistoryHash(s.ctx.action.value, env.h)
                                                   else env.h.ofUid(env.ids(s.draw))))
  {
    var payload := self.data;
    if !UsesFakeFunc(payload, name) && !env.payloadHas(payload, name) {
      return Err(NoAttribute(payload, name)), draw, dispatched;
    }
    var s := RunPreHooks(self, tables.pre, NewContext(self, name), name, args, kwargs, env, draw, dispatched);
    sent := s.dispatched;
    OperandsFrame(args);
    KwOperandsFrame(kwargs);
    var out := CallPayload(payload, self.kind, name, s.args, s.kwargs, env);
    if out.Err? {
      return Err(out.msg), s.draw, sent;
    }
    r, next := WrapResult(self, tables, s.ctx, name, out.value, env, s.draw);
  }

  /**
   * `CallMethod` with the corrected `debox_args_and_kwargs`: the same hooks, draws and
   * re-identification, but the payload's method receives payloads for keyword
   * proxies too (`CorrectedSeesOnlyPayloads`).
   */
  method CallMethodCorrected(self: ActionObject, tables: HookTables, name: string, args: seq<Operand>,
                             kwargs: Dict<string, Operand>, env: Env, draw: nat, dispatched: seq<Action>)
    returns (r: Result<Value>, next: nat, sent: seq<Action>)
    requires DistinctKeys(kwargs)
    modifies tables
    ensures !UsesFakeFunc(self.data, name) && !env.payloadHas(self.data, name)
            ==> r == Err(NoAttribute(self.data, name)) && next == draw && sent == dispatched
    ensures UsesFakeFunc(self.data, name) || env.payloadHas(self.data, name) ==>
              var s := old(PreHooksFor(self, tables.pre, name, args, kwargs, env, draw, dispatched));
              var out := old(CallResultCorrected(self.data, self.kind, name, args, kwargs, env));
              sent == s.dispatched
              && (out.Err? ==> r == Err(out.msg) && next == s.draw)
              && (out.Ok? && name in DontWrapAttrs(self.kind) ==> r == Ok(Plain(out.value)) && next == s.draw)
              && (out.Ok? && name !in DontWrapAttrs(self.kind) ==>
                    next == s.draw + 1 && (r.Ok? <==> Accepts(KindFor(Plain(out.value), env), Plain(out.value))))
              && (out.Ok? && name !in DontWrapAttrs(self.kind) && r.Ok? ==>
                    r.value.Proxy? && fresh(r.value.obj) && r.value.obj.data == out.value
                    && r.value.obj.nodeUid == s.ctx.nodeUid
                    && r.value.obj.id == (if s.ctx.resultId.Some? then s.ctx.resultId.value.id else env.ids(s.draw))
                    && r.value.obj.historyHash == (if s.ctx.action.Some? then HistoryHash(s.ctx.action.value, env.h)
                                                   else env.h.ofUid(env.ids(s.draw))))
  {
    var payload := self.data;
    if !UsesFakeFunc(payload, name) && !env.payloadHas(payload, name) {
      return Err(NoAttribute(payload, name)), draw, dispatched;
    }
    var s := RunPreHooks(self, tables.pre, NewContext(self, name), name, args, kwargs, env, draw, dispatched);
    sent := s.dispatched;
    OperandsFrame(args);
    KwOperandsFrame(kwargs);
    var out := CallPayloadCorrected(payload, self.kind, name, s.args, s.kwargs, env);
    if out.Err? {
      return Err(out.msg), s.draw, sent;
    }
    r, next := WrapResult(self, tables, s.ctx, name, out.value, env, s.draw);
  }

  /**
   * The property wrapper (`_syft_wrap_attribute_for_properties`): the pre-hooks run
   * with no operands, the post-hooks run on the property's value, and the value is
   * re-identified.
   */
  method CallProperty(self: ActionObject, tables: HookTables, name: string, value: Data, env: Env, draw: nat,
                      dispatched: seq<Action>)
    returns (r: Result<Value>, next: nat, sent: seq<Action>)
    modifies tables
    ensures var s := old(PreHooksFor(self, tables.pre, name, [], [], env, draw, dispatched));
            sent == s.dispatched
            && (name in DontWrapAttrs(self.kind) ==> r == Ok(Plain(value)) && next == s.draw)
            && (name !in DontWrapAttrs(self.kind) ==>
                  next == s.draw + 1 && (r.Ok? <==> Accepts(KindFor(Plain(value), env), Plain(value))))
            && (name !in DontWrapAttrs(self.kind) && r.Ok? ==>
                  r.value.Proxy? && fresh(r.value.obj) && r.value.obj.data == value
                  && r.value.obj.nodeUid == s.ctx.nodeUid
                  && r.value.obj.id == (if s.ctx.resultId.Some? then s.ctx.resultId.value.id else env.ids(s.draw))
                  && r.value.obj.historyHash == (if s.ctx.action.Some? then HistoryHash(s.ctx.action.value, env.h)
                                                 else env.h.ofUid(env.ids(s.draw))))
  {
    var s := RunPreHooks(self, tables.pre, NewContext(self, name), name, [], [], env, draw, dispatched);
    sent := s.dispatched;
    r, next := WrapResult(self, tables, s.ctx, name, value, env, s.draw);
  }

  /** `bool(payload)` as a value. */
  function BoolData(truth: bool): Data {
    Raw("bool", ["int", "object"], if truth then 1 else 0)
  }

  /**
   * `_syft_wrap_attribute_for_bool_on_nonbools`: `__bool__` is a dont-wrap name, so
   * only hooks registered under `__bool__` itself run and the truth value comes back
   * as a plain boolean, never wrapped in a proxy.
   */
  method CallBool(self: ActionObject, tables: HookTables, truth: bool, env: Env, draw: nat, dispatched: seq<Action>)
    returns (r: Result<Value>, next: nat, sent: seq<Action>)
    modifies tables
    ensures r == Ok(Plain(BoolData(truth)))
    ensures var s := old(RunHooks(if "__bool__" in tables.pre then tables.pre["__bool__"] else [],
                                  PreState(NewContext(self, "__bool__"), [], [], draw, dispatched), env));
            sent == s.dispatched && next == s.draw
  {
    assert "__bool__" in DontWrapAttrs(self.kind);
    assert SelectedPreHooks(tables.pre, "__bool__", DontWrapAttrs(self.kind))
           == (if "__bool__" in tables.pre then tables.pre["__bool__"] else []);
    r, next, sent := CallProperty(self, tables, "__bool__", BoolData(truth), env, draw, dispatched);
  }

  // ---------------------------------------------------------------------------
  // Attribute routing
  // ---------------------------------------------------------------------------

  /** Where `__getattribute__` sends an attribute lookup. */
  datatype Route =
    | Internal        // `_syft…` / `syft…`: plain attribute access
    | Passthrough     // a passthrough attribute: plain attribute access
    | BoolOnNonBool   // `__bool__` on a payload without one
    | Property        // a property of the payload
    | MethodCall      // anything else: the method wrapper

  /**
   * `ActionObject.__getattribute__`; whether the payload defines `__bool__` and
   * whether the name is a property of the object it is looked up on are given.
   */
  function RouteOf(kind: Kind, name: string, payloadHasBool: bool, isProperty: bool): Route {
    if StartsWith(name, "_syft") || StartsWith(name, "syft") then Internal
    else if name in PassthroughAttrs(kind) then Passthrough
    else if name == "__bool__" && !payloadHasBool then BoolOnNonBool
    else if isProperty then Property
    else MethodCall
  }

  /**
   * The pre-hooks a lookup runs on its way: none for a plain attribute access, the
   * `__bool__` selection for the bool stand-in, and the name's selection otherwise.
   */
  function RouteHooks(route: Route, pre: map<string, seq<PreHook>>, name: string, dontWrap: seq<string>): seq<PreHook> {
    match route
    case Internal => []
    case Passthrough => []
    case BoolOnNonBool => SelectedPreHooks(pre, "__bool__", dontWrap)
    case Property => SelectedPreHooks(pre, name, dontWrap)
    case MethodCall => SelectedPreHooks(pre, name, dontWrap)
  }

  /**
   * With only the standard hooks installed, a lookup reaches the make and send hooks
   * exactly when its name is neither internal, passthrough nor dont-wrap; otherwise it
   * runs no hook at all, so `__bool__` and the other dont-wrap names never send.
   */
  lemma StandardRouting(kind: Kind, name: string, payloadHasBool: bool, isProperty: bool)
    requires name != HOOK_ALWAYS
    ensures var hooks := RouteHooks(RouteOf(kind, name, payloadHasBool, isProperty), StandardPre(), name, DontWrapAttrs(kind));
            hooks == if StartsWith(name, "_syft") || StartsWith(name, "syft") || name in PassthroughAttrs(kind)
                        || name in DontWrapAttrs(kind)
                     then []
                     else [MakeActionSideEffect, SendActionSideEffect]
  {
    assert "__bool__" in DontWrapAttrs(kind);
    assert "__bool__" != HOOK_ALWAYS;
  }
}

=== FILE: blob_storage.dfy ===
/**
 * Blob storage entries: how `CreateBlobStorageEntry.from_path` turns a local file into
 * an entry (which errors it raises, which mimetype it picks, which extensions it
 * records), the stored file name of an entry, and the projection of a stored entry
 * onto its public metadata.
 *
 * The filesystem and `mimetypes.guess_type` are oracles: a `FileSystem` value answers
 * `exists`, `is_file`, `stat().st_size` and the mimetype guess for a path string. The
 * path's final component and its suffixes are computed as POSIX `pathlib` does.
 */
module BlobStorage {
  import opened PyBase
  import opened Identity

  /** The class recorded in `type_`; only `BlobFileType` is produced by the modelled code. */
  datatype TypeRef = BlobFileType | OtherType(name: string)

  /** `SecureFilePathLocation` and its Seaweed subclass, which adds the upload id. */
  datatype Location =
    | SecureFilePathLocation(id: UID, path: string)
    | SeaweedSecureFilePathLocation(id: UID, path: string, uploadId: string)

  /** `BlobStorageEntry`; `createdAt` is the clock reading taken at construction. */
  datatype BlobStorageEntry = BlobStorageEntry(
    id: UID, location: Location, type_: Option<TypeRef>, mimetype: string,
    fileSize: int, uploadedBy: string, createdAt: int)

  /** `BlobStorageMetadata`, with the `id` every stored object carries. */
  datatype BlobStorageMetadata = BlobStorageMetadata(id: UID, type_: Option<TypeRef>, mimetype: string, fileSize: int)

  /** `CreateBlobStorageEntry` */
  datatype CreateBlobStorageEntry = CreateBlobStorageEntry(
    id: UID, type_: Option<TypeRef>, mimetype: string, fileSize: int, extensions: seq<string>)

  /** What the filesystem and the `mimetypes` module say about a path string. */
  datatype FileSystem = FileSystem(
    pathExists: string -> bool,
    isFile: string -> bool,
    stSize: string -> int,
    guessType: string -> Option<string>)

  const JSONL_MARKER: string := ".jsonl"
  const JSONL_MIMETYPE: string := "application/json-lines"
  const UNKNOWN_MIMETYPE_ERROR: string :=
    "SyftException: mimetype could not be identified.\nPlease specify mimetype manually `from_path(..., mimetype = ...)`."

  // ---------------------------------------------------------------------------
  // Path names and suffixes
  // ---------------------------------------------------------------------------

  /** The components a POSIX `Path` keeps: empty ones (repeated or trailing `/`) and `.` go. */
  function KeptComponents(parts: seq<string>): (r: seq<string>)
    ensures |r| <= |parts|
    ensures forall i :: 0 <= i < |r| ==> r[i] != "" && r[i] != "." && r[i] in parts
  {
    if |parts| == 0 then []
    else
      var rest := KeptComponents(parts[1..]);
      if parts[0] == "" || parts[0] == "." then rest else [parts[0]] + rest
  }

  /** `Path(fp).name`: the last kept component, or the empty string for `/` and `.`. */
  function PathName(fp: string): (r: string)
    ensures r != "."
    ensures r != "" ==> r in Split(fp, '/')
  {
    var cs := KeptComponents(Split(fp, '/'));
    if |cs| == 0 then "" else cs[|cs| - 1]
  }

  /** `name.lstrip('.')` */
  function LeadingDotsStripped(s: string): (r: string)
    ensures EndsWith(s, r)
  {
    if |s| > 0 && s[0] == '.' then
      var r := LeadingDotsStripped(s[1..]);
      assert s[1..][|s[1..]| - |r|..] == s[|s| - |r|..];
      r
    else s
  }

  /** What `lstrip('.')` removes is dots only, and what it keeps does not start with one. */
  lemma {:induction false} LeadingDotsOnly(s: string)
    ensures var r := LeadingDotsStripped(s);
      (forall i :: 0 <= i < |s| - |r| ==> s[i] == '.') && (|r| > 0 ==> r[0] != '.')
  {
    if |s| > 0 && s[0] == '.' {
      LeadingDotsOnly(s[1..]);
      var r := LeadingDotsStripped(s);
      forall i | 0 <= i < |s| - |r| ensures s[i] == '.' {
        if i > 0 {
          assert s[i] == s[1..][i - 1];
        }
      }
    }
  }

  /** `['.' + p for p in parts]` */
  function Dotted(parts: seq<string>): (r: seq<string>)
    ensures |r| == |parts|
    ensures forall i :: 0 <= i < |r| ==> r[i] == "." + parts[i]
  {
    if |parts| == 0 then [] else ["." + parts[0]] + Dotted(parts[1..])
  }

  /** `['.' + p for p in s.split('.')[1:]]`: every dot-separated field after the first, with its dot. */
  function DotFields(s: string): seq<string> {
    Dotted(Split(s, '.')[1..])
  }

  /**
   * `Path.suffixes` of a final component: nothing when the name ends with a dot,
   * otherwise the dot fields of the name with its leading dots (hidden files) stripped.
   */
  function Suffixes(name: string): seq<string> {
    if |name| > 0 && name[|name| - 1] == '.' then [] else DotFields(LeadingDotsStripped(name))
  }

  /** The dotted fields concatenate to the fields joined by dots, behind one more dot. */
  lemma {:induction false} ConcatDotted(parts: seq<string>)
    ensures Concat(Dotted(parts)) == if |parts| == 0 then "" else "." + Join(parts, '.')
  {
    if |parts| > 0 {
      ConcatDotted(parts[1..]);
      assert Dotted(parts)[1..] == Dotted(parts[1..]);
    }
  }

  /** The dot fields, concatenated, are the text from the first dot on. */
  lemma DotFieldsTail(s: string)
    ensures EndsWith(s, Concat(DotFields(s)))
  {
    var parts := Split(s, '.');
    ConcatDotted(parts[1..]);
    if |parts| > 1 {
      var tail := "." + Join(parts[1..], '.');
      JoinSplit(s, '.');
      assert s == parts[0] + tail;
      assert s[|s| - |tail|..] == tail;
    }
  }

  /** There are no dot fields exactly when there is no dot. */
  lemma NoDotFields(s: string)
    ensures |DotFields(s)| == 0 <==> '.' !in s
  {
    var parts := Split(s, '.');
    JoinSplit(s, '.');
    if |parts| > 1 {
      assert s == parts[0] + "." + Join(parts[1..], '.');
      assert s[|parts[0]|] == '.';
    } else {
      SplitFieldsFree(s, '.');
      assert parts[0] in parts;
    }
  }

  /**
   * The suffixes, put back together, are the tail of the name that starts at its
   * first dot after any leading dots.
   */
  lemma SuffixesAreNameTail(name: string)
    ensures EndsWith(name, Concat(Suffixes(name)))
  {
    if !(|name| > 0 && name[|name| - 1] == '.') {
      var stripped := LeadingDotsStripped(name);
      DotFieldsTail(stripped);
      EndsWithTrans(name, stripped, Concat(DotFields(stripped)));
    }
  }

  /** There are no suffixes exactly when the name ends with a dot or has no dot past its leading ones. */
  lemma NoSuffixes(name: string)
    ensures |Suffixes(name)| == 0 <==>
      ((|name| > 0 && name[|name| - 1] == '.') || '.' !in LeadingDotsStripped(name))
  {
    NoDotFields(LeadingDotsStripped(name));
  }

  // ---------------------------------------------------------------------------
  // from_path
  // ---------------------------------------------------------------------------

  /**
   * `CreateBlobStorageEntry.from_path(fp, mimetype)`. The entry's id is the fresh UID
   * its construction draws.
   */
  function FromPath(fp: string, mimetype: Option<string>, fs: FileSystem, freshId: UID): (r: Result<CreateBlobStorageEntry>)
    ensures !fs.pathExists(fp) ==> r == Err("SyftException: " + fp + " does not exist.")
    ensures fs.pathExists(fp) && !fs.isFile(fp) ==> r == Err("SyftException: " + fp + " is not a file.")
    ensures r.Ok? <==>
      (fs.pathExists(fp) && fs.isFile(fp) && (Contains(fp, JSONL_MARKER) || mimetype.Some? || fs.guessType(fp).Some?))
    ensures r.Err? && fs.pathExists(fp) && fs.isFile(fp) ==> r.msg == UNKNOWN_MIMETYPE_ERROR
    ensures r.Ok? && Contains(fp, JSONL_MARKER) ==> r.value.mimetype == JSONL_MIMETYPE
    ensures r.Ok? && !Contains(fp, JSONL_MARKER) && mimetype.Some? ==> r.value.mimetype == mimetype.value
    ensures r.Ok? && !Contains(fp, JSONL_MARKER) && mimetype.None? ==> r.value.mimetype == fs.guessType(fp).value
    ensures r.Ok? ==>
      r.value.id == freshId && r.value.type_ == Some(BlobFileType) && r.value.fileSize == fs.stSize(fp)
      && r.value.extensions == Suffixes(PathName(fp))
  {
    if !fs.pathExists(fp) then Err("SyftException: " + fp + " does not exist.")
    else if !fs.isFile(fp) then Err("SyftException: " + fp + " is not a file.")
    else
      var chosen := if Contains(fp, JSONL_MARKER) then Some(JSONL_MIMETYPE) else mimetype;
      var picked := if chosen.None? then fs.guessType(fp) else chosen;
      if picked.None? then Err(UNKNOWN_MIMETYPE_ERROR)
      else Ok(CreateBlobStorageEntry(freshId, Some(BlobFileType), picked.value, fs.stSize(fp), Suffixes(PathName(fp))))
  }

  /** A path mentioning `.jsonl` gets the JSON-lines mimetype whatever the caller asked for. */
  lemma JsonlIgnoresCallerMimetype(fp: string, m1: Option<string>, m2: Option<string>, fs: FileSystem, freshId: UID)
    requires Contains(fp, JSONL_MARKER)
    ensures FromPath(fp, m1, fs, freshId) == FromPath(fp, m2, fs, freshId)
    ensures FromPath(fp, m1, fs, freshId).Ok? <==> fs.pathExists(fp) && fs.isFile(fp)
  {
  }

  /** `".jsonl" in str(fp)` holds for any path whose text has `.jsonl` at some position. */
  lemma JsonlAnywhere(fp: string, i: nat)
    requires i + |JSONL_MARKER| <= |fp| && fp[i..i + |JSONL_MARKER|] == JSONL_MARKER
    ensures Contains(fp, JSONL_MARKER)
  {
    ContainsIff(fp, JSONL_MARKER);
    assert StartsWith(fp[i..], JSONL_MARKER);
  }

  // ---------------------------------------------------------------------------
  // file_name
  // ---------------------------------------------------------------------------

  /** `file_name`: the id's text followed by the extensions; `strOfUid` is `str(UID)`. */
  function FileName(e: CreateBlobStorageEntry, strOfUid: UID -> string): (r: string)
    ensures |r| >= |strOfUid(e.id)| && r[..|strOfUid(e.id)|] == strOfUid(e.id)
    ensures r[|strOfUid(e.id)|..] == Concat(e.extensions)
  {
    strOfUid(e.id) + Concat(e.extensions)
  }

  /**
   * The stored name of a file entry keeps the file's own extension: after the id
   * comes the tail of the file's name from its first dot (past any leading dots),
   * or nothing when the name has no such dot.
   */
  lemma FromPathFileName(fp: string, mimetype: Option<string>, fs: FileSystem, freshId: UID, strOfUid: UID -> string)
    requires FromPath(fp, mimetype, fs, freshId).Ok?
    ensures var name := PathName(fp);
      var fileName := FileName(FromPath(fp, mimetype, fs, freshId).value, strOfUid);
      exists k :: 0 <= k <= |name| && fileName == strOfUid(freshId) + name[k..]
        && (k == |name| || name[k] == '.')
  {
    var name := PathName(fp);
    SuffixesAreNameTail(name);
    var sfx := Suffixes(name);
    var c := Concat(sfx);
    var k := |name| - |c|;
    assert name[k..] == c;
    if k < |name| {
      assert c == sfx[0] + Concat(sfx[1..]);
      if |name| > 0 && name[|name| - 1] == '.' {
      } else {
        var parts := Split(LeadingDotsStripped(name), '.')[1..];
        assert sfx[0] == "." + parts[0];
      }
    }
    assert FileName(FromPath(fp, mimetype, fs, freshId).value, strOfUid) == strOfUid(freshId) + name[k..];
  }

  // ---------------------------------------------------------------------------
  // storage_entry_to_metadata
  // ---------------------------------------------------------------------------

  /** `storage_entry_to_metadata`: `keep(["id", "type_", "mimetype", "file_size"])`. */
  function ToMetadata(e: BlobStorageEntry): BlobStorageMetadata {
    BlobStorageMetadata(e.id, e.type_, e.mimetype, e.fileSize)
  }

  /**
   * Two entries have the same metadata exactly when they agree on the four kept
   * fields; location, uploader and creation time never show through.
   */
  lemma MetadataKeepsExactlyFour(a: BlobStorageEntry, b: BlobStorageEntry)
    ensures ToMetadata(a) == ToMetadata(b) <==>
      (a.id == b.id && a.type_ == b.type_ && a.mimetype == b.mimetype && a.fileSize == b.fileSize)
  {
  }
}

=== FILE: identity.dfy ===
/**
 * Identifiers. A UID is a random 128-bit value; a LineageID pairs a UID with the
 * history hash of the operations that produced the object it names.
 *
 * Python's built-in `hash` is not a fixed function (string hashing is salted per
 * process), so it is a parameter: a `Hasher` gives the hash of an int, of a string
 * and of a UID, and nothing further is known about those three functions.
 */
module Identity {

  /** The number of distinct UIDs: 2^128. */
  const UID_SPACE: nat := 0x1_0000_0000_0000_0000_0000_0000_0000_0000

  type Uuid = x: nat | x < UID_SPACE

  datatype UID = UID(value: Uuid)

  datatype LineageID = LineageID(id: UID, historyHash: int)

  /** Python's `hash`, restricted to the three kinds of value the model hashes. */
  datatype Hasher = Hasher(ofInt: int -> int, ofStr: string -> int, ofUid: UID -> int)

  /**
   * Fresh UIDs. `UID()` draws from a random source; the model reads the draws from a
   * stream, and every operation that creates identifiers says how many it used.
   */
  type IdStream = nat -> UID

  /** `LineageID(uid)` for a bare UID: the history starts at the UID's own hash. */
  function FromUid(u: UID, h: Hasher): LineageID {
    LineageID(u, h.ofUid(u))
  }
}

=== FILE: lib_service_registry.dfy ===
/**
 * The cascading-module-permission (CMP) tree that records which library members
 * may be executed remotely: importing a member by dotted path, the package-membership
 * test that decides which attributes of a library object become children, the node
 * constructor, lookup by dotted path, pre-order flattening, clearing the objects, a
 * node's `build` (the one place a node's object is imported), and the tree's
 * breadth-first `build` over a worklist.
 *
 * Python objects are opaque handles; importing, attribute access and introspection
 * are given as an `Introspection` record of functions.
 */
module LibServiceRegistry {
  import opened PyBase

  /** Attribute names `build` never follows (the third one carries a leading space). */
  const LIB_IGNORE_ATTRIBUTES: seq<string> := ["os", "__abstractmethods__", "__base__", " __bases__", "__class__"]

  // ---------------------------------------------------------------------------
  // Python objects and introspection
  // ---------------------------------------------------------------------------

  /** An opaque Python object. */
  datatype Obj = Obj(handle: nat)

  /** `inspect.ismodule`, `CMPBase.isfunction`, `inspect.isclass`, in that order of priority. */
  datatype ObjClass = ModuleObj | FunctionObj | ClassObj | OtherObj

  /** An attribute that may be missing, present but not a string, or a string. */
  datatype StrAttr = Absent | NonString | Text(s: string)

  datatype Introspection = Introspection(
    importModule: string -> Result<Obj>,       // importlib.import_module
    getAttr: (Obj, string) -> Result<Obj>,     // getattr, which may raise
    dictKeys: Obj -> seq<string>,              // keys of getattr(obj, "__dict__", {})
    name: Obj -> Option<string>,               // a string-valued __name__
    moduleAttr: Obj -> StrAttr,                // __module__
    classModule: Obj -> Option<string>,        // __class__.__module__
    classify: Obj -> ObjClass)

  // ---------------------------------------------------------------------------
  // import_from_path
  // ---------------------------------------------------------------------------

  /** `path.split(".", 1)`, or the whole path and `""` when it has no dot. */
  function SplitModule(path: string): (string, string) {
    match IndexOf(path, '.')
    case None => (path, "")
    case Some(i) => (path[..i], path[i + 1..])
  }

  /** `[x for x in parts if x != ""]` */
  function NonEmpty(parts: seq<string>): (r: seq<string>)
    ensures forall x :: x in r <==> x in parts && x != ""
  {
    if |parts| == 0 then [] else (if parts[0] != "" then [parts[0]] else []) + NonEmpty(parts[1..])
  }

  /** The attribute steps `import_from_path` takes after importing the module. */
  function AttrSteps(path: string): seq<string> {
    NonEmpty(Split(SplitModule(path).1, '.'))
  }

  /** Following the attribute steps one `getattr` at a time; the first failure is the outcome. */
  function Resolve(cur: Obj, steps: seq<string>, o: Introspection): Result<Obj>
    decreases |steps|
  {
    if |steps| == 0 then Ok(cur)
    else match o.getAttr(cur, steps[0])
      case Err(m) => Err(m)
      case Ok(next) => Resolve(next, steps[1..], o)
  }

  /** What `import_from_path(path)` returns, or the exception it raises. */
  function ImportSpec(path: string, o: Introspection): Result<Obj> {
    match o.importModule(SplitModule(path).0)
    case Err(m) => Err(m)
    case Ok(m) => Resolve(m, AttrSteps(path), o)
  }

  /** `import_from_path` */
  method ImportFromPath(path: string, o: Introspection) returns (r: Result<Obj>)
    ensures r == ImportSpec(path, o)
  {
    var (top, attrPath) := SplitModule(path);
    r := o.importModule(top);
    if r.Err? {
      return;
    }
    var parts := NonEmpty(Split(attrPath, '.'));
    var i := 0;
    while i < |parts|
      invariant 0 <= i <= |parts|
      invariant ImportSpec(path, o) == if r.Ok? then Resolve(r.value, parts[i..], o) else r
    {
      if r.Ok? {
        assert parts[i..][1..] == parts[i + 1..];
        r := o.getAttr(r.value, parts[i]);
      }
      i := i + 1;
    }
  }

  /** The module is the text before the first dot; with a dot, module, dot and rest make the path. */
  lemma SplitModuleParts(path: string)
    ensures '.' !in SplitModule(path).0
    ensures '.' in path ==> path == SplitModule(path).0 + "." + SplitModule(path).1
    ensures '.' !in path ==> SplitModule(path) == (path, "")
  {
    match IndexOf(path, '.')
    case None =>
    case Some(i) =>
      assert path == path[..i] + [path[i]] + path[i + 1..];
  }

  /** A dot-free path imports the module itself and takes no attribute step. */
  lemma DotFreePathHasNoSteps(path: string, o: Introspection)
    requires '.' !in path
    ensures AttrSteps(path) == []
    ensures ImportSpec(path, o) == o.importModule(path)
  {
    SplitModuleParts(path);
    assert Split("", '.') == [""];
    assert [""][1..] == [];
  }

  /** Every attribute step is a non-empty name without a dot. */
  lemma AttrStepsAreNames(path: string)
    ensures forall s :: s in AttrSteps(path) ==> s != "" && '.' !in s
  {
    SplitFieldsFree(SplitModule(path).1, '.');
  }

  /** When no segment is empty, the module and the steps joined by dots give the path back. */
  lemma {:induction false} StepsRebuildPath(path: string)
    requires forall s :: s in Split(path, '.') ==> s != ""
    ensures Join([SplitModule(path).0] + AttrSteps(path), '.') == path
  {
    SplitModuleParts(path);
    var (top, rest) := SplitModule(path);
    match IndexOf(path, '.')
    case None =>
      assert AttrSteps(path) == NonEmpty([""]) == [];
    case Some(i) =>
      assert Split(path, '.') == [top] + Split(rest, '.');
      assert forall s :: s in Split(rest, '.') ==> s in Split(path, '.');
      NonEmptyKeepsAll(Split(rest, '.'));
      JoinCons(top, Split(rest, '.'), '.');
      JoinSplit(rest, '.');
  }

  lemma {:induction false} NonEmptyKeepsAll(parts: seq<string>)
    requires forall s :: s in parts ==> s != ""
    ensures NonEmpty(parts) == parts
  {
    if |parts| > 0 {
      assert forall s :: s in parts[1..] ==> s in parts;
      NonEmptyKeepsAll(parts[1..]);
      assert parts[0] in parts;
      assert parts == [parts[0]] + parts[1..];
    }
  }

  // ---------------------------------------------------------------------------
  // check_package_membership
  // ---------------------------------------------------------------------------

  /**
   * `CMPBase.check_package_membership(parent_obj, child_obj)`: whether an attribute of
   * the object being built belongs to its package. A missing or non-string `__name__`,
   * a non-string `__module__` or a missing `__class__.__module__` raises inside the
   * `try`, and the answer is then false.
   */
  function CheckPackageMembership(parent: Obj, child: Obj, o: Introspection): (r: bool)
    ensures r ==> o.name(parent).Some? && o.name(child).Some? && o.name(child) != o.name(parent)
    ensures (o.name(parent).Some? && o.name(child).Some? && o.name(child) != o.name(parent)
             && StartsWith(o.name(child).value, o.name(parent).value)) ==> r
    ensures (o.name(parent).Some? && o.name(child).Some? && o.name(child) != o.name(parent)
             && !StartsWith(o.name(child).value, o.name(parent).value) && o.moduleAttr(child).Text?) ==>
              (r <==> StartsWith(o.moduleAttr(child).s, Split(o.name(parent).value, '.')[0]))
    ensures (o.name(parent).Some? && o.name(child).Some? && o.name(child) != o.name(parent)
             && !StartsWith(o.name(child).value, o.name(parent).value) && o.moduleAttr(child).Absent?) ==>
              (r <==> o.classModule(child).Some? && StartsWith(o.classModule(child).value, o.name(parent).value))
    ensures o.moduleAttr(child).NonString? ==>
              (r <==> (o.name(parent).Some? && o.name(child).Some? && o.name(child) != o.name(parent)
                       && StartsWith(o.name(child).value, o.name(parent).value)))
  {
    match (o.name(parent), o.name(child))
    case (Some(p), Some(c)) =>
      if c == p then false
      else if StartsWith(c, p) then true
      else (
        match o.moduleAttr(child)
        case Text(m) => StartsWith(m, Split(p, '.')[0])
        case NonString => false
        case Absent =>
          match o.classModule(child)
          case Some(cm) => StartsWith(cm, p)
          case None => false)
    case _ => false
  }

  /** The first dotted segment of a name is a prefix of the name. */
  lemma FirstSegmentIsPrefix(p: string)
    ensures StartsWith(p, Split(p, '.')[0])
  {
    match IndexOf(p, '.')
    case None =>
    case Some(i) =>
      assert Split(p, '.')[0] == p[..i];
  }

  /** A child whose module lies under the parent's full name is a member, whatever its own name. */
  lemma ModuleUnderParentIsMember(parent: Obj, child: Obj, o: Introspection, m: string)
    requires o.name(parent).Some? && o.name(child).Some? && o.name(child) != o.name(parent)
    requires o.moduleAttr(child) == Text(m) && StartsWith(m, o.name(parent).value)
    ensures CheckPackageMembership(parent, child, o)
  {
    var p := o.name(parent).value;
    FirstSegmentIsPrefix(p);
    StartsWithTrans(m, p, Split(p, '.')[0]);
  }

  // ---------------------------------------------------------------------------
  // Nodes and the constructor
  // ---------------------------------------------------------------------------

  /** The permission a node grants; the permission objects themselves are not part of this model. */
  type Permission = string

  /** `CMPBase` and the subclasses `init_child` creates. */
  datatype CMPKind = BaseNode | ModuleNode | FunctionNode | ClassNode

  /**
   * A `CMPBase` node: its class, relative `path`, `permissions`, imported `obj`,
   * `absolute_path` and `children` keyed by name in insertion order.
   */
  datatype CMP = CMP(
    kind: CMPKind,
    path: string,
    permissions: Option<Permission>,
    obj: Option<Obj>,
    absolutePath: Option<string>,
    children: Dict<string, CMP>)

  /** The `children` argument of the constructor: absent, a list or a dict. */
  datatype ChildrenArg = NoChildren | ChildList(list: seq<CMP>) | ChildDict(dict: Dict<string, CMP>)

  /** `{f"{c.path}": c for c in children}`: a later child with the same path replaces an earlier one. */
  function KeyByPath(cs: seq<CMP>): Dict<string, CMP>
    decreases |cs|
  {
    if |cs| == 0 then [] else Put(KeyByPath(cs[..|cs| - 1]), cs[|cs| - 1].path, cs[|cs| - 1])
  }

  /** The keys are the children's paths, each once. */
  lemma {:induction false} KeyByPathKeys(cs: seq<CMP>)
    ensures DistinctKeys(KeyByPath(cs))
    ensures forall k :: k in Keys(KeyByPath(cs)) <==> exists i :: 0 <= i < |cs| && cs[i].path == k
    decreases |cs|
  {
    if |cs| > 0 {
      var front := cs[..|cs| - 1];
      var last := cs[|cs| - 1];
      KeyByPathKeys(front);
      PutDistinct(KeyByPath(front), last.path, last);
      forall k ensures k in Keys(KeyByPath(cs)) <==> exists i :: 0 <= i < |cs| && cs[i].path == k {
        LookupPut(KeyByPath(front), last.path, last, k);
        if exists i :: 0 <= i < |front| && front[i].path == k {
          var i :| 0 <= i < |front| && front[i].path == k;
          assert cs[i].path == k;
        }
        if exists i :: 0 <= i < |cs| && cs[i].path == k {
          var i :| 0 <= i < |cs| && cs[i].path == k;
          if i < |front| {
            assert front[i].path == k;
          }
        }
      }
    }
  }

  /** A path maps to the last child in the list that carries it. */
  lemma {:induction false} KeyByPathLast(cs: seq<CMP>, i: nat)
    requires i < |cs|
    requires forall j :: i < j < |cs| ==> cs[j].path != cs[i].path
    ensures Lookup(KeyByPath(cs), cs[i].path) == Some(cs[i])
    decreases |cs|
  {
    var front := cs[..|cs| - 1];
    LookupPut(KeyByPath(front), cs[|cs| - 1].path, cs[|cs| - 1], cs[i].path);
    if i < |cs| - 1 {
      assert front[i] == cs[i];
      KeyByPathLast(front, i);
    }
  }

  /** The dictionary of children the constructor starts from. */
  function InitialChildren(a: ChildrenArg): Dict<string, CMP> {
    match a
    case NoChildren => []
    case ChildList(cs) => KeyByPath(cs)
    case ChildDict(d) => d
  }

  /**
   * `CMPBase.__init__` (and the subclass constructors, which add only a signature):
   * children given as a list are keyed by their paths, and every child without an
   * absolute path gets `"<path>.<child path>"`.
   */
  method NewCMP(kind: CMPKind, path: string, children: ChildrenArg, permissions: Option<Permission>,
                obj: Option<Obj>, absolutePath: Option<string>) returns (n: CMP)
    ensures n.kind == kind && n.path == path && n.permissions == permissions
    ensures n.obj == obj && n.absolutePath == absolutePath
    ensures Keys(n.children) == Keys(InitialChildren(children))
    ensures forall i :: 0 <= i < |n.children| ==>
              var c := InitialChildren(children)[i].1;
              n.children[i].1 == c.(absolutePath := Some(if c.absolutePath.None? then path + "." + c.path else c.absolutePath.value))
    ensures forall i :: 0 <= i < |n.children| ==> n.children[i].1.absolutePath.Some?
  {
    var kids := InitialChildren(children);
    for i := 0 to |kids|
      invariant |kids| == |InitialChildren(children)|
      invariant forall j :: 0 <= j < |kids| ==> kids[j].0 == InitialChildren(children)[j].0
      invariant forall j :: 0 <= j < i ==>
                  var c := InitialChildren(children)[j].1;
                  kids[j].1 == c.(absolutePath := Some(if c.absolutePath.None? then path + "." + c.path else c.absolutePath.value))
      invariant forall j :: i <= j < |kids| ==> kids[j] == InitialChildren(children)[j]
    {
      var c := kids[i].1;
      if c.absolutePath.None? {
        kids := kids[i := (kids[i].0, c.(absolutePath := Some(path + "." + c.path)))];
      }
    }
    n := CMP(kind, path, permissions, obj, absolutePath, kids);
  }

  // ---------------------------------------------------------------------------
  // get_path
  // ---------------------------------------------------------------------------

  /** The node reached from `d` by taking one child per key of `p`, if every key is there. */
  function AtPath(d: Dict<string, CMP>, p: seq<string>): Option<CMP>
    decreases |p|
  {
    if |p| == 0 then None
    else match Lookup(d, p[0])
      case None => None
      case Some(c) => if |p| == 1 then Some(c) else AtPath(c.children, p[1..])
  }

  /** After the first dot, the remaining segments are those of the text after it, and it is shorter. */
  lemma SplitTail(path: string)
    requires |Split(path, '.')| > 1
    ensures IndexOf(path, '.').Some?
    ensures Split(path, '.')[1..] == Split(path[IndexOf(path, '.').value + 1..], '.')
    ensures Join(Split(path, '.')[1..], '.') == path[IndexOf(path, '.').value + 1..]
  {
    var i := IndexOf(path, '.').value;
    JoinSplit(path[i + 1..], '.');
  }

  /**
   * `get_path(path)` on a node's (or the tree's) children: the first segment names a
   * child; with more segments the rest of the path, re-joined, is looked up in that
   * child. A missing segment raises `ValueError` naming the remaining path.
   */
  function GetPathIn(d: Dict<string, CMP>, path: string): (r: Result<CMP>)
    ensures r.Err? ==> exists j :: 0 <= j <= |path| && r.msg == "ValueError: property " + path[j..] + " does not exist"
    decreases |path|
  {
    var segments := Split(path, '.');
    match Lookup(d, segments[0])
    case None =>
      assert path[0..] == path;
      Err("ValueError: property " + path + " does not exist")
    case Some(c) =>
      if |segments| == 1 then Ok(c)
      else
        SplitTail(path);
        var i := IndexOf(path, '.').value;
        var r := GetPathIn(c.children, Join(segments[1..], '.'));
        assert r.Err? ==> exists j :: 0 <= j <= |path| && r.msg == "ValueError: property " + path[j..] + " does not exist" by {
          if r.Err? {
            var j :| 0 <= j <= |path[i + 1..]| && r.msg == "ValueError: property " + path[i + 1..][j..] + " does not exist";
            assert path[i + 1..][j..] == path[i + 1 + j..];
          }
        }
        r
  }

  /** `get_path` finds exactly the node reached by the dotted segments of the path. */
  lemma {:induction false} GetPathFollowsSegments(d: Dict<string, CMP>, path: string)
    ensures GetPathIn(d, path).Ok? <==> AtPath(d, Split(path, '.')).Some?
    ensures GetPathIn(d, path).Ok? ==> GetPathIn(d, path).value == AtPath(d, Split(path, '.')).value
    decreases |path|
  {
    var segments := Split(path, '.');
    if Lookup(d, segments[0]).Some? && |segments| > 1 {
      SplitTail(path);
      var i := IndexOf(path, '.').value;
      GetPathFollowsSegments(Lookup(d, segments[0]).value.children, path[i + 1..]);
    }
  }

  /** A dot-free path names a direct child, which is found exactly when its key is present. */
  lemma SingleSegmentIsDirectChild(d: Dict<string, CMP>, path: string)
    requires '.' !in path
    ensures GetPathIn(d, path).Ok? <==> path in Keys(d)
    ensures GetPathIn(d, path).Ok? ==> Some(GetPathIn(d, path).value) == Lookup(d, path)
  {
    assert Split(path, '.') == [path];
  }

  // ---------------------------------------------------------------------------
  // flatten
  // ---------------------------------------------------------------------------

  /** The nodes of a subtree in pre-order: the node, then each child's subtree in key order. */
  function Nodes(n: CMP): (r: seq<CMP>)
    ensures |r| >= 1 && r[0] == n
    decreases n
  {
    [n] + Concat(seq(|n.children|, i requires 0 <= i < |n.children| => Nodes(n.children[i].1)))
  }

  /** The pre-order nodes of every subtree of `d`, one subtree after the other. */
  function Forest(d: Dict<string, CMP>): seq<CMP> {
    Concat(seq(|d|, i requires 0 <= i < |d| => Nodes(d[i].1)))
  }

  /** A node's pre-order is the node followed by the forest of its children. */
  lemma NodesUnfold(n: CMP)
    ensures Nodes(n) == [n] + Forest(n.children)
  {
    var d := n.children;
    var a := seq(|n.children|, i requires 0 <= i < |n.children| => Nodes(n.children[i].1));
    var b := seq(|d|, i requires 0 <= i < |d| => Nodes(d[i].1));
    assert a == b;
  }

  /** `CMPBase.flatten` */
  method FlattenNode(n: CMP) returns (res: seq<CMP>)
    ensures res == Nodes(n)
    decreases n
  {
    var subtrees := seq(|n.children|, i requires 0 <= i < |n.children| => Nodes(n.children[i].1));
    res := [n];
    var i := 0;
    while i < |n.children|
      invariant 0 <= i <= |n.children|
      invariant res == [n] + Concat(subtrees[..i])
    {
      var sub := FlattenNode(n.children[i].1);
      ConcatPrefixStep(subtrees, i);
      res := res + sub;
      i := i + 1;
    }
    assert subtrees[..i] == subtrees;
  }

  /** Every node `get_path` can reach from `d` is among the flattened nodes of `d`. */
  lemma {:induction false} ReachableIsFlattened(d: Dict<string, CMP>, p: seq<string>)
    requires AtPath(d, p).Some?
    ensures AtPath(d, p).value in Forest(d)
    decreases |p|
  {
    var c := Lookup(d, p[0]).value;
    var i :| 0 <= i < |d| && d[i] == (p[0], c);
    var xss := seq(|d|, j requires 0 <= j < |d| => Nodes(d[j].1));
    ConcatMember(xss, AtPath(d, p).value);
    if |p| > 1 {
      ReachableIsFlattened(c.children, p[1..]);
      NodesUnfold(c);
    }
    assert AtPath(d, p).value in xss[i];
  }

  // ---------------------------------------------------------------------------
  // reset_objs
  // ---------------------------------------------------------------------------

  /** A subtree with every imported object dropped. */
  function Cleared(n: CMP): CMP
    decreases n
  {
    n.(obj := None,
       children := seq(|n.children|, i requires 0 <= i < |n.children| => (n.children[i].0, Cleared(n.children[i].1))))
  }

  /** `CMPBase.reset_objs` */
  method ResetObjs(n: CMP) returns (r: CMP)
    ensures r == Cleared(n)
    decreases n
  {
    var kids := n.children;
    var i := 0;
    while i < |kids|
      invariant 0 <= i <= |kids| == |n.children|
      invariant forall j :: 0 <= j < i ==> kids[j] == (n.children[j].0, Cleared(n.children[j].1))
      invariant forall j :: i <= j < |kids| ==> kids[j] == n.children[j]
    {
      var c := ResetObjs(kids[i].1);
      kids := kids[i := (kids[i].0, c)];
      i := i + 1;
    }
    r := n.(obj := None, children := kids);
  }

  /** After `reset_objs`, no node of the subtree holds an object. */
  lemma {:induction false} ClearedHoldsNoObjects(n: CMP)
    ensures forall m :: m in Nodes(Cleared(n)) ==> m.obj.None?
    decreases n
  {
    var c := Cleared(n);
    var xss := seq(|c.children|, i requires 0 <= i < |c.children| => Nodes(c.children[i].1));
    forall m | m in Nodes(c) ensures m.obj.None? {
      if m != c {
        ConcatMember(xss, m);
        var i :| 0 <= i < |xss| && m in xss[i];
        ClearedHoldsNoObjects(n.children[i].1);
      }
    }
  }

  /** Lookup in the cleared children finds the cleared child. */
  lemma {:induction false} LookupCleared(n: CMP, k: string)
    ensures Lookup(Cleared(n).children, k) == if Lookup(n.children, k).None? then None else Some(Cleared(Lookup(n.children, k).value))
  {
    LookupClearedFrom(n, 0, k);
  }

  lemma {:induction false} LookupClearedFrom(n: CMP, s: nat, k: string)
    requires s <= |n.children|
    ensures Lookup(Cleared(n).children[s..], k) ==
            if Lookup(n.children[s..], k).None? then None else Some(Cleared(Lookup(n.children[s..], k).value))
    decreases |n.children| - s
  {
    if s < |n.children| {
      assert Cleared(n).children[s..][1..] == Cleared(n).children[s + 1..];
      assert n.children[s..][1..] == n.children[s + 1..];
      LookupClearedFrom(n, s + 1, k);
    }
  }

  /** `reset_objs` keeps the shape: `get_path` reaches the same paths, now with cleared nodes. */
  lemma {:induction false} ClearedKeepsPaths(n: CMP, p: seq<string>)
    ensures AtPath(Cleared(n).children, p) == if AtPath(n.children, p).None? then None else Some(Cleared(AtPath(n.children, p).value))
    decreases |p|
  {
    if |p| > 0 {
      LookupCleared(n, p[0]);
      if Lookup(n.children, p[0]).Some? && |p| > 1 {
        ClearedKeepsPaths(Lookup(n.children, p[0]).value, p[1..]);
      }
    }
  }

  // ---------------------------------------------------------------------------
  // init_child and build
  // ---------------------------------------------------------------------------

  /** The node class `init_child` picks for an object. */
  function KindOf(c: ObjClass): CMPKind {
    match c
    case ModuleObj => ModuleNode
    case FunctionObj => FunctionNode
    case ClassObj => ClassNode
    case OtherObj => BaseNode
  }

  /**
   * `init_child`: no node for an object outside the package; otherwise a childless node
   * of the matching class that inherits the parent's permissions.
   */
  function InitChild(self: CMP, parentObj: Obj, childPath: string, childObj: Obj, absolutePath: string, o: Introspection): (r: Option<CMP>)
    ensures r.Some? <==> CheckPackageMembership(parentObj, childObj, o)
    ensures r.Some? ==> r.value.permissions == self.permissions && r.value.path == childPath
                        && r.value.obj == Some(childObj) && r.value.absolutePath == Some(absolutePath)
                        && r.value.children == [] && r.value.kind == KindOf(o.classify(childObj))
  {
    if !CheckPackageMembership(parentObj, childObj, o) then None
    else Some(CMP(KindOf(o.classify(childObj)), childPath, self.permissions, Some(childObj), Some(absolutePath), []))
  }

  /** `f"{x}"` for an optional string. */
  function PyStr(s: Option<string>): string {
    if s.None? then "None" else s.value
  }

  /** `"." in None`, which is what `import_from_path(None)` raises. */
  const NONE_PATH_ERROR := "TypeError: argument of type 'NoneType' is not iterable"

  /** The object `build` works on: the node's own, or the one imported from its absolute path. */
  function NodeObj(n: CMP, o: Introspection): Result<Obj> {
    match n.obj
    case Some(x) => Ok(x)
    case None =>
      match n.absolutePath
      case None => Err(NONE_PATH_ERROR)
      case Some(p) => ImportSpec(p, o)
  }

  /** A node after `build`, and the names of the children it appended to the stack, in order. */
  datatype Built = Built(node: CMP, pushed: seq<string>)

  /**
   * One attribute of the `build` loop. An existing child is pushed and stored back
   * unchanged; any other attribute that `getattr` yields and `init_child` accepts
   * becomes a new child, pushed and stored.
   */
  function AttrStep(acc: Built, attr: string, existing: seq<string>, self: CMP, obj: Obj, o: Introspection): Built {
    if attr in LIB_IGNORE_ATTRIBUTES then acc
    else if attr in existing then Built(acc.node, acc.pushed + [attr])
    else
      match o.getAttr(obj, attr)
      case Err(_) => acc
      case Ok(a) =>
        match InitChild(self, obj, self.path + "." + attr, a, PyStr(self.absolutePath) + "." + attr, o)
        case None => acc
        case Some(c) => Built(acc.node.(children := Put(acc.node.children, attr, c)), acc.pushed + [attr])
  }

  /** The `build` loop over the first `|keys|` attribute names. */
  function BuildAttrs(self: CMP, obj: Obj, keys: seq<string>, o: Introspection): Built
    decreases |keys|
  {
    if |keys| == 0 then Built(self, [])
    else AttrStep(BuildAttrs(self, obj, keys[..|keys| - 1], o), keys[|keys| - 1], Keys(self.children), self, obj, o)
  }

  /** What `build` makes of a node whose root is the node itself, or the exception it raises. */
  function BuildSpec(n: CMP, o: Introspection): Result<Built> {
    match NodeObj(n, o)
    case Err(m) => Err(m)
    case Ok(x) => Ok(BuildAttrs(n.(obj := Some(x)), x, o.dictKeys(x), o))
  }

  /**
   * `CMPBase.build(stack, root)` with `root` the node itself, as `CMPTree.build` calls it.
   * The appended stack entries are returned as child names.
   */
  method BuildNode(n: CMP, o: Introspection) returns (r: Result<Built>)
    ensures r == BuildSpec(n, o)
  {
    var obj: Obj;
    if n.obj.Some? {
      obj := n.obj.value;
    } else {
      if n.absolutePath.None? {
        return Err(NONE_PATH_ERROR);
      }
      var imported := ImportFromPath(n.absolutePath.value, o);
      if imported.Err? {
        return Err(imported.msg);
      }
      obj := imported.value;
    }
    var self := n.(obj := Some(obj));
    var childPaths := Keys(self.children);
    var names := o.dictKeys(obj);
    var acc := Built(self, []);
    for i := 0 to |names|
      invariant acc == BuildAttrs(self, obj, names[..i], o)
    {
      assert names[..i + 1][..i] == names[..i];
      var attrName := names[i];
      if attrName !in LIB_IGNORE_ATTRIBUTES {
        if attrName in childPaths {
          acc := Built(acc.node, acc.pushed + [attrName]);
        } else {
          var attr := o.getAttr(obj, attrName);
          if attr.Ok? {
            var child := InitChild(self, obj, self.path + "." + attrName, attr.value, PyStr(self.absolutePath) + "." + attrName, o);
            if child.Some? {
              acc := Built(acc.node.(children := Put(acc.node.children, attrName, child.value)), acc.pushed + [attrName]);
            }
          }
        }
      }
    }
    assert names[..|names|] == names;
    r := Ok(acc);
  }

  /**
   * `c` is the child `build` creates under `parent` for attribute `k` of `obj`: `getattr`
   * succeeds and `init_child` accepts the value.
   */
  predicate NewChild(parent: CMP, obj: Obj, k: string, c: CMP, o: Introspection) {
    o.getAttr(obj, k).Ok?
    && InitChild(parent, obj, parent.path + "." + k, o.getAttr(obj, k).value, PyStr(parent.absolutePath) + "." + k, o) == Some(c)
  }

  /** Attribute `k` of `obj` can be read and belongs to `obj`'s package. */
  predicate MemberAttr(obj: Obj, k: string, o: Introspection) {
    o.getAttr(obj, k).Ok? && CheckPackageMembership(obj, o.getAttr(obj, k).value, o)
  }

  /** `b` is `start` with children only added: old entries untouched, new ones pushed and made by `init_child`. */
  predicate Grown(start: CMP, obj: Obj, o: Introspection, b: Built) {
    b.node.(children := start.children) == start
    && (forall k :: k in Keys(start.children) ==> Lookup(b.node.children, k) == Lookup(start.children, k))
    && (forall k :: k in b.pushed ==> k !in LIB_IGNORE_ATTRIBUTES && k in Keys(b.node.children))
    && (forall k :: k in Keys(b.node.children) && k !in Keys(start.children) ==>
          k in b.pushed && NewChild(start, obj, k, Lookup(b.node.children, k).value, o))
    && (DistinctKeys(start.children) ==> DistinctKeys(b.node.children))
  }

  lemma {:induction false} BuildAttrsGrows(self: CMP, obj: Obj, keys: seq<string>, o: Introspection)
    ensures Grown(self, obj, o, BuildAttrs(self, obj, keys, o))
    decreases |keys|
  {
    if |keys| > 0 {
      BuildAttrsGrows(self, obj, keys[..|keys| - 1], o);
      StepGrows(self, obj, BuildAttrs(self, obj, keys[..|keys| - 1], o), keys[|keys| - 1], o);
    }
  }

  lemma StepGrows(self: CMP, obj: Obj, acc: Built, attr: string, o: Introspection)
    requires Grown(self, obj, o, acc)
    ensures Grown(self, obj, o, AttrStep(acc, attr, Keys(self.children), self, obj, o))
  {
    if attr in LIB_IGNORE_ATTRIBUTES || o.getAttr(obj, attr).Err? {
    } else if attr in Keys(self.children) {
      assert Lookup(acc.node.children, attr).Some?;
    } else {
      var a := o.getAttr(obj, attr).value;
      var c := InitChild(self, obj, self.path + "." + attr, a, PyStr(self.absolutePath) + "." + attr, o);
      if c.Some? {
        PutChildGrows(self, obj, o, acc, attr, c.value);
      }
    }
  }

  lemma PutChildGrows(self: CMP, obj: Obj, o: Introspection, acc: Built, attr: string, c: CMP)
    requires Grown(self, obj, o, acc)
    requires attr !in LIB_IGNORE_ATTRIBUTES && attr !in Keys(self.children) && NewChild(self, obj, attr, c, o)
    ensures Grown(self, obj, o, Built(acc.node.(children := Put(acc.node.children, attr, c)), acc.pushed + [attr]))
  {
    var d := acc.node.children;
    var d' := Put(d, attr, c);
    var pushed := acc.pushed + [attr];
    forall k ensures Lookup(d', k) == if k == attr then Some(c) else Lookup(d, k) {
      LookupPut(d, attr, c, k);
    }
    assert forall k :: k in Keys(self.children) ==> Lookup(d', k) == Lookup(self.children, k);
    forall k | k in pushed ensures k !in LIB_IGNORE_ATTRIBUTES && k in Keys(d') {
      if k != attr {
        assert k in acc.pushed;
        assert Lookup(d, k).Some?;
        assert Lookup(d', k).Some?;
      } else {
        assert Lookup(d', k) == Some(c);
      }
    }
    forall k | k in Keys(d') && k !in Keys(self.children) ensures k in pushed && NewChild(self, obj, k, Lookup(d', k).value, o) {
      if k != attr {
        assert Lookup(d', k) == Lookup(d, k);
        assert k in Keys(d);
      }
    }
    if DistinctKeys(self.children) {
      PutDistinct(d, attr, c);
    }
  }

  /**
   * The attribute loop reaches every listed attribute: it pushes only listed names, it
   * pushes every listed existing child and every listed member attribute, and a listed
   * member attribute that was not a child becomes one.
   */
  lemma {:induction false} BuildAttrsCovers(self: CMP, obj: Obj, keys: seq<string>, o: Introspection)
    ensures var b := BuildAttrs(self, obj, keys, o);
      && (forall k :: k in b.pushed ==> k in keys)
      && (forall k :: k in keys && k !in LIB_IGNORE_ATTRIBUTES && (k in Keys(self.children) || MemberAttr(obj, k, o))
                      ==> k in b.pushed)
      && (forall k :: k in keys && k !in LIB_IGNORE_ATTRIBUTES && MemberAttr(obj, k, o) ==> k in Keys(b.node.children))
    decreases |keys|
  {
    if |keys| > 0 {
      var n := |keys| - 1;
      var last := keys[n];
      BuildAttrsCovers(self, obj, keys[..n], o);
      BuildAttrsGrows(self, obj, keys[..n], o);
      var b0 := BuildAttrs(self, obj, keys[..n], o);
      var b := BuildAttrs(self, obj, keys, o);
      if last in Keys(self.children) {
        assert Lookup(b0.node.children, last) == Lookup(self.children, last);
      }
      StepCovers(self, obj, b0, last, o);
      assert keys == keys[..n] + [last];
      forall k | k in keys ensures k in keys[..n] || k == last {
      }
    }
  }

  /**
   * One step of the attribute loop keeps what was pushed and added, pushes only its own
   * name, and pushes (and, for a member, adds) that name when it is not ignored.
   */
  lemma StepCovers(self: CMP, obj: Obj, acc: Built, attr: string, o: Introspection)
    requires attr in Keys(self.children) ==> attr in Keys(acc.node.children)
    ensures var b := AttrStep(acc, attr, Keys(self.children), self, obj, o);
      && (forall k :: k in acc.pushed ==> k in b.pushed)
      && (forall k :: k in b.pushed ==> k in acc.pushed || k == attr)
      && (forall k :: k in Keys(acc.node.children) ==> k in Keys(b.node.children))
      && (attr !in LIB_IGNORE_ATTRIBUTES && (attr in Keys(self.children) || MemberAttr(obj, attr, o)) ==> attr in b.pushed)
      && (attr !in LIB_IGNORE_ATTRIBUTES && MemberAttr(obj, attr, o) ==> attr in Keys(b.node.children))
  {
    var b := AttrStep(acc, attr, Keys(self.children), self, obj, o);
    if attr !in LIB_IGNORE_ATTRIBUTES && attr in Keys(self.children) {
    } else if attr !in LIB_IGNORE_ATTRIBUTES && o.getAttr(obj, attr).Ok? {
      var c := InitChild(self, obj, self.path + "." + attr, o.getAttr(obj, attr).value, PyStr(self.absolutePath) + "." + attr, o);
      if c.Some? {
        forall k ensures Lookup(b.node.children, k) == if k == attr then c else Lookup(acc.node.children, k) {
          LookupPut(acc.node.children, attr, c.value, k);
        }
        assert Lookup(b.node.children, attr).Some?;
        forall k | k in Keys(acc.node.children) ensures k in Keys(b.node.children) {
          assert Lookup(acc.node.children, k).Some?;
        }
      }
    }
  }

  /**
   * `build` keeps the node's header and existing children, and adds exactly the listed,
   * non-ignored attributes that `getattr` yields and that belong to the package, each
   * made by `init_child`; it pushes exactly the listed existing children and those new
   * children, and ignored names never become or push children.
   */
  lemma BuildGrows(n: CMP, o: Introspection)
    requires BuildSpec(n, o).Ok?
    ensures var b := BuildSpec(n, o).value;
      && b.node.obj.Some? && b.node.(obj := n.obj) == n.(children := b.node.children)
      && Grown(n.(obj := b.node.obj), b.node.obj.value, o, b)
      && (forall k :: k in LIB_IGNORE_ATTRIBUTES ==> Lookup(b.node.children, k) == Lookup(n.children, k) && k !in b.pushed)
    ensures var b := BuildSpec(n, o).value; var x := b.node.obj.value;
      && (forall k :: k in b.pushed <==> k in o.dictKeys(x) && k !in LIB_IGNORE_ATTRIBUTES
                                         && (k in Keys(n.children) || MemberAttr(x, k, o)))
      && (forall k :: k !in Keys(n.children) ==>
            (k in Keys(b.node.children) <==> k in o.dictKeys(x) && k !in LIB_IGNORE_ATTRIBUTES && MemberAttr(x, k, o)))
  {
    var x := NodeObj(n, o).value;
    var self := n.(obj := Some(x));
    BuildAttrsGrows(self, x, o.dictKeys(x), o);
    BuildAttrsCovers(self, x, o.dictKeys(x), o);
  }

  // ---------------------------------------------------------------------------
  // Writing a built node back into the tree
  // ---------------------------------------------------------------------------

  /** `d` with the node at key path `p` replaced by `m` (unchanged when `p` leads nowhere). */
  function SetAt(d: Dict<string, CMP>, p: seq<string>, m: CMP): Dict<string, CMP>
    decreases |p|
  {
    if |p| == 0 then d
    else match Lookup(d, p[0])
      case None => d
      case Some(c) => Put(d, p[0], if |p| == 1 then m else c.(children := SetAt(c.children, p[1..], m)))
  }

  /** The replaced node is found where it was put, and the roots keep their keys. */
  lemma {:induction false} SetAtThenAt(d: Dict<string, CMP>, p: seq<string>, m: CMP)
    requires AtPath(d, p).Some?
    ensures AtPath(SetAt(d, p, m), p) == Some(m)
    ensures Keys(SetAt(d, p, m)) == Keys(d)
    decreases |p|
  {
    var c := Lookup(d, p[0]).value;
    var v := if |p| == 1 then m else c.(children := SetAt(c.children, p[1..], m));
    LookupPut(d, p[0], v, p[0]);
    PutExisting(d, p[0], v);
    if |p| > 1 {
      SetAtThenAt(c.children, p[1..], m);
    }
  }

  /** `b` still has every child of `a`, unchanged. */
  predicate KeepsChildren(a: CMP, b: CMP) {
    forall k :: k in Keys(a.children) ==> Lookup(b.children, k) == Lookup(a.children, k)
  }

  /** Two dictionaries that agree on the first key of a path agree on the whole path. */
  lemma SameFirstStep(a: Dict<string, CMP>, b: Dict<string, CMP>, q: seq<string>)
    requires |q| >= 1 && Lookup(b, q[0]) == Lookup(a, q[0])
    ensures AtPath(b, q) == AtPath(a, q)
  {
  }

  /** Replacing a node by one that keeps its children keeps every path of the tree. */
  lemma {:induction false} SetAtKeepsPaths(d: Dict<string, CMP>, p: seq<string>, m: CMP, q: seq<string>)
    requires AtPath(d, p).Some? && KeepsChildren(AtPath(d, p).value, m)
    requires AtPath(d, q).Some?
    ensures AtPath(SetAt(d, p, m), q).Some?
    decreases |p|
  {
    var c := Lookup(d, p[0]).value;
    var v := if |p| == 1 then m else c.(children := SetAt(c.children, p[1..], m));
    LookupPut(d, p[0], v, q[0]);
    if q[0] != p[0] {
      SameFirstStep(d, SetAt(d, p, m), q);
    } else if |q| > 1 {
      if |p| == 1 {
        assert Lookup(c.children, q[1]).Some?;
        SameFirstStep(c.children, m.children, q[1..]);
      } else {
        SetAtKeepsPaths(c.children, p[1..], m, q[1..]);
      }
    }
  }

  /** A child of the node at `q` is found at `q` followed by its key. */
  lemma {:induction false} AtPathChild(d: Dict<string, CMP>, q: seq<string>, k: string)
    requires AtPath(d, q).Some? && k in Keys(AtPath(d, q).value.children)
    ensures AtPath(d, q + [k]) == Lookup(AtPath(d, q).value.children, k)
    ensures AtPath(d, q + [k]).Some?
    decreases |q|
  {
    assert (q + [k])[0] == q[0];
    if |q| == 1 {
      assert (q + [k])[1..] == [k];
    } else {
      assert (q + [k])[1..] == q[1..] + [k];
      AtPathChild(Lookup(d, q[0]).value.children, q[1..], k);
    }
  }

  /** The fields `build` never changes: class, path, permissions and absolute path. */
  predicate SameHeader(a: CMP, b: CMP) {
    a.kind == b.kind && a.path == b.path && a.permissions == b.permissions && a.absolutePath == b.absolutePath
  }

  /** Replacing a node by one with the same header keeps every root's header. */
  lemma SetAtKeepsHeaders(d: Dict<string, CMP>, p: seq<string>, m: CMP)
    requires AtPath(d, p).Some? && SameHeader(AtPath(d, p).value, m)
    ensures forall k :: Lookup(SetAt(d, p, m), k).Some? == Lookup(d, k).Some?
    ensures forall k :: Lookup(d, k).Some? ==> SameHeader(Lookup(SetAt(d, p, m), k).value, Lookup(d, k).value)
  {
    var c := Lookup(d, p[0]).value;
    var v := if |p| == 1 then m else c.(children := SetAt(c.children, p[1..], m));
    forall k ensures Lookup(SetAt(d, p, m), k) == if k == p[0] then Some(v) else Lookup(d, k) {
      LookupPut(d, p[0], v, k);
    }
  }

  /** Every root's absolute path is its path, as `CMPTree.build` sets it. */
  predicate RootsAnchored(d: Dict<string, CMP>) {
    forall k :: k in Keys(d) ==> Lookup(d, k).value.absolutePath == Some(Lookup(d, k).value.path)
  }

  /** Two dictionaries with the same key at every position have the same keys. */
  lemma SameKeys(a: Dict<string, CMP>, b: Dict<string, CMP>)
    requires |a| == |b| && forall j :: 0 <= j < |a| ==> a[j].0 == b[j].0
    ensures Keys(a) == Keys(b)
  {
    assert forall j :: 0 <= j < |a| ==> Keys(a)[j] == Keys(b)[j];
  }

  /** A dictionary whose every entry is anchored has its roots anchored. */
  lemma AnchoredByIndex(d: Dict<string, CMP>)
    requires forall j :: 0 <= j < |d| ==> d[j].1.absolutePath == Some(d[j].1.path)
    ensures RootsAnchored(d)
  {
    forall k | k in Keys(d) ensures Lookup(d, k).value.absolutePath == Some(Lookup(d, k).value.path) {
      var j :| 0 <= j < |d| && d[j] == (k, Lookup(d, k).value);
    }
  }

  /** The key paths of the named children of the node at `q`. */
  function Below(q: seq<string>, names: seq<string>): (r: seq<seq<string>>)
    ensures |r| == |names| && forall i :: 0 <= i < |names| ==> r[i] == q + [names[i]]
  {
    seq(|names|, i requires 0 <= i < |names| => q + [names[i]])
  }

  // ---------------------------------------------------------------------------
  // CMPTree
  // ---------------------------------------------------------------------------

  /** How `CMPTree.build` ends: the worklist ran empty, a node's import raised, or the step bound was reached. */
  datatype BuildOutcome = Done | Raised(msg: string) | OutOfFuel

  /** `CMPTree`: one root per library, keyed by path, and the worklist of `build`. */
  class CMPTree {
    var children: Dict<string, CMP>
    /** The worklist; each entry is the key path of a node from the roots. */
    var stack: seq<seq<string>>

    /** `CMPTree.__init__`: the roots keyed by their paths. */
    constructor(roots: seq<CMP>)
      ensures children == KeyByPath(roots) && stack == []
    {
      children := KeyByPath(roots);
      stack := [];
    }

    /** Every worklist entry leads to a node of the tree. */
    predicate StackValid()
      reads this
    {
      forall q :: q in stack ==> AtPath(children, q).Some?
    }

    /**
     * One turn of the `build` loop: the first entry leaves the worklist, its node is
     * built and written back, and the children it pushed join the end of the worklist.
     * A raising import leaves the tree as it was.
     */
    method Step(o: Introspection) returns (raised: Option<string>)
      requires stack != [] && StackValid()
      modifies this
      ensures BuildSpec(old(AtPath(children, stack[0]).value), o).Err? ==>
                raised == Some(BuildSpec(old(AtPath(children, stack[0]).value), o).msg)
                && children == old(children) && stack == old(stack[1..])
      ensures BuildSpec(old(AtPath(children, stack[0]).value), o).Ok? ==>
                raised.None?
                && children == SetAt(old(children), old(stack[0]), BuildSpec(old(AtPath(children, stack[0]).value), o).value.node)
                && stack == old(stack[1..]) + Below(old(stack[0]), BuildSpec(old(AtPath(children, stack[0]).value), o).value.pushed)
      ensures StackValid()
      ensures Keys(children) == Keys(old(children))
      ensures RootsAnchored(old(children)) ==> RootsAnchored(children)
    {
      var q := stack[0];
      stack := stack[1..];
      var node := AtPath(children, q).value;
      var r := BuildNode(node, o);
      if r.Err? {
        raised := Some(r.msg);
        return;
      }
      var b := r.value;
      BuildGrows(node, o);
      assert KeepsChildren(node, b.node);
      var d := SetAt(children, q, b.node);
      SetAtThenAt(children, q, b.node);
      forall q' | q' in stack ensures AtPath(d, q').Some? {
        SetAtKeepsPaths(children, q, b.node, q');
      }
      forall k | k in b.pushed ensures AtPath(d, q + [k]).Some? {
        AtPathChild(d, q, k);
      }
      SetAtKeepsHeaders(children, q, b.node);
      children := d;
      stack := stack + Below(q, b.pushed);
      raised := None;
    }

    /**
     * `CMPTree.build`: every root's absolute path becomes its path and the roots seed the
     * worklist, which is then processed first in, first out until it is empty. At most
     * `fuel` nodes are built.
     */
    method Build(o: Introspection, fuel: nat) returns (outcome: BuildOutcome)
      modifies this
      ensures Keys(children) == Keys(old(children))
      ensures RootsAnchored(children)
      ensures StackValid()
      ensures outcome.Done? ==> stack == []
      ensures outcome.OutOfFuel? ==> stack != []
    {
      Anchor();
      var steps := 0;
      while stack != []
        invariant StackValid() && Keys(children) == Keys(old(children)) && RootsAnchored(children)
        invariant steps <= fuel
        decreases fuel - steps
      {
        if steps == fuel {
          return OutOfFuel;
        }
        var raised := Step(o);
        if raised.Some? {
          return Raised(raised.value);
        }
        steps := steps + 1;
      }
      return Done;
    }

    /** The first loop of `CMPTree.build`: each root's path becomes its absolute path, and its key is pushed. */
    method Anchor()
      modifies this
      ensures Keys(children) == Keys(old(children))
      ensures |children| == |old(children)|
      ensures forall j :: 0 <= j < |children| ==>
                children[j].1 == old(children[j].1).(absolutePath := Some(old(children[j].1).path))
      ensures RootsAnchored(children)
      ensures |stack| == |children| && forall j :: 0 <= j < |stack| ==> stack[j] == [children[j].0]
      ensures StackValid()
    {
      var d := children;
      var pushed: seq<seq<string>> := [];
      var i := 0;
      while i < |d|
        invariant 0 <= i <= |d| == |children|
        invariant forall j :: 0 <= j < |d| ==> d[j].0 == children[j].0
        invariant forall j :: 0 <= j < i ==> d[j].1 == children[j].1.(absolutePath := Some(children[j].1.path))
        invariant forall j :: i <= j < |d| ==> d[j] == children[j]
        invariant |pushed| == i && forall j :: 0 <= j < i ==> pushed[j] == [d[j].0]
      {
        d := d[i := (d[i].0, d[i].1.(absolutePath := Some(d[i].1.path)))];
        pushed := pushed + [[d[i].0]];
        i := i + 1;
      }
      SameKeys(d, children);
      AnchoredByIndex(d);
      children := d;
      stack := pushed;
      forall q | q in stack ensures AtPath(children, q).Some? {
        var j :| 0 <= j < |stack| && stack[j] == q;
        assert Keys(children)[j] == q[0];
      }
    }

    /** `CMPTree.flatten`: the roots' flattened subtrees one after the other, without the tree itself. */
    method Flatten() returns (res: seq<CMP>)
      ensures res == Forest(children)
    {
      var d := children;
      var subtrees := seq(|d|, i requires 0 <= i < |d| => Nodes(d[i].1));
      res := [];
      for i := 0 to |d|
        invariant res == Concat(subtrees[..i])
      {
        var sub := FlattenNode(d[i].1);
        ConcatPrefixStep(subtrees, i);
        res := res + sub;
      }
      assert subtrees[..|d|] == subtrees;
    }

    /**
     * `CMPTree.get_path`, the same lookup as a node's, from the roots: it finds exactly the
     * node the dotted segments lead to, and that node is one `flatten` lists.
     */
    function GetPath(path: string): (r: Result<CMP>)
      reads this
      ensures r.Ok? <==> AtPath(children, Split(path, '.')).Some?
      ensures r.Ok? ==> r.value == AtPath(children, Split(path, '.')).value && r.value in Forest(children)
    {
      GetPathFollowsSegments(children, path);
      var r := GetPathIn(children, path);
      if r.Ok? then
        ReachableIsFlattened(children, Split(path, '.'));
        r
      else r
    }
  }
}

=== FILE: output_service.dfy ===
/**
 * The id bookkeeping of execution outputs: the validator that copies the linked
 * objects' ids into searchable fields, `ExecutionOutput.from_ids`, the output and input
 * id lists, the input-id check, the sync dependencies, and the output service's
 * read-permission question, with the action store's permission check as a parameter.
 */
module OutputService {
  import opened PyBase
  import opened Identity

  /** A `LinkedObject`: the id of the object it points at, the server holding it and the object's type. */
  datatype LinkedObject = LinkedObject(objectUid: UID, serverUid: UID, objectType: string)

  /** What `output_ids` holds once stored: a list or a dict of ids. */
  datatype OutputIds = IdList(list: seq<UID>) | IdDict(dict: Dict<string, UID>)

  /** The `output_ids` argument of `from_ids`: one id, a list or a dict. */
  datatype OutputArg = OneId(id: UID) | ArgList(list: seq<UID>) | ArgDict(dict: Dict<string, UID>)

  /** An `input_ids` value as passed in: an id, or anything else. */
  datatype InputValue = UidValue(id: UID) | OtherValue(handle: nat)

  /** An `ExecutionOutput` (its creation time is left out). */
  datatype ExecutionOutput = ExecutionOutput(
    executingUserVerifyKey: string,
    userCodeLink: LinkedObject,
    outputIds: Option<OutputIds>,
    jobLink: Option<LinkedObject>,
    inputIds: Option<Dict<string, UID>>,
    userCodeId: UID,
    jobId: Option<UID>,
    outputPolicyId: Option<UID>)

  // ---------------------------------------------------------------------------
  // add_searchable_link_ids
  // ---------------------------------------------------------------------------

  /**
   * A value in the field dictionary a validator receives. Any other Python value is
   * `OtherField`, carrying its truthiness (`0`, `""` or an empty container is falsy).
   */
  datatype FieldValue = LinkValue(link: LinkedObject) | IdValue(id: UID) | NoneValue | OtherField(handle: nat, truthy: bool)

  /** `getattr(v, "object_uid")` on a field that is not a linked object. */
  const NO_OBJECT_UID := "AttributeError: object has no attribute 'object_uid'"

  /** Python truthiness of a field value: links and ids are true, `None` is false. */
  predicate Truthy(v: FieldValue) {
    match v
    case NoneValue => false
    case OtherField(_, t) => t
    case _ => true
  }

  const USER_CODE_LINK: string := "user_code_link"
  const USER_CODE_ID: string := "user_code_id"
  const JOB_LINK: string := "job_link"
  const JOB_ID: string := "job_id"

  /** The four field names the validator touches are different names. */
  lemma FieldNamesDiffer()
    ensures USER_CODE_LINK != USER_CODE_ID && USER_CODE_LINK != JOB_LINK && USER_CODE_LINK != JOB_ID
    ensures USER_CODE_ID != JOB_LINK && USER_CODE_ID != JOB_ID && JOB_LINK != JOB_ID
  {
    assert |USER_CODE_LINK| == 14 && |USER_CODE_ID| == 12 && |JOB_LINK| == 8 && |JOB_ID| == 6;
    assert USER_CODE_ID[0] == 'u' && JOB_LINK[0] == 'j';
  }

  /** The job link is truthy, so the validator reads its object id. */
  predicate HasJobLink(values: Dict<string, FieldValue>) {
    Lookup(values, JOB_LINK).Some? && Truthy(Lookup(values, JOB_LINK).value)
  }

  /**
   * `add_searchable_link_ids`: with a `user_code_link` field, `user_code_id` becomes its
   * object id; with a truthy `job_link`, `job_id` becomes its object id. Every other
   * field is left alone. A field that is not a linked object has no `object_uid`.
   */
  method AddSearchableLinkIds(values: Dict<string, FieldValue>) returns (r: Result<Dict<string, FieldValue>>)
    requires DistinctKeys(values)
    ensures r.Err? <==>
              (Lookup(values, USER_CODE_LINK).Some? && !Lookup(values, USER_CODE_LINK).value.LinkValue?)
              || (HasJobLink(values) && !Lookup(values, JOB_LINK).value.LinkValue?)
    ensures r.Ok? ==> DistinctKeys(r.value)
    ensures r.Ok? ==> forall k :: k != USER_CODE_ID && k != JOB_ID ==> Lookup(r.value, k) == Lookup(values, k)
    ensures r.Ok? && Lookup(values, USER_CODE_LINK).Some? ==>
              Lookup(r.value, USER_CODE_ID) == Some(IdValue(Lookup(values, USER_CODE_LINK).value.link.objectUid))
    ensures r.Ok? && Lookup(values, USER_CODE_LINK).None? ==> Lookup(r.value, USER_CODE_ID) == Lookup(values, USER_CODE_ID)
    ensures r.Ok? && HasJobLink(values) ==>
              Lookup(r.value, JOB_ID) == Some(IdValue(Lookup(values, JOB_LINK).value.link.objectUid))
    ensures r.Ok? && !HasJobLink(values) ==> Lookup(r.value, JOB_ID) == Lookup(values, JOB_ID)
  {
    FieldNamesDiffer();
    var vs := values;
    var codeLink := Lookup(vs, USER_CODE_LINK);
    if codeLink.Some? {
      if !codeLink.value.LinkValue? {
        return Err(NO_OBJECT_UID);
      }
      PutField(vs, USER_CODE_ID, IdValue(codeLink.value.link.objectUid));
      vs := Put(vs, USER_CODE_ID, IdValue(codeLink.value.link.objectUid));
    }
    assert Lookup(vs, JOB_LINK) == Lookup(values, JOB_LINK);
    var jobLink := Lookup(vs, JOB_LINK);
    if jobLink.Some? && Truthy(jobLink.value) {
      if !jobLink.value.LinkValue? {
        return Err(NO_OBJECT_UID);
      }
      PutField(vs, JOB_ID, IdValue(jobLink.value.link.objectUid));
      vs := Put(vs, JOB_ID, IdValue(jobLink.value.link.objectUid));
    }
    r := Ok(vs);
  }

  /** Setting one field: it reads back, every other field is as before, keys stay distinct. */
  lemma PutField(vs: Dict<string, FieldValue>, key: string, v: FieldValue)
    requires DistinctKeys(vs)
    ensures Lookup(Put(vs, key, v), key) == Some(v)
    ensures forall k :: k != key ==> Lookup(Put(vs, key, v), k) == Lookup(vs, k)
    ensures DistinctKeys(Put(vs, key, v))
  {
    forall k ensures Lookup(Put(vs, key, v), k) == if k == key then Some(v) else Lookup(vs, k) {
      LookupPut(vs, key, v, k);
    }
    PutDistinct(vs, key, v);
  }

  // ---------------------------------------------------------------------------
  // from_ids
  // ---------------------------------------------------------------------------

  /** `{k: v for k, v in input_ids.items() if isinstance(v, UID)}` */
  function KeepIds(d: Dict<string, InputValue>): (r: Dict<string, UID>)
    ensures |r| <= |d|
  {
    if |d| == 0 then []
    else (if d[0].1.UidValue? then [(d[0].0, d[0].1.id)] else []) + KeepIds(d[1..])
  }

  /** Exactly the id-valued entries survive, under their own keys. */
  lemma {:induction false} KeepIdsLookup(d: Dict<string, InputValue>, k: string)
    requires DistinctKeys(d)
    ensures Lookup(KeepIds(d), k) == if Lookup(d, k).Some? && Lookup(d, k).value.UidValue? then Some(Lookup(d, k).value.id) else None
  {
    if |d| > 0 {
      var tail := d[1..];
      assert DistinctKeys(tail);
      KeepIdsLookup(tail, k);
      var rest := KeepIds(tail);
      if d[0].1.UidValue? {
        var r := [(d[0].0, d[0].1.id)] + rest;
        assert KeepIds(d) == r;
        assert r[0] == (d[0].0, d[0].1.id) && r[1..] == rest;
      } else {
        assert KeepIds(d) == rest;
        if d[0].0 == k {
          assert Lookup(tail, k).None?;
        }
      }
    }
  }

  /** The one id becomes a one-element list; lists and dicts are kept as given. */
  function NormaliseOutputIds(a: OutputArg): (r: OutputIds)
    ensures r.IdDict? <==> a.ArgDict?
    ensures a.OneId? ==> r.list == [a.id]
    ensures a.ArgList? ==> r.list == a.list
    ensures a.ArgDict? ==> r.dict == a.dict
  {
    match a
    case OneId(u) => IdList([u])
    case ArgList(l) => IdList(l)
    case ArgDict(d) => IdDict(d)
  }

  /**
   * `ExecutionOutput.from_ids` and the construction it ends with, whose validator copies
   * the links' object ids into `user_code_id` and `job_id`. `UID` values are truthy.
   */
  function FromIds(outputIds: OutputArg, userCodeId: UID, executingUserVerifyKey: string, serverUid: UID,
                   jobId: Option<UID>, outputPolicyId: Option<UID>, inputIds: Option<Dict<string, InputValue>>): (r: ExecutionOutput)
    ensures r.userCodeId == userCodeId && r.jobId == jobId
    ensures r.jobLink.None? <==> jobId.None?
    ensures r.userCodeLink == LinkedObject(userCodeId, serverUid, "UserCode")
    ensures r.jobLink.Some? ==> r.jobLink.value == LinkedObject(jobId.value, serverUid, "Job")
    ensures r.executingUserVerifyKey == executingUserVerifyKey && r.outputPolicyId == outputPolicyId
    ensures r.inputIds.None? <==> inputIds.None?
    ensures r.outputIds == Some(NormaliseOutputIds(outputIds))
    ensures OutputIdList(r) == match outputIds case OneId(u) => [u] case ArgList(l) => l case ArgDict(d) => Values(d)
  {
    var userCodeLink := LinkedObject(userCodeId, serverUid, "UserCode");
    var jobLink := if jobId.Some? then Some(LinkedObject(jobId.value, serverUid, "Job")) else None;
    var inputs := if inputIds.Some? then Some(KeepIds(inputIds.value)) else None;
    ExecutionOutput(
      executingUserVerifyKey, userCodeLink, Some(NormaliseOutputIds(outputIds)), jobLink, inputs,
      userCodeLink.objectUid, if jobLink.Some? then Some(jobLink.value.objectUid) else None, outputPolicyId)
  }

  /** The input ids `from_ids` stores are exactly the supplied arguments that are ids. */
  lemma FromIdsStoresIdInputs(outputIds: OutputArg, userCodeId: UID, key: string, serverUid: UID,
                              jobId: Option<UID>, policy: Option<UID>, inputIds: Dict<string, InputValue>, k: string)
    requires DistinctKeys(inputIds)
    ensures var e := FromIds(outputIds, userCodeId, key, serverUid, jobId, policy, Some(inputIds));
      e.inputIds.Some? &&
      (Lookup(e.inputIds.value, k).Some? <==> (Lookup(inputIds, k).Some? && Lookup(inputIds, k).value.UidValue?)) &&
      (Lookup(e.inputIds.value, k).Some? ==> Lookup(e.inputIds.value, k).value == Lookup(inputIds, k).value.id)
  {
    KeepIdsLookup(inputIds, k);
  }

  // ---------------------------------------------------------------------------
  // Id lists, the input check and the sync dependencies
  // ---------------------------------------------------------------------------

  /** `output_id_list` */
  function OutputIdList(e: ExecutionOutput): (r: seq<UID>)
    ensures e.outputIds == Some(IdList(r)) || e.outputIds.None? || (e.outputIds.Some? && e.outputIds.value.IdDict?)
    ensures e.outputIds.None? ==> r == []
    ensures (e.outputIds.Some? && e.outputIds.value.IdDict?) ==>
              (|r| == |e.outputIds.value.dict| && forall i :: 0 <= i < |r| ==> r[i] == e.outputIds.value.dict[i].1)
  {
    match e.outputIds
    case None => []
    case Some(IdList(l)) => l
    case Some(IdDict(d)) => Values(d)
  }

  /** `input_id_list` */
  function InputIdList(e: ExecutionOutput): (r: seq<UID>)
    ensures e.inputIds.None? ==> r == []
    ensures e.inputIds.Some? ==> |r| == |e.inputIds.value| && forall i :: 0 <= i < |r| ==> r[i] == e.inputIds.value[i].1
  {
    if e.inputIds.None? then [] else Values(e.inputIds.value)
  }

  /** What `check_input_ids` answers: no stored inputs, or every supplied key stored with an equal id. */
  predicate InputsMatch(stored: Option<Dict<string, UID>>, kwargs: Dict<string, UID>) {
    stored.None? || |stored.value| == 0
    || forall i :: 0 <= i < |kwargs| ==> Lookup(stored.value, kwargs[i].0) == Some(kwargs[i].1)
  }

  /** `check_input_ids` */
  method CheckInputIds(e: ExecutionOutput, kwargs: Dict<string, UID>) returns (ok: bool)
    ensures ok <==> InputsMatch(e.inputIds, kwargs)
  {
    if e.inputIds.None? || |e.inputIds.value| == 0 {
      return true;
    }
    var stored := e.inputIds.value;
    for i := 0 to |kwargs|
      invariant forall j :: 0 <= j < i ==> Lookup(stored, kwargs[j].0) == Some(kwargs[j].1)
    {
      var (key, value) := kwargs[i];
      if key !in Keys(stored) || Lookup(stored, key).value != value {
        return false;
      }
    }
    return true;
  }

  /** Stored inputs pass their own check, and any stored key may be left out of the supplied ones. */
  lemma {:induction false} StoredInputsPass(stored: Dict<string, UID>, drop: nat)
    requires DistinctKeys(stored) && drop <= |stored|
    ensures InputsMatch(Some(stored), stored[drop..])
  {
    forall i | 0 <= i < |stored[drop..]| ensures Lookup(stored, stored[drop..][i].0) == Some(stored[drop..][i].1) {
      LookupAt(stored, drop + i);
    }
  }

  /** `get_sync_dependencies`: the output ids, then the user code id, then the job id when set. */
  method GetSyncDependencies(e: ExecutionOutput) returns (res: seq<UID>)
    ensures |res| == |OutputIdList(e)| + (if e.jobId.Some? then 2 else 1)
    ensures res[..|OutputIdList(e)|] == OutputIdList(e)
    ensures res[|OutputIdList(e)|] == e.userCodeId
    ensures e.jobId.Some? ==> res[|res| - 1] == e.jobId.value
  {
    res := [];
    res := res + OutputIdList(e);
    res := res + [e.userCodeId];
    if e.jobId.Some? {
      res := res + [e.jobId.value];
    }
  }

  // ---------------------------------------------------------------------------
  // has_output_read_permissions
  // ---------------------------------------------------------------------------

  /** `ActionObjectREAD(uid=..., credentials=...)` */
  datatype ReadPermission = ActionObjectREAD(uid: UID, credentials: string)

  /** The permissions one output needs: reading every one of its output ids. */
  function ReadsFor(e: ExecutionOutput, userVerifyKey: string): (r: seq<ReadPermission>)
    ensures |r| == |OutputIdList(e)|
    ensures forall i :: 0 <= i < |r| ==> r[i] == ActionObjectREAD(OutputIdList(e)[i], userVerifyKey)
  {
    var ids := OutputIdList(e);
    seq(|ids|, i requires 0 <= i < |ids| => ActionObjectREAD(ids[i], userVerifyKey))
  }

  /**
   * `has_output_read_permissions` over the outputs stored for the user code: true as soon
   * as one output's whole list of reads passes `hasPermissions`, the action store's check.
   */
  method HasOutputReadPermissions(allOutputs: seq<ExecutionOutput>, userVerifyKey: string,
                                  hasPermissions: seq<ReadPermission> -> bool) returns (r: bool)
    ensures r <==> exists i :: 0 <= i < |allOutputs| && hasPermissions(ReadsFor(allOutputs[i], userVerifyKey))
  {
    for i := 0 to |allOutputs|
      invariant forall j :: 0 <= j < i ==> !hasPermissions(ReadsFor(allOutputs[j], userVerifyKey))
    {
      var output := allOutputs[i];
      var resultIds := OutputIdList(output);
      var permissions := seq(|resultIds|, j requires 0 <= j < |resultIds| => ActionObjectREAD(resultIds[j], userVerifyKey));
      if hasPermissions(permissions) {
        assert permissions == ReadsFor(output, userVerifyKey);
        return true;
      }
    }
    return false;
  }
}

=== FILE: py_base.dfy ===
/**
 * The small part of Python's built-in behaviour that the modelled code leans on:
 * optional values, results for raised exceptions, `str.startswith`, the `in`
 * operator on strings, `str.split` / `str.join` on one separator, insertion-ordered
 * dictionaries and list indexing with negative indices.
 */
module PyBase {

  datatype Option<+T> = None | Some(value: T)

  /** A call that either returns a value or raises; `msg` is the exception's text. */
  datatype Result<+T> = Ok(value: T) | Err(msg: string)

  // ---------------------------------------------------------------------------
  // Strings
  // ---------------------------------------------------------------------------

  /** `s.startswith(prefix)` */
  predicate StartsWith(s: string, prefix: string) {
    |prefix| <= |s| && s[..|prefix|] == prefix
  }

  /** `s.endswith(suffix)` */
  predicate EndsWith(s: string, suffix: string) {
    |suffix| <= |s| && s[|s| - |suffix|..] == suffix
  }

  /** `endswith` chains: a suffix of a suffix is a suffix. */
  lemma EndsWithTrans(s: string, t: string, u: string)
    requires EndsWith(s, t) && EndsWith(t, u)
    ensures EndsWith(s, u)
  {
    assert s[|s| - |u|..] == s[|s| - |t|..][|t| - |u|..];
  }

  /** `sub in s`: some suffix of `s` starts with `sub` (the empty string is in every string). */
  predicate Contains(s: string, sub: string)
    decreases |s|
  {
    StartsWith(s, sub) || (|s| > 0 && Contains(s[1..], sub))
  }

  /** `sub in s` holds exactly when `sub` occurs at some position of `s`. */
  lemma {:induction false} ContainsIff(s: string, sub: string)
    ensures Contains(s, sub) <==> exists i :: 0 <= i <= |s| - |sub| && StartsWith(s[i..], sub)
    decreases |s|
  {
    if Contains(s, sub) {
      if StartsWith(s, sub) {
        assert s[0..] == s;
      } else {
        ContainsIff(s[1..], sub);
        var i :| 0 <= i <= |s[1..]| - |sub| && StartsWith(s[1..][i..], sub);
        assert s[1..][i..] == s[i + 1..];
      }
    }
    if exists i :: 0 <= i <= |s| - |sub| && StartsWith(s[i..], sub) {
      var i :| 0 <= i <= |s| - |sub| && StartsWith(s[i..], sub);
      if i == 0 {
        assert s[0..] == s;
      } else {
        assert s[1..][i - 1..] == s[i..];
        ContainsIff(s[1..], sub);
      }
    }
  }

  /** Position of the first `c` in `s`, if any. */
  function IndexOf(s: string, c: char): (r: Option<nat>)
    ensures r.Some? ==> r.value < |s| && s[r.value] == c && c !in s[..r.value]
    ensures r.None? <==> c !in s
  {
    if c !in s then None
    else if s[0] == c then Some(0)
    else
      var j := IndexOf(s[1..], c).value;
      assert s[..j + 1] == [s[0]] + s[1..][..j];
      Some(j + 1)
  }

  /** `s.split(sep)` for a one-character separator: never empty, keeps empty fields. */
  function Split(s: string, sep: char): (parts: seq<string>)
    ensures |parts| >= 1
    decreases |s|
  {
    match IndexOf(s, sep)
    case None => [s]
    case Some(i) => [s[..i]] + Split(s[i + 1..], sep)
  }

  /** `sep.join(parts)` */
  function Join(parts: seq<string>, sep: char): string {
    if |parts| == 0 then ""
    else if |parts| == 1 then parts[0]
    else parts[0] + [sep] + Join(parts[1..], sep)
  }

  /** No field of `s.split(sep)` contains `sep`. */
  lemma {:induction false} SplitFieldsFree(s: string, sep: char)
    ensures forall p :: p in Split(s, sep) ==> sep !in p
    decreases |s|
  {
    match IndexOf(s, sep)
    case None =>
    case Some(i) => SplitFieldsFree(s[i + 1..], sep);
  }

  /** Joining the fields of a split gives the string back. */
  lemma {:induction false} JoinSplit(s: string, sep: char)
    ensures Join(Split(s, sep), sep) == s
    decreases |s|
  {
    match IndexOf(s, sep)
    case None =>
    case Some(i) =>
      var rest := Split(s[i + 1..], sep);
      JoinCons(s[..i], rest, sep);
      JoinSplit(s[i + 1..], sep);
      assert s == s[..i] + [sep] + s[i + 1..];
  }

  lemma JoinCons(a: string, ps: seq<string>, sep: char)
    requires |ps| >= 1
    ensures Join([a] + ps, sep) == a + [sep] + Join(ps, sep)
  {
    assert ([a] + ps)[1..] == ps;
  }

  /** The first separator of `a + [sep] + rest` is the one after `a` when `a` has none. */
  lemma FirstSeparator(a: string, sep: char, rest: string)
    requires sep !in a
    ensures IndexOf(a + [sep] + rest, sep) == Some(|a|)
  {
    var s := a + [sep] + rest;
    assert s[|a|] == sep;
    assert s[..|a|] == a;
  }

  /** Splitting a join of separator-free fields gives the fields back. */
  lemma {:induction false} SplitJoin(parts: seq<string>, sep: char)
    requires |parts| >= 1
    requires forall i :: 0 <= i < |parts| ==> sep !in parts[i]
    ensures Split(Join(parts, sep), sep) == parts
  {
    if |parts| > 1 {
      var rest := Join(parts[1..], sep);
      var s := Join(parts, sep);
      assert s == parts[0] + [sep] + rest;
      var i := |parts[0]|;
      FirstSeparator(parts[0], sep, rest);
      assert s[..i] == parts[0];
      assert s[i + 1..] == rest;
      SplitJoin(parts[1..], sep);
      assert Split(s, sep) == [s[..i]] + Split(s[i + 1..], sep);
      assert parts == [parts[0]] + parts[1..];
    } else {
      assert IndexOf(parts[0], sep) == None;
    }
  }

  // ---------------------------------------------------------------------------
  // Exceptions
  // ---------------------------------------------------------------------------

  /** How a raised exception travels in an `Err`: its class name, `": "`, then `str(e)`. */
  function Raise(cls: string, msg: string): string {
    cls + ": " + msg
  }

  /** The text after the first `": "` of `t`, if there is one. */
  function AfterSeparator(t: string): Option<string> {
    if |t| < 2 then None
    else if t[0] == ':' && t[1] == ' ' then Some(t[2..])
    else AfterSeparator(t[1..])
  }

  /** `str(e)` for an exception carried as `Raise(cls, msg)`: the text after the class name. */
  function ExceptionStr(t: string): string {
    match AfterSeparator(t)
    case Some(m) => m
    case None => t
  }

  /** Reading `str(e)` back undoes `Raise` for every class name without a colon. */
  lemma {:induction false} ExceptionStrOfRaise(cls: string, msg: string)
    requires forall i :: 0 <= i < |cls| ==> cls[i] != ':'
    ensures AfterSeparator(Raise(cls, msg)) == Some(msg)
    ensures ExceptionStr(Raise(cls, msg)) == msg
    decreases |cls|
  {
    var t := Raise(cls, msg);
    if |cls| == 0 {
      assert t[2..] == msg;
    } else {
      assert t[0] == cls[0];
      assert t[1..] == Raise(cls[1..], msg);
      ExceptionStrOfRaise(cls[1..], msg);
    }
  }

  // ---------------------------------------------------------------------------
  // Dictionaries: insertion-ordered association lists with distinct keys
  // ---------------------------------------------------------------------------

  type Dict<K, V> = seq<(K, V)>

  function Keys<K, V>(d: Dict<K, V>): (ks: seq<K>)
    ensures |ks| == |d| && forall i :: 0 <= i < |d| ==> ks[i] == d[i].0
  {
    if |d| == 0 then [] else [d[0].0] + Keys(d[1..])
  }

  function Values<K, V>(d: Dict<K, V>): (vs: seq<V>)
    ensures |vs| == |d| && forall i :: 0 <= i < |d| ==> vs[i] == d[i].1
  {
    if |d| == 0 then [] else [d[0].1] + Values(d[1..])
  }

  predicate DistinctKeys<K(==), V>(d: Dict<K, V>) {
    forall i, j :: 0 <= i < j < |d| ==> d[i].0 != d[j].0
  }

  /** `d.get(k)` */
  function Lookup<K(==), V>(d: Dict<K, V>, k: K): (r: Option<V>)
    ensures r.None? <==> k !in Keys(d)
    ensures r.Some? ==> exists i :: 0 <= i < |d| && d[i] == (k, r.value)
  {
    if |d| == 0 then None
    else if d[0].0 == k then Some(d[0].1)
    else
      var r := Lookup(d[1..], k);
      assert r.Some? ==> exists i :: 0 <= i < |d[1..]| && d[1..][i] == (k, r.value);
      r
  }

  /** In a dictionary with distinct keys, the entry at position `i` is what its key looks up. */
  lemma {:induction false} LookupAt<K, V>(d: Dict<K, V>, i: nat)
    requires DistinctKeys(d) && i < |d|
    ensures Lookup(d, d[i].0) == Some(d[i].1)
  {
    if i > 0 {
      LookupAt(d[1..], i - 1);
    }
  }

  /** `d[k] = v`: an existing key keeps its position, a new key goes last. */
  function Put<K(==), V>(d: Dict<K, V>, k: K, v: V): Dict<K, V> {
    if |d| == 0 then [(k, v)]
    else if d[0].0 == k then [(k, v)] + d[1..]
    else [d[0]] + Put(d[1..], k, v)
  }

  /** Setting a key the dictionary has keeps every key in its place. */
  lemma {:induction false} PutExisting<K, V>(d: Dict<K, V>, k: K, v: V)
    requires k in Keys(d)
    ensures |Put(d, k, v)| == |d| && Keys(Put(d, k, v)) == Keys(d)
  {
    if d[0].0 != k {
      assert k in Keys(d[1..]);
      PutExisting(d[1..], k, v);
    }
  }

  /** Setting a new key appends the entry. */
  lemma {:induction false} PutNew<K, V>(d: Dict<K, V>, k: K, v: V)
    requires k !in Keys(d)
    ensures Put(d, k, v) == d + [(k, v)]
  {
    if |d| > 0 {
      assert d[0].0 == Keys(d)[0];
      assert k !in Keys(d[1..]);
      PutNew(d[1..], k, v);
      assert d == [d[0]] + d[1..];
    }
  }

  /** What a lookup sees after `d[k] = v`. */
  lemma {:induction false} LookupPut<K, V>(d: Dict<K, V>, k: K, v: V, k': K)
    ensures Lookup(Put(d, k, v), k') == if k' == k then Some(v) else Lookup(d, k')
  {
    if |d| > 0 && d[0].0 != k {
      LookupPut(d[1..], k, v, k');
    }
  }

  /** `d[k] = v` keeps the keys distinct. */
  lemma {:induction false} PutDistinct<K, V>(d: Dict<K, V>, k: K, v: V)
    requires DistinctKeys(d)
    ensures DistinctKeys(Put(d, k, v))
  {
    if |d| > 0 && d[0].0 != k {
      PutDistinct(d[1..], k, v);
      var r := Put(d, k, v);
      forall j | 0 < j < |r| ensures r[0].0 != r[j].0 {
        var t := Put(d[1..], k, v);
        assert r[j] == t[j - 1];
        if k in Keys(d[1..]) {
          PutExisting(d[1..], k, v);
          assert Keys(t) == Keys(d[1..]);
          assert t[j - 1].0 == Keys(t)[j - 1] == d[1..][j - 1].0;
        } else {
          PutNew(d[1..], k, v);
          assert t == d[1..] + [(k, v)];
          if j - 1 < |d[1..]| {
            assert t[j - 1] == d[j];
          } else {
            assert t[j - 1] == (k, v);
            assert d[0].0 == Keys(d)[0];
          }
        }
      }
    } else if |d| > 0 {
      var r := Put(d, k, v);
      assert r[1..] == d[1..];
    }
  }

  // ---------------------------------------------------------------------------
  // Lists
  // ---------------------------------------------------------------------------

  /** `xs[i]`: negative indices count from the end; anything else raises IndexError. */
  function PyIndex<T>(xs: seq<T>, i: int): (r: Result<T>)
    ensures r.Ok? <==> -|xs| <= i < |xs|
    ensures 0 <= i < |xs| ==> r == Ok(xs[i])
    ensures -|xs| <= i < 0 ==> r == Ok(xs[|xs| + i])
  {
    if 0 <= i < |xs| then Ok(xs[i])
    else if -|xs| <= i < 0 then Ok(xs[|xs| + i])
    else Err("IndexError: list index out of range")
  }

  /** The concatenation of a list of lists. */
  function Concat<T>(xss: seq<seq<T>>): seq<T> {
    if |xss| == 0 then [] else xss[0] + Concat(xss[1..])
  }

  lemma {:induction false} ConcatAppend<T>(a: seq<seq<T>>, b: seq<seq<T>>)
    ensures Concat(a + b) == Concat(a) + Concat(b)
  {
    if |a| > 0 {
      assert (a + b)[1..] == a[1..] + b;
      ConcatAppend(a[1..], b);
    } else {
      assert a + b == b;
    }
  }

  /** Taking one more list of `xss` appends that list to the concatenation. */
  lemma ConcatPrefixStep<T>(xss: seq<seq<T>>, i: nat)
    requires i < |xss|
    ensures Concat(xss[..i + 1]) == Concat(xss[..i]) + xss[i]
  {
    assert xss[..i + 1] == xss[..i] + [xss[i]];
    ConcatAppend(xss[..i], [xss[i]]);
    assert Concat([xss[i]]) == xss[i] + Concat([]);
  }

  /** An element of one of the lists is an element of their concatenation, and only those are. */
  lemma {:induction false} ConcatMember<T>(xss: seq<seq<T>>, x: T)
    ensures x in Concat(xss) <==> exists i :: 0 <= i < |xss| && x in xss[i]
  {
    if |xss| > 0 {
      ConcatMember(xss[1..], x);
      if x in Concat(xss[1..]) {
        var i :| 0 <= i < |xss[1..]| && x in xss[1..][i];
        assert x in xss[i + 1];
      }
      if exists i :: 0 <= i < |xss| && x in xss[i] {
        var i :| 0 <= i < |xss| && x in xss[i];
        if i > 0 {
          assert x in xss[1..][i - 1];
        }
      }
    }
  }

  /** `startswith` chains: a prefix of a prefix is a prefix. */
  lemma StartsWithTrans(s: string, p: string, q: string)
    requires StartsWith(s, p) && StartsWith(p, q)
    ensures StartsWith(s, q)
  {
    assert s[..|q|] == s[..|p|][..|q|];
  }
}

=== FILE: request_service.dfy ===
/**
 * The list logic of the request service: the request information list that
 * `get_all_info` collects, its split into fixed-size pages and the choice of one page,
 * the user-name filter of `filter_all_info`, and the in-place updates of a request's
 * changes and tags. The stash, the user and notification services are parameters.
 */
module RequestService {
  import opened PyBase
  import opened Identity

  // ---------------------------------------------------------------------------
  // Requests and request information
  // ---------------------------------------------------------------------------

  /** A change a request asks for; its contents play no part here. */
  datatype Change = Change(handle: nat)

  /** The notification the notification service files for a request. */
  datatype NotificationRef = NotificationRef(handle: nat)

  /** The part of a user's view the filter looks at. */
  datatype UserView = UserView(name: string)

  /** A stored request, whose `changes` and `tags` lists the service updates in place. */
  class Request {
    const id: UID
    const requestingUserVerifyKey: string
    var changes: seq<Change>
    var tags: seq<string>

    constructor(id: UID, requestingUserVerifyKey: string, changes: seq<Change>, tags: seq<string>)
      ensures this.id == id && this.requestingUserVerifyKey == requestingUserVerifyKey
      ensures this.changes == changes && this.tags == tags
    {
      this.id := id;
      this.requestingUserVerifyKey := requestingUserVerifyKey;
      this.changes := changes;
      this.tags := tags;
    }

    /** `request.changes.extend(changes)` in `add_changes`: the old changes stay first, untouched. */
    method AddChanges(more: seq<Change>)
      modifies this
      ensures changes == old(changes) + more
      ensures changes[..|old(changes)|] == old(changes) && |changes| == |old(changes)| + |more|
      ensures tags == old(tags)
    {
      changes := changes + more;
    }

    /** `request.tags = tags` in `set_tags`: the list is replaced as a whole. */
    method SetTags(newTags: seq<string>)
      modifies this
      ensures tags == newTags && changes == old(changes)
    {
      tags := newTags;
    }
  }

  /** `RequestInfo(user=..., request=..., notification=...)` */
  datatype RequestInfo = RequestInfo(user: UserView, request: Request, notification: NotificationRef)

  /** The information `get_all_info` builds for one request, from the user and notification services. */
  function InfoOf(req: Request, userOf: string -> UserView, messageOf: UID -> NotificationRef): RequestInfo {
    RequestInfo(userOf(req.requestingUserVerifyKey), req, messageOf(req.id))
  }

  // ---------------------------------------------------------------------------
  // Chunking
  // ---------------------------------------------------------------------------

  function Min(a: int, b: int): int {
    if a <= b then a else b
  }

  /** `xs[lo:hi]` for `0 <= lo <= hi`: both bounds are clipped to the length. */
  function PySlice<T>(xs: seq<T>, lo: nat, hi: nat): seq<T>
    requires lo <= hi
  {
    xs[Min(lo, |xs|)..Min(hi, |xs|)]
  }

  /**
   * `[xs[i : i + size] for i in range(0, len(xs), size)]`, taken one chunk at a time:
   * the first `size` items, then the chunks of the rest. `ChunkAt` and `ChunkCountIsCeiling`
   * show it is the comprehension, chunk for chunk.
   */
  function Chunks<T>(xs: seq<T>, size: nat): (r: seq<seq<T>>)
    requires size > 0
    ensures forall k :: 0 <= k < |r| - 1 ==> |r[k]| == size
    ensures |r| > 0 ==> 0 < |r[|r| - 1]| <= size
    ensures |r| == 0 <==> |xs| == 0
    decreases |xs|
  {
    if |xs| == 0 then []
    else if |xs| <= size then [xs]
    else [xs[..size]] + Chunks(xs[size..], size)
  }

  /** There are ⌈n / size⌉ chunks: they cover all n items, and one chunk fewer would not. */
  lemma {:induction false} ChunkCountIsCeiling<T>(xs: seq<T>, size: nat)
    requires size > 0
    ensures |xs| <= |Chunks(xs, size)| * size
    ensures |xs| > 0 ==> (|Chunks(xs, size)| - 1) * size < |xs|
    decreases |xs|
  {
    if |xs| > size {
      var c := |Chunks(xs[size..], size)|;
      ChunkCountIsCeiling(xs[size..], size);
      assert |Chunks(xs, size)| == c + 1;
      MulSucc(c, size);
    }
  }

  lemma MulSucc(c: nat, size: nat)
    ensures (c + 1) * size == c * size + size
  {
  }

  /** Where chunk `k` starts, counted one chunk at a time; `OffsetIsProduct` shows it is `k * size`. */
  function Offset(k: nat, size: nat): nat {
    if k == 0 then 0 else Offset(k - 1, size) + size
  }

  lemma {:induction false} OffsetIsProduct(k: nat, size: nat)
    ensures Offset(k, size) == k * size
  {
    if k > 0 {
      OffsetIsProduct(k - 1, size);
      MulSucc(k - 1, size);
    }
  }

  lemma {:induction false} ChunkAtOffset<T>(xs: seq<T>, size: nat, k: nat)
    requires size > 0 && k < |Chunks(xs, size)|
    ensures Chunks(xs, size)[k] == PySlice(xs, Offset(k, size), Offset(k, size) + size)
    decreases k
  {
    if k == 0 {
      FirstChunk(xs, size);
    } else {
      var o := Offset(k - 1, size);
      assert Offset(k, size) == o + size;
      ChunksStep(xs, size, k);
      ChunkAtOffset(xs[size..], size, k - 1);
      SliceShift(xs, size, o, o + size);
    }
  }

  lemma FirstChunk<T>(xs: seq<T>, size: nat)
    requires size > 0 && 0 < |Chunks(xs, size)|
    ensures Chunks(xs, size)[0] == PySlice(xs, 0, size)
  {
    if |xs| <= size {
      assert xs[..|xs|] == xs;
    }
  }

  /** Past the first chunk, the chunks are those of the rest of the list. */
  lemma ChunksStep<T>(xs: seq<T>, size: nat, k: nat)
    requires size > 0 && 0 < k < |Chunks(xs, size)|
    ensures |xs| > size && k - 1 < |Chunks(xs[size..], size)|
    ensures Chunks(xs, size)[k] == Chunks(xs[size..], size)[k - 1]
  {
  }

  /** Chunk `k` is `xs[k * size : k * size + size]`. */
  lemma ChunkAt<T>(xs: seq<T>, size: nat, k: nat)
    requires size > 0 && k < |Chunks(xs, size)|
    ensures Chunks(xs, size)[k] == PySlice(xs, k * size, k * size + size)
  {
    ChunkAtOffset(xs, size, k);
    OffsetIsProduct(k, size);
  }

  /** Slicing the tail after `d` items is slicing the whole list `d` further on. */
  lemma SliceShift<T>(xs: seq<T>, d: nat, lo: nat, hi: nat)
    requires d <= |xs| && lo <= hi
    ensures PySlice(xs[d..], lo, hi) == PySlice(xs, lo + d, hi + d)
  {
  }

  /** The chunks, concatenated, give the list back. */
  lemma {:induction false} ChunksConcat<T>(xs: seq<T>, size: nat)
    requires size > 0
    ensures Concat(Chunks(xs, size)) == xs
    decreases |xs|
  {
    if |xs| > size {
      ChunksConcat(xs[size..], size);
      assert Chunks(xs, size)[1..] == Chunks(xs[size..], size);
      assert xs == xs[..size] + xs[size..];
    }
  }

  // ---------------------------------------------------------------------------
  // Page selection
  // ---------------------------------------------------------------------------

  /** What the two listing calls return: a flat list (one page or everything), or every page. */
  datatype Listing<T> = Flat(items: seq<T>) | Pages(pages: seq<seq<T>>)

  /** The chunks for a truthy `page_size`; a negative size gives an empty `range`. */
  function ChunksFor<T>(xs: seq<T>, size: int): seq<seq<T>> {
    if size > 0 then Chunks(xs, size) else []
  }

  /** `get_all_info`'s paging: a truthy `page_index` picks one chunk (Python indexing), otherwise all chunks. */
  function PageAll<T>(xs: seq<T>, pageIndex: Option<int>, pageSize: Option<int>): (r: Result<Listing<T>>)
    ensures (pageSize.None? || pageSize == Some(0)) ==> r == Ok(Flat(xs))
    ensures (pageSize.Some? && pageSize.value > 0 && (pageIndex.None? || pageIndex == Some(0))) ==>
              r == Ok(Pages(Chunks(xs, pageSize.value)))
    ensures (pageSize.Some? && pageSize.value > 0 && pageIndex.Some? && 0 < pageIndex.value < |Chunks(xs, pageSize.value)|) ==>
              r == Ok(Flat(Chunks(xs, pageSize.value)[pageIndex.value]))
  {
    if pageSize.None? || pageSize.value == 0 then Ok(Flat(xs))
    else
      var chunked := ChunksFor(xs, pageSize.value);
      if pageIndex.Some? && pageIndex.value != 0 then
        match PyIndex(chunked, pageIndex.value)
        case Ok(page) => Ok(Flat(page))
        case Err(m) => Err(m)
      else Ok(Pages(chunked))
  }

  /** `filter_all_info`'s paging: any `page_index` that is not `None`, 0 included, picks one chunk. */
  function PageFiltered<T>(xs: seq<T>, pageIndex: Option<int>, pageSize: Option<int>): (r: Result<Listing<T>>)
    ensures (pageSize.None? || pageSize == Some(0)) ==> r == Ok(Flat(xs))
    ensures (pageSize.Some? && pageSize.value > 0 && pageIndex.None?) ==> r == Ok(Pages(Chunks(xs, pageSize.value)))
    ensures (pageSize.Some? && pageSize.value > 0 && pageIndex.Some? && 0 <= pageIndex.value < |Chunks(xs, pageSize.value)|) ==>
              r == Ok(Flat(Chunks(xs, pageSize.value)[pageIndex.value]))
  {
    if pageSize.None? || pageSize.value == 0 then Ok(Flat(xs))
    else
      var chunked := ChunksFor(xs, pageSize.value);
      if pageIndex.Some? then
        match PyIndex(chunked, pageIndex.value)
        case Ok(page) => Ok(Flat(page))
        case Err(m) => Err(m)
      else Ok(Pages(chunked))
  }

  /**
   * Page index 0 means "every page" to `get_all_info` but "the first page" to
   * `filter_all_info`; the two agree only when there is at most one page.
   */
  lemma PageZeroDisagrees<T>(xs: seq<T>, size: nat)
    requires size > 0 && |xs| > 0
    ensures PageAll(xs, Some(0), Some(size)) == Ok(Pages(Chunks(xs, size)))
    ensures PageFiltered(xs, Some(0), Some(size)) == Ok(Flat(xs[..Min(size, |xs|)]))
  {
    if |xs| <= size {
      assert xs[..|xs|] == xs;
    }
  }

  /** A page picked by a non-zero index is the slice of the list that the page covers. */
  lemma PageIsSlice<T>(xs: seq<T>, pageIndex: nat, size: nat)
    requires size > 0 && 0 < pageIndex < |Chunks(xs, size)|
    ensures PageAll(xs, Some(pageIndex), Some(size)) == Ok(Flat(PySlice(xs, pageIndex * size, pageIndex * size + size)))
  {
    ChunkAt(xs, size, pageIndex);
  }

  // ---------------------------------------------------------------------------
  // The name filter
  // ---------------------------------------------------------------------------

  /** `list(filter(lambda res: request_filter.name in res.user.name, result))` */
  function FilterByName(infos: seq<RequestInfo>, name: string): (r: seq<RequestInfo>)
    ensures forall i :: 0 <= i < |r| ==> r[i] in infos && Contains(r[i].user.name, name)
    ensures forall i :: 0 <= i < |infos| && Contains(infos[i].user.name, name) ==> infos[i] in r
    ensures |r| <= |infos|
  {
    if |infos| == 0 then []
    else (if Contains(infos[0].user.name, name) then [infos[0]] else []) + FilterByName(infos[1..], name)
  }

  /** Filtering a concatenation filters each part in place: the original order is kept. */
  lemma {:induction false} FilterAppend(a: seq<RequestInfo>, b: seq<RequestInfo>, name: string)
    ensures FilterByName(a + b, name) == FilterByName(a, name) + FilterByName(b, name)
  {
    if |a| > 0 {
      assert (a + b)[1..] == a[1..] + b;
      FilterAppend(a[1..], b, name);
    } else {
      assert a + b == b;
    }
  }

  /** Filtering twice by the same name changes nothing more. */
  lemma {:induction false} FilterIdempotent(infos: seq<RequestInfo>, name: string)
    ensures FilterByName(FilterByName(infos, name), name) == FilterByName(infos, name)
  {
    if |infos| > 0 {
      var head := if Contains(infos[0].user.name, name) then [infos[0]] else [];
      FilterAppend(head, FilterByName(infos[1..], name), name);
      FilterIdempotent(infos[1..], name);
    }
  }

  // ---------------------------------------------------------------------------
  // The two service calls
  // ---------------------------------------------------------------------------

  /**
   * `get_all_info`: one `RequestInfo` per stored request, in stash order, then paged.
   * `userOf` and `messageOf` stand for the user and notification services.
   */
  method GetAllInfo(stored: seq<Request>, userOf: string -> UserView, messageOf: UID -> NotificationRef,
                    pageIndex: Option<int>, pageSize: Option<int>)
    returns (r: Result<Listing<RequestInfo>>, requests: seq<RequestInfo>)
    ensures |requests| == |stored|
    ensures forall i :: 0 <= i < |stored| ==> requests[i] == InfoOf(stored[i], userOf, messageOf)
    ensures r == PageAll(requests, pageIndex, pageSize)
  {
    requests := [];
    for i := 0 to |stored|
      invariant |requests| == i
      invariant forall j :: 0 <= j < i ==> requests[j] == InfoOf(stored[j], userOf, messageOf)
    {
      var req := stored[i];
      requests := requests + [RequestInfo(userOf(req.requestingUserVerifyKey), req, messageOf(req.id))];
    }
    r := PageAll(requests, pageIndex, pageSize);
  }

  /**
   * `filter_all_info`: `get_all_info` with its default arguments (the flat list), the
   * entries whose user name contains the filter name, then paged.
   */
  function FilterAllInfo(all: seq<RequestInfo>, filterName: string, pageIndex: Option<int>, pageSize: Option<int>): (r: Result<Listing<RequestInfo>>)
    ensures (pageSize.None? || pageSize == Some(0)) ==>
              (r.Ok? && r.value.Flat?
               && (forall i :: 0 <= i < |r.value.items| ==> r.value.items[i] in all && Contains(r.value.items[i].user.name, filterName))
               && (forall i :: 0 <= i < |all| && Contains(all[i].user.name, filterName) ==> all[i] in r.value.items))
  {
    PageFiltered(FilterByName(all, filterName), pageIndex, pageSize)
  }

  /** `get_all_info` with its defaults returns every request's information, unpaged. */
  lemma DefaultListingIsFlat(requests: seq<RequestInfo>)
    ensures PageAll(requests, Some(0), Some(0)) == Ok(Flat(requests))
  {
  }
}
